=== FILE: README.md ===
# CommUnity core, modelled in Dafny

CommUnity is a community platform. Users register and log in. They join
groups, publish and attend events, message each other and receive
notifications. The platform has two halves:

- a React/Redux single-page client;
- a Flask/SQLAlchemy server.

This project models the logic at the centre of both halves, and proves what
that logic promises.

**The client store.** Each Redux slice (auth, events, groups, posts,
messages, notifications, profile, search, settings) is a class. Its fields
are the slice's state. Every reducer case is a method whose contract states
the slice's complete new state.

**The realtime layer.**
- The socket service becomes a class that tracks which sockets are open and
  which events were emitted on them.
- The WebSocket context binds the service to the token.
- The `useSearch` hook runs its effect once per change of its dependencies.

**Pure helpers.**
- Time-ago labels and date ranges.
- Avatar initials and size classes.
- The sidebar's fallbacks.
- Interest parsing in the profile editor. For interests that are
  non-empty, trimmed and comma-free, which is every list parsing produces,
  it is proved to round-trip with the way the editor formats interests.
- Event-type classification and colours.
- Calendar layout.
- Member and conversation filters.

**Page and modal state.**
- The Events page's join toggles.
- The agenda, requirement and category editors of the event and community
  modals.
- The category list on the settings page.
- The mock event list of the community events page.

**The server.** The server's tables are classes holding maps or sequences of
rows. Each route handler is a method.
- It returns the response the handler sends: status code plus body.
- Its contract gives the new table contents.
- For every modelled route handler, a failed commit is a parameter, and so
  is a request without a JSON body where the handler reads one. After a failed commit the table is unchanged,
  because every handler that fails rolls its session back or raises before
  committing. The notification service takes neither; see "Left out".
- Date and time parsing (`strptime`) are parameters as well: a predicate
  saying whether the text parses.

Modules follow the source files:

| source | modules |
|---|---|
| `frontend/src/store/slices` | `*Slice` |
| `frontend/src/services`, `contexts` and `hooks` | `WebSocketService`, `WebSocketContext`, `UseSearch` |
| `frontend/src/utils` and `components` | `DateUtils`, `UserAvatar`, `Sidebar`, `EditProfileModal`, `CreateEventModal`, `CreateCommunityModal`, `EventCalendar`, `ConversationsList`, `Categories` (shared by the three category pickers) |
| `frontend/src/pages` | `EventsPage`, `CommunityEvents`, `CommunitySettings`, `CommunityManage` |
| `backend/app/api` | `ApiEvents`, `ApiAuth` |
| `backend/app/routes` | `RoutesEvents`, `RoutesGroups`, `RoutesSearch`, `RoutesAuth`, `RoutesProfiles` |
| `backend/app/services` | `NotificationService` |
| shared | `Common` (Option/Result, JavaScript truthiness, filter), `Text` (case mapping, `split`, `join`, `trim`), `Decimal` (`String(n)` and back) |

### Where the code departs from its documentation, and defects it shows

The model follows the code in every case below. Where a defect is named, the
listed member exhibits it.

- **Pushed chat messages are lost.** The socket's `new_message` handler
  dispatches the bare message object as the `addMessage` payload. The server
  names the field `conversation_id`, so the reducer reads no
  `conversationId`. Two outcomes follow:
  - the message is appended to the first conversation without an id (none,
    normally);
  - when no conversation is selected, the reducer dereferences `null` and
    throws.

  See `WebSocketService.OnNewMessage` and `WebSocketService.PushedMessageIsLost`.
- **The old socket leaks.** `connect` opens a new socket without closing the
  old one. When the token changes, the context connects again, so the first
  socket stays open. It keeps its `new_message` and `new_notification`
  listeners, so a push that reaches both sockets is handled twice: one
  notification is added to the store twice. See
  `WebSocketService.Service.Connect` and `WebSocketContext.TokenSwitch`.
- **Search responses can arrive out of order.** `search` has no request
  cancellation: whichever response resolves last is shown. See
  `SearchSlice.OutOfOrderResponses`.
- **A failed `initializeAuth` keeps a stale token.** It clears the user and
  the stored token, but the `token` field keeps the old value. See
  `AuthSlice.AuthState.InitializeAuth`.
- **The settings page always creates category "9".** It rebuilds its
  category list on every render and pushes into that copy, so every new
  category gets id "9" and none stays listed. See
  `CommunitySettings.CreateTwice`.
- **The event modal never hands its form to its caller.** Its submit
  handler sends the form to the server, then resets and closes, but never
  calls the `onSubmit` it receives. See
  `CreateEventModal.CreateEventDialog.Submit`.
- **The event modal's category dialog is an empty placeholder.** Choosing
  "create new" opens a dialog whose body is a comment: it has no field, no
  button and no form. Nothing wires up `handleCreateCategory`, and nothing
  can close the dialog again. `CreateEventModal.CreateEventDialog.CreateCategory`
  models the handler as written, though no control reaches it.
- **A latent defect: the community events page would always create event
  "4".** It rebuilds its three mock events on every render, so its
  `handleCreateEvent` would always give a new event the id "4". The page
  passes that handler as the event modal's `onSubmit`, which the modal never
  calls (see above), so the defect cannot be reached as the code stands. See
  `CommunityEvents.IdAfterRender`.
- **Profile updates answer the wrong status for unknown or non-canonical
  ids.**
  - The server's `update_profile` answers 500 "Failed to update profile",
    not 404, for an unknown id: `get_or_404` raises inside the `try`.
  - It compares the path segment with `str(current_user_id)`, so a
    leading-zero segment such as `05` is refused with 403 even for the
    owner.

  See `RoutesProfiles.ProfileTable.UpdateProfile` and
  `RoutesProfiles.LeadingZeroRefused`.
- **Email format is never checked at registration.** `register` in
  `backend/app/routes/auth.py` never calls `validate_email`. In that
  function's pattern, `$` also accepts one trailing newline. See
  `RoutesAuth.FormatNeverChecked` and `RoutesAuth.ValidateEmail`.
- **The sidebar's initial can disagree with its name.** When a user has a
  first name but no last name, the sidebar shows "Guest User" next to the
  initial of the first name. See `Sidebar.InitialMatchesFullName`.
- **`groups.py` cannot run its create, join and leave routes.** It uses
  `User` without importing it, so all three raise `NameError` (lines 34, 46
  and 59). The model gives these routes the rule the code evidently means:
  the creator is the first member, and join and leave add or remove the
  member.
- **Client and server disagree on the search parameter.** The client's
  search service sends `query=`, but the server reads `q`. The model takes
  the server's parameter as given.

## Model

| member | source | states |
|---|---|---|
| NotificationSlice.NotificationState.constructor | frontend/src/store/slices/notificationSlice.ts:12-17 | empty list, zero unread, not loading, no error |
| NotificationSlice.UnreadCount | frontend/src/store/slices/notificationSlice.ts:26-32 | the count of unread notifications: at most the list length; zero iff all are read, the full length iff none is |
| NotificationSlice.NotificationState.AddNotification | frontend/src/store/slices/notificationSlice.ts:52-55 | a pushed notification is put first and the unread counter grows by one; the counter stays non-negative |
| NotificationSlice.NotificationState.FetchNotificationsPending | frontend/src/store/slices/notificationSlice.ts:59-62 | loading set, error cleared, list kept |
| NotificationSlice.NotificationState.FetchNotificationsFulfilled | frontend/src/store/slices/notificationSlice.ts:63-66 | list replaced by the payload, counter untouched |
| NotificationSlice.NotificationState.FetchNotificationsRejected | frontend/src/store/slices/notificationSlice.ts:67-70 | error is the server message or "Failed to fetch notifications"; cached list survives |
| NotificationSlice.NotificationState.FetchUnreadCountFulfilled | frontend/src/store/slices/notificationSlice.ts:71-73 | counter becomes the number of unread fetched notifications |
| NotificationSlice.NotificationState.MarkAsReadFulfilled | frontend/src/store/slices/notificationSlice.ts:74-80 | every entry with the payload's id is replaced, others kept; counter drops by one but not below zero |
| NotificationSlice.NotificationState.MarkAllAsReadFulfilled | frontend/src/store/slices/notificationSlice.ts:81-84 | every entry becomes read with nothing else changed; counter becomes zero |
| MessageSlice.MessageState.constructor | frontend/src/store/slices/messageSlice.ts:11-16 | no conversations, none selected, not loading, no error |
| MessageSlice.AppendToFirst | frontend/src/store/slices/messageSlice.ts:46-55 | only the first conversation whose id equals the key grows, by the item at its end; no match leaves the list unchanged |
| MessageSlice.AppendKeepsHistory | frontend/src/store/slices/messageSlice.ts:46-55 | every conversation's previous messages survive as a prefix |
| MessageSlice.AppendIfSelected | frontend/src/store/slices/messageSlice.ts:52-54 | the selected conversation grows only when its id equals the key |
| MessageSlice.MessageState.SelectConversation | frontend/src/store/slices/messageSlice.ts:43-45 | selection replaced, nothing else changes |
| MessageSlice.MessageState.AddMessage | frontend/src/store/slices/messageSlice.ts:46-55 | throws (state kept) iff nothing is selected and the payload has no conversation id; otherwise list and selection are appended as above |
| MessageSlice.MessageState.FetchConversationsPending | frontend/src/store/slices/messageSlice.ts:60-62 | loading set; a previous error is not cleared |
| MessageSlice.MessageState.FetchConversationsFulfilled | frontend/src/store/slices/messageSlice.ts:63-66 | list replaced |
| MessageSlice.MessageState.FetchConversationsRejected | frontend/src/store/slices/messageSlice.ts:67-69 | error is the message or "Failed to fetch conversations"; list survives |
| MessageSlice.MessageState.SendMessageFulfilled | frontend/src/store/slices/messageSlice.ts:70-80 | the confirmed message is appended under its own conversation id, with the same throwing case as addMessage |
| MessageSlice.MessageState.StartConversationFulfilled | frontend/src/store/slices/messageSlice.ts:81-84 | the new conversation is put first and selected |
| EventSlice.EventState.constructor | frontend/src/store/slices/eventSlice.ts:13-18 | empty list, no current event, not loading, no error |
| EventSlice.EventState.FetchEventsPending | frontend/src/store/slices/eventSlice.ts:58-61 | loading set, error cleared, data kept |
| EventSlice.EventState.FetchEventsFulfilled | frontend/src/store/slices/eventSlice.ts:62-65 | list replaced, loading cleared |
| EventSlice.EventState.FetchEventsRejected | frontend/src/store/slices/eventSlice.ts:66-69 | error is the message or "Failed to fetch events"; list kept |
| EventSlice.EventState.FetchEventByIdFulfilled | frontend/src/store/slices/eventSlice.ts:70-72 | current event set, list kept |
| EventSlice.EventState.CreateEventFulfilled | frontend/src/store/slices/eventSlice.ts:73-75 | new event put first |
| EventSlice.EventState.AttendEventFulfilled | frontend/src/store/slices/eventSlice.ts:76-82 | every listed event with the payload's id is replaced, as is the current event when its id matches |
| GroupSlice.GroupState.constructor | frontend/src/store/slices/groupSlice.ts:13-18 | empty list, no current group, not loading, no error |
| GroupSlice.GroupState.FetchGroupsPending | frontend/src/store/slices/groupSlice.ts:58-61 | loading set, error cleared |
| GroupSlice.GroupState.FetchGroupsFulfilled | frontend/src/store/slices/groupSlice.ts:62-65 | list replaced |
| GroupSlice.GroupState.FetchGroupsRejected | frontend/src/store/slices/groupSlice.ts:66-69 | error is the message or "Failed to fetch groups"; list kept |
| GroupSlice.GroupState.FetchGroupByIdFulfilled | frontend/src/store/slices/groupSlice.ts:70-72 | current group set |
| GroupSlice.GroupState.CreateGroupFulfilled | frontend/src/store/slices/groupSlice.ts:73-75 | new group put first |
| GroupSlice.GroupState.JoinGroupFulfilled | frontend/src/store/slices/groupSlice.ts:76-83 | groups with the payload's id replaced, current group too when it matches |
| PostSlice.PostState.constructor | frontend/src/store/slices/postSlice.ts:12-17 | empty list, no current post, not loading, no error |
| PostSlice.PostState.FetchPostsPending | frontend/src/store/slices/postSlice.ts:46-49 | loading set, error cleared |
| PostSlice.PostState.FetchPostsFulfilled | frontend/src/store/slices/postSlice.ts:50-53 | list replaced |
| PostSlice.PostState.FetchPostsRejected | frontend/src/store/slices/postSlice.ts:54-57 | error is the message or "Failed to fetch posts"; list kept |
| PostSlice.PostState.CreatePostFulfilled | frontend/src/store/slices/postSlice.ts:58-60 | new post put first |
| PostSlice.PostState.LikePostFulfilled | frontend/src/store/slices/postSlice.ts:61-66 | posts with the payload's id replaced, current post untouched |
| ProfileSlice.ProfileState.constructor | frontend/src/store/slices/profileSlice.ts:61-68 | no profile, empty posts/events/groups, not loading, no error |
| ProfileSlice.Overlay | frontend/src/store/slices/profileSlice.ts:138-142 | `{...profile, ...payload}`: keys of both, payload wins |
| ProfileSlice.OverlayComposes | frontend/src/store/slices/profileSlice.ts:138-142 | repeating an update changes nothing; two updates equal one update with their merge |
| ProfileSlice.FetchProfileRejection | frontend/src/store/slices/profileSlice.ts:77 | the thunk always rejects with a non-empty message |
| ProfileSlice.RejectionMessageReachesState | frontend/src/store/slices/profileSlice.ts:77 | so the reducer's "An error occurred" fallback is never reached for fetchProfile |
| ProfileSlice.ProfileState.FetchPending | frontend/src/store/slices/profileSlice.ts:126-129 | loading set, error cleared, data kept |
| ProfileSlice.ProfileState.FetchRejected | frontend/src/store/slices/profileSlice.ts:134-137 | error is the payload or "An error occurred"; data kept |
| ProfileSlice.ProfileState.FetchProfileFulfilled | frontend/src/store/slices/profileSlice.ts:130-133 | profile replaced |
| ProfileSlice.ProfileState.UpdateProfileFulfilled | frontend/src/store/slices/profileSlice.ts:138-142 | an existing profile is overlaid with the payload; no profile stays none |
| ProfileSlice.ProfileState.FetchUserEventsFulfilled | frontend/src/store/slices/profileSlice.ts:143-154 | events replaced, others kept |
| ProfileSlice.ProfileState.FetchUserGroupsFulfilled | frontend/src/store/slices/profileSlice.ts:155-166 | groups replaced, others kept |
| SettingsSlice.SettingsState.constructor | frontend/src/store/slices/settingsSlice.ts:21-25 | no settings, not loading, no error |
| SettingsSlice.SettingsState.FetchSettingsPending | frontend/src/store/slices/settingsSlice.ts:72-75 | loading set, error cleared |
| SettingsSlice.SettingsState.FetchSettingsFulfilled | frontend/src/store/slices/settingsSlice.ts:76-79 | settings replaced |
| SettingsSlice.SettingsState.FetchSettingsRejected | frontend/src/store/slices/settingsSlice.ts:80-83 | error is the raw payload (possibly none), settings kept |
| SettingsSlice.SettingsState.UpdateSettingsFulfilled | frontend/src/store/slices/settingsSlice.ts:84-86 | settings replaced |
| SearchSlice.SearchState.constructor | frontend/src/store/slices/searchSlice.ts:5-15 | type "all", empty results, not loading, no error |
| SearchSlice.SearchState.SetSearchType | frontend/src/store/slices/searchSlice.ts:33-35 | type replaced, results kept |
| SearchSlice.SearchState.ClearResults | frontend/src/store/slices/searchSlice.ts:36-39 | results emptied, type kept |
| SearchSlice.SearchState.SearchPending | frontend/src/store/slices/searchSlice.ts:43-46 | loading set, error cleared |
| SearchSlice.SearchState.SearchFulfilled | frontend/src/store/slices/searchSlice.ts:47-50 | results replaced |
| SearchSlice.SearchState.SearchRejected | frontend/src/store/slices/searchSlice.ts:51-54 | error is the message or "Search failed"; results kept |
| SearchSlice.OutOfOrderResponses | frontend/src/store/slices/searchSlice.ts:43-50 | when the older request resolves last, its results are the ones shown |
| AuthSlice.AuthState.constructor | frontend/src/store/slices/authSlice.ts:13-19 | token read from storage, loading, not authenticated |
| AuthSlice.AuthState.SetUser | frontend/src/store/slices/authSlice.ts:42-45 | user set and authenticated |
| AuthSlice.AuthState.SetToken | frontend/src/store/slices/authSlice.ts:46-49 | token set in state and storage |
| AuthSlice.AuthState.Logout | frontend/src/store/slices/authSlice.ts:50-55 | user, token and storage cleared |
| AuthSlice.AuthState.InitializeAuthPending | frontend/src/store/slices/authSlice.ts:59-61 | loading set |
| AuthSlice.AuthState.InitializeAuthThunk | frontend/src/store/slices/authSlice.ts:21-36 | asks the server iff a token is stored; resolves with no user without one; a failed lookup removes the stored token and rejects |
| AuthSlice.AuthState.InitializeAuthFulfilled | frontend/src/store/slices/authSlice.ts:62-66 | user is the payload; authenticated iff there is one |
| AuthSlice.AuthState.InitializeAuthRejected | frontend/src/store/slices/authSlice.ts:67-71 | user cleared, token field kept |
| AuthSlice.AuthState.InitializeAuth | frontend/src/store/slices/authSlice.ts:21-36 | the whole initialisation: three outcomes by stored token and server answer; the token field survives all of them |
| WebSocketService.Service.constructor | frontend/src/services/websocketService.ts:18-21 | no socket, no token, nothing open or sent |
| WebSocketService.Service.Connect | frontend/src/services/websocketService.ts:23-32 | a new socket is opened and becomes current; the previous one stays open |
| WebSocketService.Service.Disconnect | frontend/src/services/websocketService.ts:34-40 | the current socket, if any, is closed; socket and token cleared |
| WebSocketService.Service.Emit | frontend/src/services/websocketService.ts:71-87 | an event is recorded on the current socket, or dropped without one |
| WebSocketService.Service.SendMessageEvent | frontend/src/services/websocketService.ts:71-75 | `send_message` with conversation id and content, only with a socket |
| WebSocketService.Service.StartTyping | frontend/src/services/websocketService.ts:77-81 | `typing_start`, only with a socket |
| WebSocketService.Service.StopTyping | frontend/src/services/websocketService.ts:83-87 | `typing_stop`, only with a socket |
| WebSocketService.OnNewMessage | frontend/src/services/websocketService.ts:53-55 | the pushed message is dispatched as an addMessage payload: throws iff nothing is selected and the message has no `conversationId` (which the server's messages never have), leaving the conversations and the selection unchanged; otherwise appended under that key |
| WebSocketService.PushedMessageIsLost | frontend/src/services/websocketService.ts:53-55 | the pushed message never lands in a conversation's new messages; with all conversations keyed, nothing changes |
| WebSocketService.OnNewNotification | frontend/src/services/websocketService.ts:57-59 | the notification is put first and the counter grows by one |
| WebSocketContext.BindToken | frontend/src/contexts/WebSocketContext.tsx:24-30 | a non-empty token connects one new socket and closes none; no token disconnects, closing and dropping the current socket if there is one; nothing is emitted |
| WebSocketContext.TokenSwitch | frontend/src/contexts/WebSocketContext.tsx:24-30 | switching tokens leaves two sockets open and closes none |
| WebSocketContext.ContextSendMessage | frontend/src/contexts/WebSocketContext.tsx:32-39 | forwards to the service's `send_message`: one emission on the current socket, none without one; socket, token and the open and closed sockets unchanged |
| WebSocketContext.ContextStartTyping | frontend/src/contexts/WebSocketContext.tsx:32-39 | forwards to `typing_start`: one emission on the current socket, none without one; socket, token and the open and closed sockets unchanged |
| WebSocketContext.ContextStopTyping | frontend/src/contexts/WebSocketContext.tsx:32-39 | forwards to `typing_stop`: one emission on the current socket, none without one; socket, token and the open and closed sockets unchanged |
| WebSocketContext.UseWebSocket | frontend/src/contexts/WebSocketContext.tsx:13-19 | fails with the provider message iff there is no context, otherwise returns it |
| UseSearch.EffectAction | frontend/src/hooks/useSearch.ts:14-34 | clears iff the debounced query is empty; otherwise searches for it, with no type iff the type is "all" |
| UseSearch.SearchHook.constructor | frontend/src/hooks/useSearch.ts:7 | the type starts at the given one or "all" |
| UseSearch.SearchHook.SetSearchType | frontend/src/hooks/useSearch.ts:7 | type replaced |
| UseSearch.SearchHook.AfterRender | frontend/src/hooks/useSearch.ts:14-34 | the effect runs iff its dependencies changed, and otherwise nothing changes; a search ends not searching and not loading, with the results and no error, or with the old results and the "Search failed" error logged; an empty query clears the results and leaves the flags and error alone |
| UseSearch.TypeChangeReruns | frontend/src/hooks/useSearch.ts:34 | changing the type with the same query searches again with the new type |
| DateUtils.ElapsedSeconds | frontend/src/utils/dateUtils.ts:12 | whole seconds elapsed, rounded down |
| DateUtils.TimeAgoRanges | frontend/src/utils/dateUtils.ts:14-33 | each bucket holds exactly its range of seconds, with the unit count in range |
| DateUtils.FormatTimeAgoLabels | frontend/src/utils/dateUtils.ts:9-34 | "just now", "Nm ago", "Nh ago", "Nd ago" or the date, by elapsed seconds |
| DateUtils.FormatDateRange | frontend/src/utils/dateUtils.ts:36-45 | same day: date with the two times; otherwise the two dates |
| UserAvatar.SizeClasses | frontend/src/components/common/UserAvatar.tsx:9-21 | medium classes iff the size is medium or absent |
| UserAvatar.FirstCharsOfSplit | frontend/src/components/common/UserAvatar.tsx:10-15 | the first letters of the space-split words are the characters that start a word |
| UserAvatar.Initials | frontend/src/components/common/UserAvatar.tsx:10-15 | at most two characters: the upper-cased word starts |
| UserAvatar.InitialsOfOneWord | frontend/src/components/common/UserAvatar.tsx:10-15 | an empty name has no initials; a one-word name has its first letter upper-cased |
| Sidebar.GetInitial | frontend/src/components/layout/Sidebar.tsx:13-18 | one character: the upper-cased first letter of the first name, else "G" |
| Sidebar.GetFullName | frontend/src/components/layout/Sidebar.tsx:20-25 | first and last name when both are present, else "Guest User" |
| Sidebar.DisplayUsername | frontend/src/components/layout/Sidebar.tsx:54 | the username, else "guest" |
| Sidebar.InitialMatchesFullName | frontend/src/components/layout/Sidebar.tsx:13-25 | the initial matches the shown name except when only the first name is present |
| EditProfileModal.InitialForm | frontend/src/components/features/profile/EditProfileModal.tsx:24-30 | each field is the profile's value or empty; interests joined with ", " |
| EditProfileModal.TrimAllPointwise | frontend/src/components/features/profile/EditProfileModal.tsx:35 | trimming the pieces keeps their count and trims each in place |
| EditProfileModal.ParsedInterestsClean | frontend/src/components/features/profile/EditProfileModal.tsx:35 | every parsed interest is non-empty, trimmed and comma-free |
| EditProfileModal.ParseFormatRoundTrip | frontend/src/components/features/profile/EditProfileModal.tsx:28-35 | for interests that are non-empty, trimmed and comma-free (what parsing produces, see `ParsedInterestsClean`), parsing what the form shows gives them back |
| EditProfileModal.EditProfileDialog.constructor | frontend/src/components/features/profile/EditProfileModal.tsx:24-30 | the form starts from the profile |
| EditProfileModal.EditProfileDialog.Submit | frontend/src/components/features/profile/EditProfileModal.tsx:32-50 | sends the form with parsed interests under the profile's id; closes iff the update succeeds, logs otherwise |
| Categories.AppendCategory | frontend/src/components/features/events/CreateEventModal.tsx:64-74 | the new category gets id count+1 and keeps ids numbered |
| Categories.NumberedIdsDistinct | frontend/src/components/features/events/CreateEventModal.tsx:64-74 | numbered ids never collide |
| Categories.SelectCategory | frontend/src/components/features/events/CreateEventModal.tsx:166-171 | "create_new" opens the dialog and keeps the selection; anything else becomes the selection |
| CreateEventModal.InitialCategories | frontend/src/components/features/events/CreateEventModal.tsx:44-50 | five numbered categories |
| CreateEventModal.CreateEventDialog.constructor | frontend/src/components/features/events/CreateEventModal.tsx:21-38 | the form is the initial data or blank |
| CreateEventModal.CreateEventDialog.EditAgendaItem | frontend/src/components/features/events/CreateEventModal.tsx:323-326 | one agenda entry replaced, the rest kept |
| CreateEventModal.CreateEventDialog.RemoveAgendaItem | frontend/src/components/features/events/CreateEventModal.tsx:333-335 | one agenda entry removed |
| CreateEventModal.CreateEventDialog.AddAgendaItem | frontend/src/components/features/events/CreateEventModal.tsx:345-348 | an empty entry appended |
| CreateEventModal.CreateEventDialog.EditRequirement | frontend/src/components/features/events/CreateEventModal.tsx:367-370 | one requirement replaced, the rest kept |
| CreateEventModal.CreateEventDialog.RemoveRequirement | frontend/src/components/features/events/CreateEventModal.tsx:377-379 | one requirement removed |
| CreateEventModal.CreateEventDialog.AddRequirement | frontend/src/components/features/events/CreateEventModal.tsx:389-392 | an empty requirement appended |
| CreateEventModal.CreateEventDialog.ChooseCategory | frontend/src/components/features/events/CreateEventModal.tsx:166-171 | "create_new" opens the category dialog, anything else becomes the category |
| CreateEventModal.CreateEventDialog.CreateCategory | frontend/src/components/features/events/CreateEventModal.tsx:64-74 | appends a numbered category named by the draft, selects it by name, closes the dialog (no control calls this handler) |
| CreateEventModal.CreateEventDialog.Submit | frontend/src/components/features/events/CreateEventModal.tsx:76-102 | sends the form; on success resets it and closes; `onSubmit` is never called |
| CreateCommunityModal.InitialCategories | frontend/src/components/features/communities/CreateCommunityModal.tsx:34-41 | six numbered categories |
| CreateCommunityModal.CreateCommunityDialog.constructor | frontend/src/components/features/communities/CreateCommunityModal.tsx:23-28 | blank form, nothing submitted |
| CreateCommunityModal.CreateCommunityDialog.Submit | frontend/src/components/features/communities/CreateCommunityModal.tsx:55-61 | hands over the form, resets it and closes |
| CreateCommunityModal.CreateCommunityDialog.ChooseCategory | frontend/src/components/features/communities/CreateCommunityModal.tsx:136-142 | "create_new" opens the dialog, anything else becomes the category |
| CreateCommunityModal.CreateCommunityDialog.CreateCategory | frontend/src/components/features/communities/CreateCommunityModal.tsx:63-73 | appends a numbered category and selects it by name |
| CreateCommunityModal.CategoryIdsStayDistinct | frontend/src/components/features/communities/CreateCommunityModal.tsx:63-73 | any number of creations keeps category ids distinct |
| CommunitySettings.PageCategories | frontend/src/pages/CommunitySettings.tsx:18-27 | eight numbered categories |
| CommunitySettings.SettingsPage.constructor | frontend/src/pages/CommunitySettings.tsx:18-27 | no selection, the eight categories |
| CommunitySettings.SettingsPage.Render | frontend/src/pages/CommunitySettings.tsx:18-27 | every render rebuilds the eight categories |
| CommunitySettings.SettingsPage.CategoryChange | frontend/src/pages/CommunitySettings.tsx:31-37 | "create_new" opens the dialog, anything else is selected |
| CommunitySettings.SettingsPage.CreateCategory | frontend/src/pages/CommunitySettings.tsx:46-58 | appends a numbered category and selects its id |
| CommunitySettings.CreateTwice | frontend/src/pages/CommunitySettings.tsx:18-58 | two creations across renders both get id "9", and the first is no longer listed |
| CommunityManage.FilteredMembers | frontend/src/pages/CommunityManage.tsx:48-52 | exactly the members on the tab matching the term, in order, each kept as often as it occurs |
| CommunityManage.EmptyTermKeepsTab | frontend/src/pages/CommunityManage.tsx:48-52 | an empty term keeps every member of the tab |
| ConversationsList.FilteredConversations | frontend/src/components/features/messages/ConversationsList.tsx:17-19 | exactly the conversations whose name contains the query ignoring case, in order, each kept as often as it occurs |
| ConversationsList.EmptyQueryKeepsAll | frontend/src/components/features/messages/ConversationsList.tsx:17-19 | an empty query keeps the list |
| EventCalendar.GetDaysInMonth | frontend/src/components/features/events/EventCalendar.tsx:17-27 | leading blanks for the first weekday, then days 1..n in order |
| EventCalendar.GetEventsForDate | frontend/src/components/features/events/EventCalendar.tsx:30-35 | exactly the events starting that day, in order, each kept as often as it occurs |
| EventsPage.EntryFor | frontend/src/pages/Events.tsx:70-81 | joined iff the attendee list contains the current user; count is its length, else zero |
| EventsPage.StatesOfKeys | frontend/src/pages/Events.tsx:70-81 | the state map has a key for exactly the loaded ids |
| EventsPage.StatesOfLast | frontend/src/pages/Events.tsx:70-81 | the last event with an id decides its entry |
| EventsPage.InitialEventStates | frontend/src/pages/Events.tsx:70-81 | the reduce builds that map |
| EventsPage.Toggle | frontend/src/pages/Events.tsx:96-107 | absent id fails; otherwise only that entry flips joined and moves its count by one |
| EventsPage.ToggleTwice | frontend/src/pages/Events.tsx:96-107 | toggling twice restores the states |
| EventsPage.EventsPageState.constructor | frontend/src/pages/Events.tsx:63-89 | no events, loading |
| EventsPage.EventsPageState.LoadEvents | frontend/src/pages/Events.tsx:63-89 | success stores events and their states; failure sets "Failed to load events"; loading ends |
| EventsPage.EventsPageState.JoinEvent | frontend/src/pages/Events.tsx:91-112 | an accepted join toggles the entry; a refused one is logged; an unknown id throws |
| CommunityEvents.GetEventType | frontend/src/pages/CommunityEvents.tsx:101-115 | each type iff the lower-cased category names it |
| CommunityEvents.GetEventTypeIgnoresCase | frontend/src/pages/CommunityEvents.tsx:101-115 | classification ignores case |
| CommunityEvents.GetEventTypeColor | frontend/src/pages/CommunityEvents.tsx:81-94 | grey iff the type is other |
| CommunityEvents.ColorsDistinct | frontend/src/pages/CommunityEvents.tsx:81-94 | distinct types get distinct colours |
| CommunityEvents.PageEvents | frontend/src/pages/CommunityEvents.tsx:30-79 | three mock events |
| CommunityEvents.NewEvent | frontend/src/pages/CommunityEvents.tsx:118-133 | id count+1, no attendees, upcoming, community "1" "Your Community"; title, description, date, time, location and capacity from the form; type from its category |
| CommunityEvents.CommunityEventsPage.constructor | frontend/src/pages/CommunityEvents.tsx:30-79 | the mock events |
| CommunityEvents.CommunityEventsPage.Render | frontend/src/pages/CommunityEvents.tsx:30-79 | every render rebuilds them |
| CommunityEvents.CommunityEventsPage.CreateEvent | frontend/src/pages/CommunityEvents.tsx:118-136 | appends the new event (the modal never calls this handler) |
| CommunityEvents.IdAfterRender | frontend/src/pages/CommunityEvents.tsx:30-136 | after a render the handler's new event id is always "4" (latent: the handler is unreachable) |
| ApiEvents.NumberItems | backend/app/api/events.py:39-52 | items carry the texts in order, numbered from zero |
| ApiEvents.NumberedListsAgree | backend/app/api/events.py:39-52 | numbering is determined by the texts |
| ApiEvents.NewRecord | backend/app/api/events.py:19-38 | builds iff every required key is present and date/time parse; the first failure in keyword-argument order is reported (missing key, bad date, bad time); the record holds every body field, the caller as organizer and empty lists |
| ApiEvents.Overlay | backend/app/api/events.py:75-84 | each of the seven fields: present replaces, absent keeps; owner, attendees, lists untouched |
| ApiEvents.OverlayIdempotent | backend/app/api/events.py:75-84 | an update repeated changes nothing; an empty body changes nothing |
| ApiEvents.UpdateProblem | backend/app/api/events.py:77-80 | fails iff a given date or time does not parse |
| ApiEvents.EventTable.constructor | backend/app/api/events.py:19-61 | no events |
| ApiEvents.EventTable.CreateEvent | backend/app/api/events.py:19-61 | 201 with the stored record and numbered lists iff the body is complete and the commit succeeds; otherwise 400 and no change |
| ApiEvents.EventTable.UpdateEvent | backend/app/api/events.py:63-110 | 404 unknown, 403 not the organizer, 200 with the overlay and replaced lists, otherwise 400 and no change |
| ApiEvents.EventTable.DeleteEvent | backend/app/api/events.py:112-127 | 404, 403, or 204 with the event removed |
| ApiEvents.EventTable.JoinEvent | backend/app/api/events.py:129-145 | 404 unknown event or user, 400 "Already joined", else the user appended |
| ApiEvents.EventTable.LeaveEvent | backend/app/api/events.py:147-163 | 404, 400 "Not joined", else the user removed entirely |
| RoutesEvents.Toggle | backend/app/routes/events.py:82-87 | membership of the user flips, others kept, size moves by one |
| RoutesEvents.ToggleTwice | backend/app/routes/events.py:82-87 | toggling twice restores the attendees |
| RoutesEvents.EventAttendance.constructor | backend/app/routes/events.py:71-97 | the given attendance |
| RoutesEvents.EventAttendance.JoinEvent | backend/app/routes/events.py:71-97 | 404 "Event not found", 500 on commit error, else toggle with isJoined and the new count |
| RoutesEvents.JoinTwice | backend/app/routes/events.py:71-97 | a second call undoes the first |
| RoutesGroups.NewGroup | backend/app/routes/groups.py:20-39 | built iff a name is given; description and privacy default; the creator is the only member |
| RoutesGroups.WithMember | backend/app/routes/groups.py:41-52 | the user becomes a member once; no duplicates |
| RoutesGroups.WithoutMember | backend/app/routes/groups.py:54-65 | the user is no longer a member; others kept |
| RoutesGroups.MembershipIdempotent | backend/app/routes/groups.py:41-65 | joining or leaving twice equals once; join then leave restores |
| RoutesGroups.GroupTable.constructor | backend/app/routes/groups.py:20-39 | no groups |
| RoutesGroups.GroupTable.CreateGroup | backend/app/routes/groups.py:20-39 | no body, no name or a failed commit gives 500 and stores nothing; otherwise 201 and the group stored under a fresh id |
| RoutesGroups.GroupTable.JoinGroup | backend/app/routes/groups.py:41-52 | 404 "Not Found"; an existing member gets 200 and nothing changes; otherwise the member is added, or a failed commit gives 500 |
| RoutesGroups.GroupTable.LeaveGroup | backend/app/routes/groups.py:54-65 | 404 "Not Found"; a non-member gets 200 and nothing changes; otherwise the member is removed, or a failed commit gives 500 |
| RoutesSearch.Search | backend/app/routes/search.py:7-31 | empty query gives three empty lists; 400 iff the type is unknown; otherwise the requested kinds only |
| RoutesSearch.SingleKindHasOneKey | backend/app/routes/search.py:7-31 | a single-kind search answers one key |
| RoutesSearch.TypeDefaultsToAll | backend/app/routes/search.py:7-31 | no type means "all" |
| ApiAuth.MissingField | backend/app/api/auth.py:29-32 | reports the first falsy required field, none iff all are truthy |
| ApiAuth.FirstFalsyUnique | backend/app/api/auth.py:29-32 | the first missing field is unique |
| ApiAuth.UserTable.constructor | backend/app/api/auth.py:21-60 | no users |
| ApiAuth.UserTable.Login | backend/app/api/auth.py:8-19 | a session iff the first user with the email has that password; 500 for no body, and for a known email without a password; otherwise 401 "Invalid credentials" (the login in `backend/app/routes/auth.py` answers the same way) |
| ApiAuth.UserTable.Register | backend/app/api/auth.py:21-60 | the error messages in the handler's order; 201 and the row appended iff every check and the commit pass |
| RoutesAuth.ShapedIsEmailShape | backend/app/routes/auth.py:9-11 | the executable check agrees with the pattern's shape |
| RoutesAuth.ValidateEmail | backend/app/routes/auth.py:9-11 | accepts iff the text, or the text less one trailing newline, has the pattern's shape |
| RoutesAuth.EmailExamples | backend/app/routes/auth.py:9-11 | "a@b.co" and "a@b.co\n" accepted, "a@b" refused |
| RoutesAuth.AbsentField | backend/app/routes/auth.py:17-20 | reports the first absent required field |
| RoutesAuth.Register | backend/app/routes/auth.py:13-38 | 500 without data or on commit error, "X is required", "User already exists", else 201 and the row appended |
| RoutesAuth.FormatNeverChecked | backend/app/routes/auth.py:13-38 | a malformed email is registered |
| RoutesProfiles.ViewOf | backend/app/routes/profiles.py:78-93 | the view's id reads back as the user's id; missing bio/location become "", missing interests []; zero connections |
| RoutesProfiles.Apply | backend/app/routes/profiles.py:66-75 | present fields replace, absent keep; id and username untouched |
| RoutesProfiles.ApplyIdempotent | backend/app/routes/profiles.py:66-75 | applying twice equals once; an empty body changes nothing |
| RoutesProfiles.PathId | backend/app/routes/profiles.py:51-57 | a path segment is an id iff it is non-empty digits |
| RoutesProfiles.PathIdOfRendered | backend/app/routes/profiles.py:57-61 | a rendered id reads back |
| RoutesProfiles.ProfileTable.constructor | backend/app/routes/profiles.py:9-42 | the given users |
| RoutesProfiles.ProfileTable.GetProfile | backend/app/routes/profiles.py:9-42 | 404 "User not found" iff no user has the name; otherwise that user's view |
| RoutesProfiles.ProfileTable.UpdateProfile | backend/app/routes/profiles.py:51-99 | 500 for an unknown id, 403 unless the segment is the caller's id as rendered, else the applied update and its view |
| RoutesProfiles.LeadingZeroRefused | backend/app/routes/profiles.py:57-61 | the owner is refused for "05" |
| NotificationService.Room | backend/app/services/notification_service.py:20-23 | rooms are "user_" followed by the id |
| NotificationService.RoomInjective | backend/app/services/notification_service.py:20-23 | distinct users have distinct rooms |
| NotificationService.MessageNotes | backend/app/services/notification_service.py:27-38 | one "new_message" note per participant other than the sender, referring to the message |
| NotificationService.EveryOtherParticipantNotified | backend/app/services/notification_service.py:27-38 | the sender gets none; every other user as many as their entries |
| NotificationService.Outbox.constructor | backend/app/services/notification_service.py:5-25 | nothing stored or pushed |
| NotificationService.Outbox.CreateNotification | backend/app/services/notification_service.py:5-25 | the note is stored and pushed to the user's room |
| NotificationService.Outbox.NotifyNewMessage | backend/app/services/notification_service.py:27-38 | stores exactly the message notes |
| NotificationService.Outbox.NotifyEventInvitation | backend/app/services/notification_service.py:40-48 | stores the invitation and pushes it to the invitee's room |

## Left out

- Rendering, styling, toasts, routing, and `console` logging beyond a
  "logged" flag.
- `FileReader` image previews and form fields that are only displayed.
- The socket.io transport and reconnection.
- Log-only socket listeners: `connect`, `disconnect`, `user_typing`.
- The debounce timer of the search box.
- Interleaving of asynchronous thunks beyond the two-response scenario.
- Immer's draft aliasing: each slice's state is one object.
- The services that call the server (axios). A thunk's outcome is a
  parameter.
- `deleteAccount` in the settings slice: no reducer handles it.
- `updateProfile` in the profile slice has no pending or rejected case, so
  there is nothing to model.
- `Date`/`Intl` formatting and time zones. Elapsed milliseconds and
  preformatted date texts are parameters.
- Case mapping covers ASCII letters only. The email pattern's `\w` is ASCII
  only.
- SQLAlchemy sessions, JWT creation and checking, and password hashing. The
  caller's id is a parameter. The source stores a salted hash
  (`generate_password_hash`) and checks with `check_password_hash`; the
  model abstracts hashing to an equality test with the stored value.
- `strptime`'s grammar. Whether a date or time parses is a parameter.
- JSON `null` values are treated as absent keys. `User.query.get` returning
  `None` for a valid token is not modelled.
- Search queries against the database. The matched rows are a parameter of
  `RoutesSearch.Search`.
- The socket server in `backend/app/socket.py`.
- RoutesGroups.GroupTable.CreateGroup: models the evident rule, not the
  `NameError` the unimported `User` raises.
- RoutesGroups.GroupTable.JoinGroup: models the evident rule, not the
  `NameError` the unimported `User` raises.
- RoutesGroups.GroupTable.LeaveGroup: models the evident rule, not the
  `NameError` the unimported `User` raises.
- NotificationService.Outbox.CreateNotification: does not model a failing
  commit. In the source the exception propagates to the caller, nothing is
  pushed, and in `notify_new_message` the participants after the failing one
  get no notification.
- DateUtils.FormatTimeAgo: does not model a date string that `new Date`
  cannot parse. Then the elapsed time is NaN, every comparison is false,
  and the label is `formatDate`'s "Invalid Date".
- NotificationService.Outbox.NotifyNewMessage: states the stored notes, not
  the order of the pushes. Those are tied to the stored notes by the class
  invariant.

=== FILE: api_auth.dfy ===
/** The login and registration endpoints of the `api` blueprint, over an
    in-memory users table. Password hashing is abstracted away: a stored
    password stands for its hash, and `check_password` is an equality test
    with it. */
module ApiAuth {
  import opened Common

  type UserId = nat

  /** A JSON object whose values are strings. */
  type Json = map<string, string>

  datatype UserRow = UserRow(id: UserId, email: string, username: string, password: string,
                             firstName: string, lastName: string)

  /** A reply: a session (the token is not modelled) for a user, or an error. */
  datatype AuthReply =
    | Session(status: nat, user: UserRow)
    | Failed(status: nat, error: string)

  /** The fields registration requires, in the order they are checked. */
  const RequiredFields: seq<string> := ["email", "username", "password", "firstName", "lastName"]

  /** `data.get(field)` is truthy: present and not empty. */
  predicate FieldTruthy(data: Json, field: string)
  {
    field in data && data[field] != ""
  }

  /** Field `i` is the first required field that is missing or empty. */
  ghost predicate FirstFalsy(data: Json, i: nat)
  {
    i < |RequiredFields| && !FieldTruthy(data, RequiredFields[i])
    && forall j :: 0 <= j < i ==> FieldTruthy(data, RequiredFields[j])
  }

  /** Every required field is truthy. */
  predicate AllTruthy(data: Json)
  {
    FieldTruthy(data, "email") && FieldTruthy(data, "username") && FieldTruthy(data, "password")
    && FieldTruthy(data, "firstName") && FieldTruthy(data, "lastName")
  }

  /** The validation loop of `register`: it stops at the first required field
      that is missing or empty. */
  method MissingField(data: Json) returns (missing: Option<nat>)
    ensures missing.None? <==> AllTruthy(data)
    ensures missing.Some? ==> FirstFalsy(data, missing.value)
  {
    for i := 0 to |RequiredFields|
      invariant forall j :: 0 <= j < i ==> FieldTruthy(data, RequiredFields[j])
    {
      if !FieldTruthy(data, RequiredFields[i]) {
        return Some(i);
      }
    }
    assert forall j :: 0 <= j < 5 ==> FieldTruthy(data, RequiredFields[j]);
    assert RequiredFields[0] == "email" && RequiredFields[1] == "username" && RequiredFields[2] == "password";
    assert RequiredFields[3] == "firstName" && RequiredFields[4] == "lastName";
    return None;
  }

  /** The first failing field is unique. */
  lemma FirstFalsyUnique(data: Json, i: nat, k: nat)
    requires FirstFalsy(data, i) && FirstFalsy(data, k)
    ensures i == k
  {
  }

  /** `users[k]` is what `filter_by(email=e).first()` returns. */
  ghost predicate IsFirstWithEmail(users: seq<UserRow>, e: string, k: int)
  {
    0 <= k < |users| && users[k].email == e && forall j :: 0 <= j < k ==> users[j].email != e
  }

  class UserTable {
    var users: seq<UserRow>
    var nextId: UserId

    /** Ids are handed out in increasing order. */
    ghost predicate Valid()
      reads this
    {
      forall k :: 0 <= k < |users| ==> users[k].id < nextId
    }

    constructor ()
      ensures Valid() && users == []
    {
      users := [];
      nextId := 1;
    }

    predicate EmailTaken(e: string)
      reads this
    {
      exists k :: 0 <= k < |users| && users[k].email == e
    }

    predicate UsernameTaken(u: string)
      reads this
    {
      exists k :: 0 <= k < |users| && users[k].username == u
    }

    /** `login`: a session exactly when the first user with the given email
        exists and the password checks; 401 otherwise. A body without an
        `email` finds nobody. Nothing here catches exceptions, so the framework
        answers 500 when there is no body (`data.get` on `None`) and when the
        user exists but the body has no `password` (the hash check is handed
        `None`). */
    method Login(data: Option<Json>) returns (reply: AuthReply)
      ensures data.None? ==> reply == Failed(500, "Internal Server Error")
      ensures data.Some? && "email" in data.value && "password" !in data.value
              && (exists k :: IsFirstWithEmail(users, data.value["email"], k)) ==>
        reply == Failed(500, "Internal Server Error")
      ensures reply.Session? <==>
        data.Some? && "email" in data.value && "password" in data.value
        && exists k :: IsFirstWithEmail(users, data.value["email"], k) && users[k].password == data.value["password"]
      ensures reply.Session? ==> reply.status == 200 && reply.user in users && reply.user.email == data.value["email"]
      ensures reply.Failed? ==> reply == Failed(401, "Invalid credentials") || reply == Failed(500, "Internal Server Error")
      ensures reply == Failed(500, "Internal Server Error") ==>
        data.None? || ("email" in data.value && "password" !in data.value
                       && exists k :: IsFirstWithEmail(users, data.value["email"], k))
    {
      if data.None? {
        return Failed(500, "Internal Server Error");
      }
      var d := data.value;
      if "email" !in d {
        return Failed(401, "Invalid credentials");
      }
      var e := d["email"];
      var found := FindFirst(users, (u: UserRow) => u.email == e);
      if found.None? {
        return Failed(401, "Invalid credentials");
      }
      assert IsFirstWithEmail(users, e, found.value);
      forall k | IsFirstWithEmail(users, e, k) ensures k == found.value {
      }
      if "password" !in d {
        return Failed(500, "Internal Server Error");
      }
      if users[found.value].password != d["password"] {
        return Failed(401, "Invalid credentials");
      }
      reply := Session(200, users[found.value]);
    }

    /** `register`: the checks run in this order: a body, every required
        field (first falsy one named), a free email, a free username. A
        failing commit is rolled back and answered with 500. */
    method Register(data: Option<Json>, commitError: Option<string>) returns (reply: AuthReply)
      requires Valid()
      modifies this
      ensures Valid()
      ensures data.None? || data.value == map[] ==> reply == Failed(400, "No data provided")
      ensures data.Some? && data.value != map[] ==>
        forall i: nat :: FirstFalsy(data.value, i) ==> reply == Failed(400, "Missing required field: " + RequiredFields[i])
      ensures data.Some? && AllTruthy(data.value) && old(EmailTaken(data.value["email"])) ==>
        reply == Failed(400, "Email already registered")
      ensures data.Some? && AllTruthy(data.value) && !old(EmailTaken(data.value["email"]))
              && old(UsernameTaken(data.value["username"])) ==>
        reply == Failed(400, "Username already taken")
      ensures reply.Session? <==>
        data.Some? && AllTruthy(data.value) && !old(EmailTaken(data.value["email"]))
        && !old(UsernameTaken(data.value["username"])) && commitError.None?
      ensures reply.Session? ==>
        var d := data.value;
        && reply.status == 201
        && reply.user == UserRow(old(nextId), d["email"], d["username"], d["password"], d["firstName"], d["lastName"])
        && users == old(users) + [reply.user] && nextId == old(nextId) + 1
      ensures data.Some? && AllTruthy(data.value) && !old(EmailTaken(data.value["email"]))
              && !old(UsernameTaken(data.value["username"])) && commitError.Some? ==>
        reply == Failed(500, "Internal server error")
      ensures !reply.Session? ==> users == old(users) && nextId == old(nextId)
    {
      if data.None? || data.value == map[] {
        return Failed(400, "No data provided");
      }
      var d := data.value;
      var missing := MissingField(d);
      if missing.Some? {
        forall i | FirstFalsy(d, i) ensures i == missing.value {
          FirstFalsyUnique(d, i, missing.value);
        }
        return Failed(400, "Missing required field: " + RequiredFields[missing.value]);
      }
      assert forall i: nat :: !FirstFalsy(d, i);
      if EmailTaken(d["email"]) {
        return Failed(400, "Email already registered");
      }
      if UsernameTaken(d["username"]) {
        return Failed(400, "Username already taken");
      }
      if commitError.Some? {
        return Failed(500, "Internal server error");
      }
      var row := UserRow(nextId, d["email"], d["username"], d["password"], d["firstName"], d["lastName"]);
      users := users + [row];
      nextId := nextId + 1;
      reply := Session(201, row);
    }
  }
}

=== FILE: api_events.dfy ===
/** The event endpoints of the `api` blueprint. The database is an in-memory
    table of event records plus the set of known user ids; a request either
    commits all of its changes or, when it raises, rolls all of them back. */
module ApiEvents {
  import opened Common

  type UserId = nat
  type EventId = nat

  /** An agenda item or a requirement: its text and its position in the list. */
  datatype Item = Item(description: string, order: nat)

  /** A stored event. `date` and `time` hold the text the request supplied. */
  datatype EventRecord = EventRecord(
    title: string, description: string, date: string, time: string,
    location: string, category: string, capacity: int,
    organizerId: UserId, communityId: Option<nat>,
    agenda: seq<Item>, requirements: seq<Item>, attendees: seq<UserId>)

  /** A JSON request body; every key may be absent. */
  datatype Body = Body(
    title: Option<string>, description: Option<string>, date: Option<string>, time: Option<string>,
    location: Option<string>, category: Option<string>, capacity: Option<int>,
    communityId: Option<nat>, agenda: Option<seq<string>>, requirements: Option<seq<string>>)

  /** What a write raised before it could commit: no JSON body, a required
      key missing (`KeyError`), a date or time `strptime` rejects, or an error
      from the database. Every one of them is answered with status 400. */
  datatype Failure = NoBody | MissingKey(key: string) | BadDate(text: string) | BadTime(text: string) | Database(text: string)

  datatype Response =
    | Done(status: nat, event: Option<EventRecord>)
    | Refused(status: nat, error: string)
    | Raised(failure: Failure)

  function StatusOf(r: Response): (s: nat)
    ensures r.Raised? ==> s == 400
  {
    match r
    case Done(s, _) => s
    case Refused(s, _) => s
    case Raised(_) => 400
  }

  /** What `get_or_404` answers for an unknown id. */
  const NotFound := Refused(404, "Not Found")

  function Descriptions(items: seq<Item>): (r: seq<string>)
    ensures |r| == |items|
  {
    seq(|items|, i requires 0 <= i < |items| => items[i].description)
  }

  /** Each item's order is its position: 0, 1, 2, ... */
  predicate OrderedFromZero(items: seq<Item>)
  {
    forall i :: 0 <= i < |items| ==> items[i].order == i
  }

  /** An item list is determined by its texts once its orders run from zero. */
  lemma NumberedListsAgree(a: seq<Item>, b: seq<Item>)
    requires OrderedFromZero(a) && OrderedFromZero(b) && Descriptions(a) == Descriptions(b)
    ensures a == b
  {
    assert forall i :: 0 <= i < |a| ==> a[i] == Item(Descriptions(a)[i], i) == b[i];
  }

  /** The `for i, item in enumerate(...)` loops of create and update: the
      `i`th text becomes an item with order `i`. */
  method NumberItems(texts: seq<string>) returns (items: seq<Item>)
    ensures Descriptions(items) == texts
    ensures OrderedFromZero(items)
  {
    items := [];
    for i := 0 to |texts|
      invariant |items| == i
      invariant Descriptions(items) == texts[..i]
      invariant OrderedFromZero(items)
    {
      items := items + [Item(texts[i], i)];
    }
  }

  /** The record the `Event(...)` constructor builds, reading the keys in the
      order the keyword arguments are evaluated; `strptime` is represented by
      which texts it accepts. */
  datatype Built = Built(record: EventRecord) | Threw(failure: Failure)

  /** The body's date is present and `strptime` accepts it. */
  predicate DateReads(data: Body, dateParses: string -> bool)
  {
    data.date.Some? && dateParses(data.date.value)
  }

  /** The body's time is present and `strptime` accepts it. */
  predicate TimeReads(data: Body, timeParses: string -> bool)
  {
    data.time.Some? && timeParses(data.time.value)
  }

  function NewRecord(current: UserId, data: Body, dateParses: string -> bool, timeParses: string -> bool): (r: Built)
    ensures r.Built? <==>
      && data.title.Some? && data.description.Some?
      && DateReads(data, dateParses) && TimeReads(data, timeParses)
      && data.location.Some? && data.category.Some? && data.capacity.Some?
    ensures data.title.None? ==> r == Threw(MissingKey("title"))
    ensures (data.title.Some? && data.description.None?) ==>
      r == Threw(MissingKey("description"))
    ensures (data.title.Some? && data.description.Some? && data.date.None?) ==>
      r == Threw(MissingKey("date"))
    ensures (data.title.Some? && data.description.Some? && data.date.Some? && !dateParses(data.date.value)) ==>
      r == Threw(BadDate(data.date.value))
    ensures (data.title.Some? && data.description.Some? && DateReads(data, dateParses)
             && data.time.None?) ==>
      r == Threw(MissingKey("time"))
    ensures (data.title.Some? && data.description.Some? && DateReads(data, dateParses)
             && data.time.Some? && !timeParses(data.time.value)) ==>
      r == Threw(BadTime(data.time.value))
    ensures (data.title.Some? && data.description.Some? && DateReads(data, dateParses) && TimeReads(data, timeParses)
             && data.location.None?) ==>
      r == Threw(MissingKey("location"))
    ensures (data.title.Some? && data.description.Some? && DateReads(data, dateParses) && TimeReads(data, timeParses)
             && data.location.Some? && data.category.None?) ==>
      r == Threw(MissingKey("category"))
    ensures (data.title.Some? && data.description.Some? && DateReads(data, dateParses) && TimeReads(data, timeParses)
             && data.location.Some? && data.category.Some? && data.capacity.None?) ==>
      r == Threw(MissingKey("capacity"))
    ensures r.Built? ==>
      && r.record.organizerId == current && r.record.communityId == data.communityId
      && r.record.title == data.title.value && r.record.description == data.description.value
      && r.record.date == data.date.value && r.record.time == data.time.value
      && r.record.location == data.location.value && r.record.category == data.category.value
      && r.record.capacity == data.capacity.value
      && r.record.agenda == [] && r.record.requirements == [] && r.record.attendees == []
  {
    if data.title.None? then Threw(MissingKey("title"))
    else if data.description.None? then Threw(MissingKey("description"))
    else if data.date.None? then Threw(MissingKey("date"))
    else if !dateParses(data.date.value) then Threw(BadDate(data.date.value))
    else if data.time.None? then Threw(MissingKey("time"))
    else if !timeParses(data.time.value) then Threw(BadTime(data.time.value))
    else if data.location.None? then Threw(MissingKey("location"))
    else if data.category.None? then Threw(MissingKey("category"))
    else if data.capacity.None? then Threw(MissingKey("capacity"))
    else Built(EventRecord(data.title.value, data.description.value, data.date.value, data.time.value,
                           data.location.value, data.category.value, data.capacity.value,
                           current, data.communityId, [], [], []))
  }

  /** The scalar fields `update_event` assigns: `data.get(key, old)`. */
  function Overlay(rec: EventRecord, data: Body): (r: EventRecord)
    ensures data.title.None? ==> r.title == rec.title
    ensures data.title.Some? ==> r.title == data.title.value
    ensures data.description.None? ==> r.description == rec.description
    ensures data.description.Some? ==> r.description == data.description.value
    ensures data.date.None? ==> r.date == rec.date
    ensures data.date.Some? ==> r.date == data.date.value
    ensures data.time.None? ==> r.time == rec.time
    ensures data.time.Some? ==> r.time == data.time.value
    ensures data.location.None? ==> r.location == rec.location
    ensures data.location.Some? ==> r.location == data.location.value
    ensures data.category.None? ==> r.category == rec.category
    ensures data.category.Some? ==> r.category == data.category.value
    ensures data.capacity.None? ==> r.capacity == rec.capacity
    ensures data.capacity.Some? ==> r.capacity == data.capacity.value
    ensures r.organizerId == rec.organizerId && r.communityId == rec.communityId
    ensures r.attendees == rec.attendees && r.agenda == rec.agenda && r.requirements == rec.requirements
  {
    rec.(title := OrDefault(data.title, rec.title),
         description := OrDefault(data.description, rec.description),
         date := OrDefault(data.date, rec.date),
         time := OrDefault(data.time, rec.time),
         location := OrDefault(data.location, rec.location),
         category := OrDefault(data.category, rec.category),
         capacity := OrDefault(data.capacity, rec.capacity))
  }

  /** `dict.get(key, default)`. */
  function OrDefault<T>(o: Option<T>, default: T): (r: T)
    ensures o.Some? ==> r == o.value
    ensures o.None? ==> r == default
  {
    if o.Some? then o.value else default
  }

  /** An update whose body names no field leaves the record as it is, and
      applying the same update twice is applying it once. */
  lemma OverlayIdempotent(rec: EventRecord, data: Body)
    ensures Overlay(Overlay(rec, data), data) == Overlay(rec, data)
    ensures data == Body(None, None, None, None, None, None, None, None, None, None) ==> Overlay(rec, data) == rec
  {
  }

  /** The two validations `update_event` runs inside its `try`: the date
      and the time, when present, must parse. */
  function UpdateProblem(data: Body, dateParses: string -> bool, timeParses: string -> bool): (r: Option<Failure>)
    ensures r.None? <==> (data.date.Some? ==> dateParses(data.date.value)) && (data.time.Some? ==> timeParses(data.time.value))
  {
    if data.date.Some? && !dateParses(data.date.value) then Some(BadDate(data.date.value))
    else if data.time.Some? && !timeParses(data.time.value) then Some(BadTime(data.time.value))
    else None
  }

  class EventTable {
    var events: map<EventId, EventRecord>
    var users: set<UserId>
    var nextId: EventId

    /** Ids are handed out in increasing order, and attendee lists never
        hold a user twice (the attendee table's key is the pair of user and
        event). */
    ghost predicate Valid()
      reads this
    {
      (forall id :: id in events ==> id < nextId)
      && forall id :: id in events ==> NoDuplicates(events[id].attendees)
    }

    constructor (knownUsers: set<UserId>)
      ensures Valid() && events == map[] && users == knownUsers
    {
      events := map[];
      users := knownUsers;
      nextId := 1;
    }

    /** `create_event`: the new event belongs to the caller, has no
        attendees, and numbers its agenda and requirements from zero in
        input order. Anything raised rolls the whole request back. */
    method CreateEvent(current: UserId, data: Option<Body>, dateParses: string -> bool, timeParses: string -> bool,
                       commitError: Option<string>) returns (resp: Response)
      requires Valid()
      modifies this
      ensures Valid() && users == old(users)
      ensures data.None? ==> resp == Raised(NoBody)
      ensures data.Some? && NewRecord(current, data.value, dateParses, timeParses).Threw? ==>
        resp == Raised(NewRecord(current, data.value, dateParses, timeParses).failure)
      ensures resp.Done? <==> data.Some? && NewRecord(current, data.value, dateParses, timeParses).Built? && commitError.None?
      ensures !resp.Done? ==> StatusOf(resp) == 400 && events == old(events) && nextId == old(nextId)
      ensures resp.Done? ==>
        var rec := NewRecord(current, data.value, dateParses, timeParses).record;
        && resp.status == 201 && resp.event.Some? && nextId == old(nextId) + 1
        && old(nextId) !in old(events) && events == old(events)[old(nextId) := resp.event.value]
        && resp.event.value == rec.(agenda := resp.event.value.agenda, requirements := resp.event.value.requirements)
        && Descriptions(resp.event.value.agenda) == OrDefault(data.value.agenda, [])
        && Descriptions(resp.event.value.requirements) == OrDefault(data.value.requirements, [])
        && OrderedFromZero(resp.event.value.agenda) && OrderedFromZero(resp.event.value.requirements)
    {
      if data.None? {
        return Raised(NoBody);
      }
      var built := NewRecord(current, data.value, dateParses, timeParses);
      if built.Threw? {
        return Raised(built.failure);
      }
      var agenda := NumberItems(OrDefault(data.value.agenda, []));
      var requirements := NumberItems(OrDefault(data.value.requirements, []));
      var rec := built.record.(agenda := agenda, requirements := requirements);
      if commitError.Some? {
        return Raised(Database(commitError.value));
      }
      events := events[nextId := rec];
      nextId := nextId + 1;
      resp := Done(201, Some(rec));
    }

    /** `update_event`: only the organizer may update; absent keys keep
        their values; a present `agenda` or `requirements` replaces the whole
        list, renumbered from zero. */
    method UpdateEvent(id: EventId, current: UserId, data: Option<Body>, dateParses: string -> bool, timeParses: string -> bool,
                       commitError: Option<string>) returns (resp: Response)
      requires Valid()
      modifies this
      ensures Valid() && users == old(users) && nextId == old(nextId)
      ensures id !in old(events) ==> resp == NotFound
      ensures id in old(events) && old(events)[id].organizerId != current ==> resp == Refused(403, "Unauthorized")
      ensures resp.Done? <==>
        && id in old(events) && old(events)[id].organizerId == current && data.Some?
        && UpdateProblem(data.value, dateParses, timeParses).None? && commitError.None?
      ensures !resp.Done? ==> events == old(events)
      ensures resp.Done? ==> resp.status == 200 && resp.event.Some? && id in old(events)
      ensures resp.Done? && resp.event.Some? && id in old(events) ==>
        var old_ := old(events)[id];
        var rec := resp.event.value;
        && events == old(events)[id := rec]
        && rec.(agenda := old_.agenda, requirements := old_.requirements) == Overlay(old_, data.value)
        && (data.value.agenda.None? ==> rec.agenda == old_.agenda)
        && (data.value.agenda.Some? ==> Descriptions(rec.agenda) == data.value.agenda.value && OrderedFromZero(rec.agenda))
        && (data.value.requirements.None? ==> rec.requirements == old_.requirements)
        && (data.value.requirements.Some? ==> Descriptions(rec.requirements) == data.value.requirements.value && OrderedFromZero(rec.requirements))
    {
      if id !in events {
        return NotFound;
      }
      if events[id].organizerId != current {
        return Refused(403, "Unauthorized");
      }
      if data.None? {
        return Raised(NoBody);
      }
      var problem := UpdateProblem(data.value, dateParses, timeParses);
      if problem.Some? {
        return Raised(problem.value);
      }
      var rec := Overlay(events[id], data.value);
      if data.value.agenda.Some? {
        var agenda := NumberItems(data.value.agenda.value);
        rec := rec.(agenda := agenda);
      }
      if data.value.requirements.Some? {
        var requirements := NumberItems(data.value.requirements.value);
        rec := rec.(requirements := requirements);
      }
      if commitError.Some? {
        return Raised(Database(commitError.value));
      }
      events := events[id := rec];
      resp := Done(200, Some(rec));
    }

    /** `delete_event`: only the organizer may delete. */
    method DeleteEvent(id: EventId, current: UserId, commitError: Option<string>) returns (resp: Response)
      requires Valid()
      modifies this
      ensures Valid() && users == old(users) && nextId == old(nextId)
      ensures id !in old(events) ==> resp == NotFound
      ensures id in old(events) && old(events)[id].organizerId != current ==> resp == Refused(403, "Unauthorized")
      ensures resp.Done? <==> id in old(events) && old(events)[id].organizerId == current && commitError.None?
      ensures resp.Done? ==> resp == Done(204, None) && events == old(events) - {id}
      ensures !resp.Done? ==> events == old(events)
    {
      if id !in events {
        return NotFound;
      }
      if events[id].organizerId != current {
        return Refused(403, "Unauthorized");
      }
      if commitError.Some? {
        return Raised(Database(commitError.value));
      }
      events := events - {id};
      resp := Done(204, None);
    }

    /** `join_event`: a second join is refused with 'Already joined';
        otherwise the caller is added once, at the end. */
    method JoinEvent(id: EventId, current: UserId, commitError: Option<string>) returns (resp: Response)
      requires Valid()
      modifies this
      ensures Valid() && users == old(users) && nextId == old(nextId)
      ensures id !in old(events) || current !in old(users) ==> resp == NotFound
      ensures id in old(events) && current in old(users) && current in old(events)[id].attendees ==>
        resp == Refused(400, "Already joined")
      ensures resp.Done? <==> id in old(events) && current in old(users) && current !in old(events)[id].attendees && commitError.None?
      ensures resp.Done? ==>
        && events == old(events)[id := old(events)[id].(attendees := old(events)[id].attendees + [current])]
        && resp == Done(200, Some(events[id]))
      ensures !resp.Done? ==> events == old(events)
    {
      if id !in events || current !in users {
        return NotFound;
      }
      var rec := events[id];
      if current in rec.attendees {
        return Refused(400, "Already joined");
      }
      if commitError.Some? {
        return Raised(Database(commitError.value));
      }
      rec := rec.(attendees := rec.attendees + [current]);
      events := events[id := rec];
      resp := Done(200, Some(rec));
    }

    /** `leave_event`: leaving an event one does not attend is refused with
        'Not joined'; otherwise the caller is removed. */
    method LeaveEvent(id: EventId, current: UserId, commitError: Option<string>) returns (resp: Response)
      requires Valid()
      modifies this
      ensures Valid() && users == old(users) && nextId == old(nextId)
      ensures id !in old(events) || current !in old(users) ==> resp == NotFound
      ensures id in old(events) && current in old(users) && current !in old(events)[id].attendees ==>
        resp == Refused(400, "Not joined")
      ensures resp.Done? <==> id in old(events) && current in old(users) && current in old(events)[id].attendees && commitError.None?
      ensures resp.Done? ==>
        && events == old(events)[id := old(events)[id].(attendees := RemoveFirst(old(events)[id].attendees, current))]
        && current !in events[id].attendees
        && resp == Done(200, Some(events[id]))
      ensures !resp.Done? ==> events == old(events)
    {
      if id !in events || current !in users {
        return NotFound;
      }
      var rec := events[id];
      if current !in rec.attendees {
        return Refused(400, "Not joined");
      }
      if commitError.Some? {
        return Raised(Database(commitError.value));
      }
      RemoveFromDistinct(rec.attendees, current);
      rec := rec.(attendees := RemoveFirst(rec.attendees, current));
      events := events[id := rec];
      resp := Done(200, Some(rec));
    }
  }
}

=== FILE: auth_slice.dfy ===
/** The client's session (the `auth` slice of the store), together with the
    token kept in the browser's persistent storage under the key `token`. */
module AuthSlice {
  import opened Common

  datatype User = User(id: string, username: string)

  /** How the `initializeAuth` thunk settles. */
  datatype InitOutcome = Resolved(user: Option<User>) | Rejected

  class AuthState {
    var user: Option<User>
    var loading: bool
    var error: Option<string>
    var isAuthenticated: bool
    var token: Option<string>
    /** The persisted token (`localStorage.getItem('token')`). */
    var storage: Option<string>

    /** The initial state, read when the store is created: the session is
        loading and the token is whatever was persisted. */
    constructor (persisted: Option<string>)
      ensures user == None && loading && error == None && !isAuthenticated
      ensures token == persisted && storage == persisted
    {
      user := None;
      loading := true;
      error := None;
      isAuthenticated := false;
      token := persisted;
      storage := persisted;
    }

    /** `setUser`: a user is set and counts as authenticated; the token is not touched. */
    method SetUser(u: User)
      modifies this
      ensures user == Some(u) && isAuthenticated
      ensures token == old(token) && storage == old(storage) && loading == old(loading) && error == old(error)
    {
      user := Some(u);
      isAuthenticated := true;
    }

    /** `setToken`: the session token and the persisted token both become `t`. */
    method SetToken(t: string)
      modifies this
      ensures token == Some(t) && storage == Some(t)
      ensures user == old(user) && isAuthenticated == old(isAuthenticated)
      ensures loading == old(loading) && error == old(error)
    {
      token := Some(t);
      storage := Some(t);
    }

    /** `logout`: user, token and the persisted token are cleared; `loading` stays. */
    method Logout()
      modifies this
      ensures user == None && token == None && !isAuthenticated && storage == None
      ensures loading == old(loading) && error == old(error)
    {
      user := None;
      token := None;
      isAuthenticated := false;
      storage := None;
    }

    /** `initializeAuth.pending`. */
    method InitializeAuthPending()
      modifies this
      ensures loading
      ensures user == old(user) && token == old(token) && storage == old(storage)
      ensures isAuthenticated == old(isAuthenticated) && error == old(error)
    {
      loading := true;
    }

    /** The body of the `initializeAuth` thunk. Without a persisted token it
        resolves to null and never asks the server; otherwise it resolves to the
        server's current user (`me` is `None` when that request throws), and on
        a throw it deletes the persisted token and rejects. */
    method InitializeAuthThunk(me: Option<User>) returns (outcome: InitOutcome, askedServer: bool)
      modifies this
      ensures askedServer <==> Truthy(old(storage))
      ensures !askedServer ==> outcome == Resolved(None) && storage == old(storage)
      ensures askedServer && me.Some? ==> outcome == Resolved(me) && storage == old(storage)
      ensures askedServer && me.None? ==> outcome == Rejected && storage == None
      ensures user == old(user) && token == old(token) && loading == old(loading)
      ensures isAuthenticated == old(isAuthenticated) && error == old(error)
    {
      if !Truthy(storage) {
        return Resolved(None), false;
      }
      askedServer := true;
      if me.Some? {
        outcome := Resolved(me);
      } else {
        storage := None;
        outcome := Rejected;
      }
    }

    /** `initializeAuth.fulfilled`: authenticated exactly when a user came back. */
    method InitializeAuthFulfilled(payload: Option<User>)
      modifies this
      ensures !loading && user == payload
      ensures isAuthenticated <==> payload.Some?
      ensures token == old(token) && storage == old(storage) && error == old(error)
    {
      loading := false;
      user := payload;
      isAuthenticated := payload.Some?;
    }

    /** `initializeAuth.rejected`: the session is cleared but `token` is left as it was. */
    method InitializeAuthRejected()
      modifies this
      ensures !loading && user == None && !isAuthenticated
      ensures token == old(token) && storage == old(storage) && error == old(error)
    {
      loading := false;
      user := None;
      isAuthenticated := false;
    }

    /** A whole `initializeAuth` dispatch: pending, the thunk body, then the
        settling case. After a failed session check the persisted token is gone
        while the in-memory `token` still holds the stale one. */
    method InitializeAuth(me: Option<User>)
      modifies this
      ensures !loading && token == old(token)
      ensures !Truthy(old(storage)) ==> user == None && !isAuthenticated && storage == old(storage)
      ensures Truthy(old(storage)) && me.Some? ==> user == me && isAuthenticated && storage == old(storage)
      ensures Truthy(old(storage)) && me.None? ==> user == None && !isAuthenticated && storage == None
    {
      InitializeAuthPending();
      var outcome, _ := InitializeAuthThunk(me);
      match outcome
      case Resolved(u) => InitializeAuthFulfilled(u);
      case Rejected => InitializeAuthRejected();
    }
  }
}

=== FILE: categories.dfy ===
/** The category lists of the creation dialogs and the settings page: each
    new category is appended with the id `String(length + 1)`. */
module Categories {
  import opened Decimal

  datatype Category = Category(id: string, name: string, description: string)

  /** The name and description typed into the "new category" dialog. */
  datatype Draft = Draft(name: string, description: string)

  const EmptyDraft := Draft("", "")

  /** The ids are "1", "2", ... in list order. */
  ghost predicate NumberedIds(cats: seq<Category>)
  {
    forall i :: 0 <= i < |cats| ==> cats[i].id == NatToString(i + 1)
  }

  /** `[...categories, { id: String(categories.length + 1), ...draft }]`. */
  function AppendCategory(cats: seq<Category>, draft: Draft): (r: seq<Category>)
    ensures r == cats + [Category(NatToString(|cats| + 1), draft.name, draft.description)]
    ensures NumberedIds(cats) ==> NumberedIds(r)
  {
    cats + [Category(NatToString(|cats| + 1), draft.name, draft.description)]
  }

  /** Numbered ids never collide. */
  lemma NumberedIdsDistinct(cats: seq<Category>)
    requires NumberedIds(cats)
    ensures forall i, j :: 0 <= i < j < |cats| ==> cats[i].id != cats[j].id
  {
    forall i, j | 0 <= i < j < |cats|
      ensures cats[i].id != cats[j].id
    {
      NatToStringInjective(i + 1, j + 1);
    }
  }

  /** The value of the category `<select>`: `'create_new'` opens the dialog
      and leaves the selection alone; any other value is selected. */
  function SelectCategory(selected: string, value: string): (r: (string, bool))
    ensures value == "create_new" ==> r == (selected, true)
    ensures value != "create_new" ==> r == (value, false)
  {
    if value == "create_new" then (selected, true) else (value, false)
  }
}

=== FILE: common.dfy ===
/** Values and sequence operations shared by every part of the model. */
module Common {

  /** JavaScript `null`/`undefined` and Python `None` are both `None` here. */
  datatype Option<+T> = None | Some(value: T)

  /** An operation that either yields a value or fails with a message. */
  datatype Result<+T> = Ok(value: T) | Err(message: string)

  /** An optional string is truthy in JavaScript when it is present and not empty. */
  predicate Truthy(s: Option<string>)
  {
    s.Some? && s.value != ""
  }

  /** JavaScript's `a || fallback` on an optional string: an absent or empty
      string is falsy, so the fallback takes its place. */
  function OrElse(s: Option<string>, fallback: string): (r: string)
    ensures s.Some? && s.value != "" ==> r == s.value
    ensures (s.None? || s.value == "") ==> r == fallback
    ensures fallback != "" ==> r != ""
  {
    if s.Some? && s.value != "" then s.value else fallback
  }

  /** `r` is what remains of `xs` after deleting some of its elements:
      every element of `r` comes from `xs`, in the same order. */
  ghost predicate IsSubsequence<T>(r: seq<T>, xs: seq<T>)
    decreases |xs|
  {
    if r == [] then true
    else if xs == [] then false
    else (r[0] == xs[0] && IsSubsequence(r[1..], xs[1..])) || IsSubsequence(r, xs[1..])
  }

  /** `Array.prototype.filter`: the elements of `xs` that satisfy `p`, in order. */
  function Filter<T>(xs: seq<T>, p: T -> bool): (r: seq<T>)
    ensures |r| <= |xs|
    ensures forall i :: 0 <= i < |r| ==> p(r[i])
  {
    if xs == [] then []
    else (if p(xs[0]) then [xs[0]] else []) + Filter(xs[1..], p)
  }

  /** Filtering keeps the relative order of what it keeps. */
  lemma {:induction false} FilterIsSubsequence<T>(xs: seq<T>, p: T -> bool)
    ensures IsSubsequence(Filter(xs, p), xs)
  {
    if xs != [] {
      FilterIsSubsequence(xs[1..], p);
      var rest := Filter(xs[1..], p);
      if p(xs[0]) {
        assert Filter(xs, p) == [xs[0]] + rest;
        assert ([xs[0]] + rest)[1..] == rest;
      } else {
        assert Filter(xs, p) == rest;
        SubsequenceOfTail(rest, xs);
      }
    }
  }

  lemma SubsequenceOfTail<T>(r: seq<T>, xs: seq<T>)
    requires xs != [] && IsSubsequence(r, xs[1..])
    ensures IsSubsequence(r, xs)
  {
  }

  /** Filtering keeps every occurrence of an element that satisfies `p` and
      none of one that does not. */
  lemma {:induction false} FilterCount<T>(xs: seq<T>, p: T -> bool, x: T)
    ensures multiset(Filter(xs, p))[x] == if p(x) then multiset(xs)[x] else 0
  {
    if xs != [] {
      FilterCount(xs[1..], p, x);
      assert xs == [xs[0]] + xs[1..];
      assert multiset(xs) == multiset{xs[0]} + multiset(xs[1..]);
    }
  }

  /** An element survives filtering exactly when it occurs in the input and
      satisfies `p`. */
  lemma FilterMembership<T>(xs: seq<T>, p: T -> bool, x: T)
    ensures x in Filter(xs, p) <==> x in xs && p(x)
  {
    FilterCount(xs, p, x);
  }

  /** Whatever holds of every element of `xs` holds of every element kept. */
  lemma {:induction false} FilterPreserves<T>(xs: seq<T>, p: T -> bool, q: T -> bool)
    requires forall i :: 0 <= i < |xs| ==> q(xs[i])
    ensures forall i :: 0 <= i < |Filter(xs, p)| ==> q(Filter(xs, p)[i])
  {
    if xs != [] {
      FilterPreserves(xs[1..], p, q);
    }
  }

  /** A filter whose predicate holds everywhere returns its input. */
  lemma {:induction false} FilterKeepsAll<T>(xs: seq<T>, p: T -> bool)
    requires forall i :: 0 <= i < |xs| ==> p(xs[i])
    ensures Filter(xs, p) == xs
  {
    if xs != [] {
      FilterKeepsAll(xs[1..], p);
      assert [xs[0]] + xs[1..] == xs;
    }
  }

  /** `xs.filter((_, i) => i !== k)`: drop position `k`. */
  function RemoveAt<T>(xs: seq<T>, k: nat): (r: seq<T>)
    requires k < |xs|
    ensures |r| == |xs| - 1
    ensures forall j :: 0 <= j < k ==> r[j] == xs[j]
    ensures forall j :: k <= j < |r| ==> r[j] == xs[j + 1]
  {
    xs[..k] + xs[k + 1..]
  }

  /** The position of the first element satisfying `p` (`Array.prototype.find`). */
  function FindFirst<T>(xs: seq<T>, p: T -> bool): (r: Option<nat>)
    ensures r.None? <==> forall i :: 0 <= i < |xs| ==> !p(xs[i])
    ensures r.Some? ==> r.value < |xs| && p(xs[r.value])
                        && forall i :: 0 <= i < r.value ==> !p(xs[i])
  {
    if xs == [] then None
    else if p(xs[0]) then Some(0)
    else match FindFirst(xs[1..], p)
      case None => None
      case Some(k) => Some(k + 1)
  }

  /** `xs.map(x => p(x) ? v : x)`: every element matching `p` becomes `v`. */
  function ReplaceWhere<T>(xs: seq<T>, p: T -> bool, v: T): (r: seq<T>)
    ensures |r| == |xs|
    ensures forall i :: 0 <= i < |xs| ==> r[i] == if p(xs[i]) then v else xs[i]
  {
    seq(|xs|, i requires 0 <= i < |xs| => if p(xs[i]) then v else xs[i])
  }

  /** Applying the same replacement twice is the same as applying it once,
      and replacing where nothing matches changes nothing. */
  lemma ReplaceWhereIdempotent<T>(xs: seq<T>, p: T -> bool, v: T)
    ensures ReplaceWhere(ReplaceWhere(xs, p, v), p, v) == ReplaceWhere(xs, p, v)
    ensures (forall i :: 0 <= i < |xs| ==> !p(xs[i])) ==> ReplaceWhere(xs, p, v) == xs
  {
  }

  /** No element occurs twice. */
  predicate NoDuplicates<T(==)>(xs: seq<T>)
  {
    forall i, j :: 0 <= i < j < |xs| ==> xs[i] != xs[j]
  }

  /** `list.remove(x)`: drop the first occurrence of `x`. */
  function RemoveFirst<T(==)>(xs: seq<T>, x: T): (r: seq<T>)
    ensures x !in xs ==> r == xs
    ensures x in xs ==> |r| == |xs| - 1
    ensures multiset(r) == multiset(xs) - multiset{x}
  {
    if xs == [] then []
    else if xs[0] == x then
      assert xs == [x] + xs[1..];
      xs[1..]
    else
      assert xs == [xs[0]] + xs[1..];
      [xs[0]] + RemoveFirst(xs[1..], x)
  }

  /** Removing an element from a duplicate-free list removes it entirely
      and keeps the list duplicate-free. */
  lemma {:induction false} RemoveFromDistinct<T>(xs: seq<T>, x: T)
    requires NoDuplicates(xs) && x in xs
    ensures x !in RemoveFirst(xs, x)
    ensures NoDuplicates(RemoveFirst(xs, x))
    ensures forall y :: y in RemoveFirst(xs, x) <==> y in xs && y != x
  {
    if xs[0] == x {
      assert forall i :: 0 <= i < |xs| - 1 ==> xs[1..][i] == xs[i + 1] != x;
    } else {
      RemoveFromDistinct(xs[1..], x);
      var rest := RemoveFirst(xs[1..], x);
      assert xs[0] !in xs[1..];
    }
  }

  /** Appending an absent element and then removing it restores the list. */
  lemma {:induction false} AppendThenRemove<T>(xs: seq<T>, x: T)
    requires x !in xs
    ensures RemoveFirst(xs + [x], x) == xs
  {
    if xs != [] {
      AppendThenRemove(xs[1..], x);
      assert (xs + [x])[1..] == xs[1..] + [x];
    }
  }
}

=== FILE: community_events.dfy ===
/** The community events page: event kinds and their badge colours, and the
    event built from a submitted form. The page's event list is a constant
    rebuilt on every render, so an event pushed onto it lives only until the
    next render. */
module CommunityEvents {
  import opened Text
  import opened Decimal
  import CreateEventModal

  /** The declared kinds of a community event. */
  datatype EventType = Cleanup | Fundraising | Sports | Meetup | Other

  datatype EventStatus = Upcoming | Ongoing | Past

  datatype CommunityEvent = CommunityEvent(
    id: string, title: string, description: string, date: string, time: string, location: string,
    communityId: string, communityName: string, kind: EventType,
    attendees: int, capacity: int, status: EventStatus)

  /** `getEventType`: the lower-cased category names one of the four named
      kinds, or the event is `other`. */
  function GetEventType(category: string): (r: EventType)
    ensures r == Cleanup <==> ToLower(category) == "cleanup"
    ensures r == Fundraising <==> ToLower(category) == "fundraising"
    ensures r == Sports <==> ToLower(category) == "sports"
    ensures r == Meetup <==> ToLower(category) == "meetup"
  {
    var normalized := ToLower(category);
    if normalized == "cleanup" then Cleanup
    else if normalized == "fundraising" then Fundraising
    else if normalized == "sports" then Sports
    else if normalized == "meetup" then Meetup
    else Other
  }

  /** Lower-casing twice is lower-casing once. */
  lemma ToLowerIdempotent(s: string)
    ensures ToLower(ToLower(s)) == ToLower(s)
  {
  }

  /** The mapping ignores case: a category and its lower-cased form map alike,
      so "Sports" and "SPORTS" both give `sports`. */
  lemma GetEventTypeIgnoresCase(category: string)
    ensures GetEventType(category) == GetEventType(ToLower(category))
    ensures GetEventType("Sports") == Sports && GetEventType("SPORTS") == Sports
  {
    ToLowerIdempotent(category);
    assert ToLower("Sports") == "sports";
    assert ToLower("SPORTS") == "sports";
  }

  /** `getEventTypeColor`: each named kind has its own badge classes, and
      only `other` falls back to gray. */
  function GetEventTypeColor(t: EventType): (r: string)
    ensures r == "bg-gray-100 text-gray-800" <==> t == Other
  {
    match t
    case Cleanup => "bg-green-100 text-green-800"
    case Sports => "bg-blue-100 text-blue-800"
    case Fundraising => "bg-purple-100 text-purple-800"
    case Meetup => "bg-yellow-100 text-yellow-800"
    case Other => "bg-gray-100 text-gray-800"
  }

  /** Distinct kinds get distinct colours. */
  lemma ColorsDistinct(a: EventType, b: EventType)
    requires a != b
    ensures GetEventTypeColor(a) != GetEventTypeColor(b)
  {
  }

  /** The three events every render starts from. */
  function PageEvents(): (r: seq<CommunityEvent>)
    ensures |r| == 3
  {
    [ CommunityEvent("1", "Weekend Beach Cleanup",
                     "Join us for our monthly beach cleanup initiative. All cleaning supplies will be provided.",
                     "2024-03-20", "09:00", "Mombasa Beach",
                     "1", "Green Earth Initiative", Cleanup, 45, 100, Upcoming),
      CommunityEvent("2", "Community Football Tournament",
                     "Annual football tournament between community teams. All skill levels welcome!",
                     "2024-03-25", "14:00", "Community Sports Ground",
                     "2", "Sports & Recreation Club", Sports, 75, 150, Upcoming),
      CommunityEvent("3", "Education Fund Fundraiser",
                     "Fundraising event to support local students with school supplies and scholarships.",
                     "2024-03-30", "18:00", "Community Center",
                     "3", "Education Support Network", Fundraising, 120, 200, Upcoming) ]
  }

  /** The event `handleCreateEvent` builds from a form, given how many events
      the list holds: the next numbered id, no attendees yet, upcoming, in
      the placeholder community "1" ("Your Community"), with the form's
      title, description, date, time, location and capacity, and the kind
      its category maps to. */
  function NewEvent(count: nat, data: CreateEventModal.EventForm): (r: CommunityEvent)
    ensures r.id == NatToString(count + 1)
    ensures r.attendees == 0 && r.status == Upcoming && r.capacity == data.capacity
    ensures r.kind == GetEventType(data.category)
    ensures r.title == data.title && r.description == data.description
    ensures r.date == data.date && r.time == data.time && r.location == data.location
    ensures r.communityId == "1" && r.communityName == "Your Community"
  {
    CommunityEvent(NatToString(count + 1), data.title, data.description, data.date, data.time, data.location,
                   "1", "Your Community", GetEventType(data.category), 0, data.capacity, Upcoming)
  }

  class CommunityEventsPage {
    /** The list built by the current render. */
    var events: seq<CommunityEvent>

    constructor ()
      ensures events == PageEvents()
    {
      events := PageEvents();
    }

    /** A render rebuilds the list from the constants. */
    method Render()
      modifies this
      ensures events == PageEvents()
    {
      events := PageEvents();
    }

    /** `handleCreateEvent`: the new event is pushed onto this render's list.
        The page hands it to the event modal as `onSubmit`, which the modal
        never calls. */
    method CreateEvent(data: CreateEventModal.EventForm)
      modifies this
      ensures events == old(events) + [NewEvent(|old(events)|, data)]
    {
      events := events + [NewEvent(|events|, data)];
    }
  }

  /** Whatever was created before, an event created right after a render
      always gets id "4" (a latent defect: nothing calls the handler). */
  method IdAfterRender(page: CommunityEventsPage, data: CreateEventModal.EventForm) returns (id: string)
    modifies page
    ensures id == "4"
  {
    page.Render();
    page.CreateEvent(data);
    id := page.events[3].id;
    assert NatToString(4) == "4";
  }
}

=== FILE: community_manage.dfy ===
/** The member list of the community management page, filtered by tab and
    by a case-insensitive search term. */
module CommunityManage {
  import opened Common
  import opened Text

  datatype Status = Active | Pending
  datatype Role = Admin | Moderator | Member
  datatype Tab = MembersTab | PendingTab

  datatype CommunityMember = CommunityMember(id: string, name: string, username: string, role: Role, status: Status)

  /** The member belongs on the tab: pending members on the pending tab,
      active ones on the members tab. */
  predicate OnTab(m: CommunityMember, tab: Tab)
  {
    if tab == PendingTab then m.status == Pending else m.status == Active
  }

  /** The member's name or username contains the term, ignoring case. */
  predicate MatchesTerm(m: CommunityMember, term: string)
  {
    MatchesIgnoringCase(m.name, term) || MatchesIgnoringCase(m.username, term)
  }

  /** `filteredMembers`: exactly the members on the tab that match the term,
      in their original order. */
  function FilteredMembers(members: seq<CommunityMember>, tab: Tab, term: string): (r: seq<CommunityMember>)
    ensures IsSubsequence(r, members)
    ensures forall i :: 0 <= i < |r| ==> OnTab(r[i], tab) && MatchesTerm(r[i], term)
    ensures forall m :: m in members && OnTab(m, tab) && MatchesTerm(m, term) ==> m in r
    ensures forall m :: multiset(r)[m] == if OnTab(m, tab) && MatchesTerm(m, term) then multiset(members)[m] else 0
  {
    var p := (m: CommunityMember) => OnTab(m, tab) && MatchesTerm(m, term);
    FilterIsSubsequence(members, p);
    forall m ensures multiset(Filter(members, p))[m] == if OnTab(m, tab) && MatchesTerm(m, term) then multiset(members)[m] else 0 {
      FilterCount(members, p, m);
    }
    forall m | m in members && OnTab(m, tab) && MatchesTerm(m, term)
      ensures m in Filter(members, p)
    {
      FilterMembership(members, p, m);
    }
    Filter(members, p)
  }

  /** An empty search term keeps every member on the tab. */
  lemma EmptyTermKeepsTab(members: seq<CommunityMember>, tab: Tab)
    ensures forall m :: m in members && OnTab(m, tab) ==> m in FilteredMembers(members, tab, "")
  {
    forall m | m in members && OnTab(m, tab)
      ensures MatchesTerm(m, "")
    {
      assert ToLower("") == "";
      IncludesEmpty(ToLower(m.name));
    }
  }
}

=== FILE: community_settings.dfy ===
/** The community settings page's category picker. The page's category list
    is a constant rebuilt on every render, so a category pushed onto it lives
    only until the next render. */
module CommunitySettings {
  import opened Decimal
  import opened Categories

  /** The eight categories every render starts from. */
  function PageCategories(): (r: seq<Category>)
    ensures |r| == 8 && NumberedIds(r)
  {
    assert NatToString(1) == "1" && NatToString(2) == "2" && NatToString(3) == "3";
    assert NatToString(4) == "4" && NatToString(5) == "5" && NatToString(6) == "6";
    assert NatToString(7) == "7" && NatToString(8) == "8";
    [ Category("1", "Technology", "Tech-related communities"),
      Category("2", "Health", "Health and wellness"),
      Category("3", "Education", "Learning and teaching"),
      Category("4", "Environment", "Environmental causes"),
      Category("5", "Arts", "Creative arts and culture"),
      Category("6", "Sports", "Sports and athletics"),
      Category("7", "News", "Current events and news"),
      Category("8", "Automotive", "Cars and vehicles") ]
  }

  class SettingsPage {
    var selectedCategory: string
    var showCategoryModal: bool
    var draft: Draft
    /** The list built by the current render. */
    var categories: seq<Category>

    constructor ()
      ensures selectedCategory == "" && !showCategoryModal && draft == EmptyDraft
      ensures categories == PageCategories()
    {
      selectedCategory := "";
      showCategoryModal := false;
      draft := EmptyDraft;
      categories := PageCategories();
    }

    /** A render rebuilds the list from the constants. */
    method Render()
      modifies this
      ensures categories == PageCategories()
      ensures selectedCategory == old(selectedCategory) && showCategoryModal == old(showCategoryModal)
      ensures draft == old(draft)
    {
      categories := PageCategories();
    }

    /** `handleCategoryChange`: `'create_new'` opens the dialog and keeps the
        selection; any other value is selected. */
    method CategoryChange(value: string)
      modifies this
      ensures value == "create_new" ==> showCategoryModal && selectedCategory == old(selectedCategory)
      ensures value != "create_new" ==> selectedCategory == value && showCategoryModal == old(showCategoryModal)
      ensures categories == old(categories) && draft == old(draft)
    {
      var (selected, open) := SelectCategory(selectedCategory, value);
      selectedCategory := selected;
      if open {
        showCategoryModal := true;
      }
    }

    /** `handleCreateCategory`: the draft is pushed onto this render's list with
        the next numbered id, and that id (not the name) is selected; the draft
        is cleared and the dialog closes. */
    method CreateCategory()
      modifies this
      ensures categories == old(categories) + [Category(NatToString(|old(categories)| + 1), old(draft).name, old(draft).description)]
      ensures selectedCategory == NatToString(|old(categories)| + 1)
      ensures draft == EmptyDraft && !showCategoryModal
    {
      var id := NatToString(|categories| + 1);
      categories := categories + [Category(id, draft.name, draft.description)];
      selectedCategory := id;
      draft := EmptyDraft;
      showCategoryModal := false;
    }
  }

  /** Two categories created one after the other, with a render in between,
      both get id "9", and after the render neither is in the list: the page
      selects an id that names no category. */
  method CreateTwice(first: Draft, second: Draft) returns (firstId: string, secondId: string, listed: bool)
    ensures firstId == "9" && secondId == "9"
    ensures !listed
  {
    var page := new SettingsPage();
    page.draft := first;
    page.CreateCategory();
    firstId := page.selectedCategory;
    page.Render();
    page.draft := second;
    page.CreateCategory();
    secondId := page.selectedCategory;
    page.Render();
    NumberedIdsDistinct(page.categories + [Category("9", "", "")]);
    listed := exists i :: 0 <= i < |page.categories| && page.categories[i].id == secondId;
  }
}

=== FILE: conversations_list.dfy ===
/** The conversation list of the messages page, filtered by a
    case-insensitive search on the conversation's name. */
module ConversationsList {
  import opened Common
  import opened Text

  datatype ListedConversation = ListedConversation(id: string, name: string)

  /** `filteredConversations`: exactly the conversations whose name contains
      the query, ignoring case, in their original order. */
  function FilteredConversations(conversations: seq<ListedConversation>, query: string): (r: seq<ListedConversation>)
    ensures IsSubsequence(r, conversations)
    ensures forall i :: 0 <= i < |r| ==> MatchesIgnoringCase(r[i].name, query)
    ensures forall c :: c in conversations && MatchesIgnoringCase(c.name, query) ==> c in r
    ensures forall c :: multiset(r)[c] == if MatchesIgnoringCase(c.name, query) then multiset(conversations)[c] else 0
  {
    var p := (c: ListedConversation) => MatchesIgnoringCase(c.name, query);
    FilterIsSubsequence(conversations, p);
    forall c ensures multiset(Filter(conversations, p))[c] == if MatchesIgnoringCase(c.name, query) then multiset(conversations)[c] else 0 {
      FilterCount(conversations, p, c);
    }
    forall c | c in conversations && MatchesIgnoringCase(c.name, query)
      ensures c in Filter(conversations, p)
    {
      FilterMembership(conversations, p, c);
    }
    Filter(conversations, p)
  }

  /** An empty query keeps the whole list. */
  lemma EmptyQueryKeepsAll(conversations: seq<ListedConversation>)
    ensures FilteredConversations(conversations, "") == conversations
  {
    forall i | 0 <= i < |conversations|
      ensures MatchesIgnoringCase(conversations[i].name, "")
    {
      assert ToLower("") == "";
      IncludesEmpty(ToLower(conversations[i].name));
    }
    FilterKeepsAll(conversations, (c: ListedConversation) => MatchesIgnoringCase(c.name, ""));
  }
}

=== FILE: create_community_modal.dfy ===
/** The dialog for creating a community: a four-field form, a category list
    that can grow, and a submit that hands the form to its owner. */
module CreateCommunityModal {
  import opened Decimal
  import opened Categories

  datatype CommunityForm = CommunityForm(name: string, category: string, description: string, location: string)

  const BlankForm := CommunityForm("", "", "", "")

  /** The six categories the dialog starts with. */
  function InitialCategories(): (r: seq<Category>)
    ensures |r| == 6 && NumberedIds(r)
  {
    assert NatToString(1) == "1" && NatToString(2) == "2" && NatToString(3) == "3";
    assert NatToString(4) == "4" && NatToString(5) == "5" && NatToString(6) == "6";
    [ Category("1", "Environment", "Environmental initiatives"),
      Category("2", "Technology", "Tech communities"),
      Category("3", "Education", "Learning and teaching"),
      Category("4", "Health", "Health and wellness"),
      Category("5", "Sports", "Sports and athletics"),
      Category("6", "Arts", "Arts & Culture") ]
  }

  class CreateCommunityDialog {
    var form: CommunityForm
    var imagePreview: string
    var showCategoryModal: bool
    var draft: Draft
    var categories: seq<Category>
    /** Every form handed to `onSubmit`, in order. */
    var submitted: seq<CommunityForm>
    var closeCalls: nat

    /** Category ids stay "1", "2", ... and so stay distinct. */
    ghost predicate Valid()
      reads this
    {
      NumberedIds(categories)
    }

    constructor ()
      ensures Valid()
      ensures form == BlankForm && imagePreview == "" && !showCategoryModal && draft == EmptyDraft
      ensures categories == InitialCategories() && submitted == [] && closeCalls == 0
    {
      form := BlankForm;
      imagePreview := "";
      showCategoryModal := false;
      draft := EmptyDraft;
      categories := InitialCategories();
      submitted := [];
      closeCalls := 0;
    }

    /** `handleSubmit`: the form goes to `onSubmit`, then the form and preview
        are reset and the dialog asks to close, whatever `onSubmit` did. */
    method Submit()
      requires Valid()
      modifies this
      ensures Valid()
      ensures submitted == old(submitted) + [old(form)]
      ensures form == BlankForm && imagePreview == "" && closeCalls == old(closeCalls) + 1
      ensures categories == old(categories) && draft == old(draft) && showCategoryModal == old(showCategoryModal)
    {
      submitted := submitted + [form];
      form := BlankForm;
      imagePreview := "";
      closeCalls := closeCalls + 1;
    }

    /** The category `<select>`: `'create_new'` opens the category dialog and
        keeps the selection; any other value is selected. */
    method ChooseCategory(value: string)
      requires Valid()
      modifies this
      ensures Valid()
      ensures value == "create_new" ==> showCategoryModal && form == old(form)
      ensures value != "create_new" ==>
        form == old(form).(category := value) && showCategoryModal == old(showCategoryModal)
      ensures categories == old(categories) && draft == old(draft) && submitted == old(submitted)
      ensures imagePreview == old(imagePreview) && closeCalls == old(closeCalls)
    {
      var (selected, open) := SelectCategory(form.category, value);
      form := form.(category := selected);
      if open {
        showCategoryModal := true;
      }
    }

    /** `handleCreateCategory`: the draft is appended with the next numbered id
        and chosen by name; the draft is cleared and the category dialog closes. */
    method CreateCategory()
      requires Valid()
      modifies this
      ensures Valid()
      ensures categories == old(categories) + [Category(NatToString(|old(categories)| + 1), old(draft).name, old(draft).description)]
      ensures form == old(form).(category := old(draft).name)
      ensures draft == EmptyDraft && !showCategoryModal
      ensures submitted == old(submitted) && imagePreview == old(imagePreview) && closeCalls == old(closeCalls)
    {
      categories := AppendCategory(categories, draft);
      form := form.(category := draft.name);
      draft := EmptyDraft;
      showCategoryModal := false;
    }
  }

  /** However many categories are created, their ids never collide. */
  method CategoryIdsStayDistinct(drafts: seq<Draft>) returns (cats: seq<Category>)
    ensures |cats| == 6 + |drafts|
    ensures forall i, j :: 0 <= i < j < |cats| ==> cats[i].id != cats[j].id
  {
    var dialog := new CreateCommunityDialog();
    var k := 0;
    while k < |drafts|
      invariant 0 <= k <= |drafts|
      invariant dialog.Valid() && |dialog.categories| == 6 + k
    {
      dialog.draft := drafts[k];
      dialog.CreateCategory();
      k := k + 1;
    }
    cats := dialog.categories;
    NumberedIdsDistinct(cats);
  }
}

=== FILE: create_event_modal.dfy ===
/** The dialog for creating an event: a form with agenda and requirement
    lists, a category list that can grow, and a submit that sends the form to
    the events service. */
module CreateEventModal {
  import opened Common
  import opened Decimal
  import opened Categories

  datatype EventForm = EventForm(
    title: string, description: string, date: string, time: string, endTime: string,
    location: string, category: string, capacity: int,
    organizerName: string, organizerRole: string,
    agenda: seq<string>, requirements: seq<string>)

  const BlankForm := EventForm("", "", "", "", "", "", "", 0, "", "", [], [])

  /** The five categories the dialog starts with. */
  function InitialCategories(): (r: seq<Category>)
    ensures |r| == 5 && NumberedIds(r)
  {
    assert NatToString(1) == "1" && NatToString(2) == "2" && NatToString(3) == "3";
    assert NatToString(4) == "4" && NatToString(5) == "5";
    [ Category("1", "Cleanup", "Environmental cleanup events"),
      Category("2", "Fundraising", "Charity and fundraising events"),
      Category("3", "Sports", "Sports and fitness events"),
      Category("4", "Education", "Learning and workshops"),
      Category("5", "Social", "Social gatherings") ]
  }

  class CreateEventDialog {
    var form: EventForm
    var imagePreview: string
    var showCategoryModal: bool
    var draft: Draft
    var categories: seq<Category>
    /** How many times the dialog asked to be closed. */
    var closeCalls: nat

    /** Category ids stay "1", "2", ... and so stay distinct. */
    ghost predicate Valid()
      reads this
    {
      NumberedIds(categories)
    }

    /** The form starts from the given data, or blank. */
    constructor (initialData: Option<EventForm>)
      ensures Valid()
      ensures form == (if initialData.Some? then initialData.value else BlankForm)
      ensures imagePreview == "" && !showCategoryModal && draft == EmptyDraft
      ensures categories == InitialCategories() && closeCalls == 0
    {
      form := if initialData.Some? then initialData.value else BlankForm;
      imagePreview := "";
      showCategoryModal := false;
      draft := EmptyDraft;
      categories := InitialCategories();
      closeCalls := 0;
    }

    /** Typing into agenda item `i`: only that item changes. */
    method EditAgendaItem(i: nat, text: string)
      requires Valid() && i < |form.agenda|
      modifies this
      ensures Valid()
      ensures |form.agenda| == |old(form.agenda)| && form.agenda[i] == text
      ensures forall j :: 0 <= j < |form.agenda| && j != i ==> form.agenda[j] == old(form.agenda)[j]
      ensures form == old(form).(agenda := form.agenda)
      ensures categories == old(categories) && draft == old(draft) && showCategoryModal == old(showCategoryModal)
      ensures imagePreview == old(imagePreview) && closeCalls == old(closeCalls)
    {
      form := form.(agenda := form.agenda[i := text]);
    }

    /** Removing agenda item `i`: the others keep their order. */
    method RemoveAgendaItem(i: nat)
      requires Valid() && i < |form.agenda|
      modifies this
      ensures Valid()
      ensures form == old(form).(agenda := RemoveAt(old(form.agenda), i))
      ensures categories == old(categories) && draft == old(draft) && showCategoryModal == old(showCategoryModal)
      ensures imagePreview == old(imagePreview) && closeCalls == old(closeCalls)
    {
      form := form.(agenda := RemoveAt(form.agenda, i));
    }

    /** "Add agenda item": an empty item at the end. */
    method AddAgendaItem()
      requires Valid()
      modifies this
      ensures Valid()
      ensures form == old(form).(agenda := old(form.agenda) + [""])
      ensures categories == old(categories) && draft == old(draft) && showCategoryModal == old(showCategoryModal)
      ensures imagePreview == old(imagePreview) && closeCalls == old(closeCalls)
    {
      form := form.(agenda := form.agenda + [""]);
    }

    /** Typing into requirement `i`: only that item changes. */
    method EditRequirement(i: nat, text: string)
      requires Valid() && i < |form.requirements|
      modifies this
      ensures Valid()
      ensures |form.requirements| == |old(form.requirements)| && form.requirements[i] == text
      ensures forall j :: 0 <= j < |form.requirements| && j != i ==> form.requirements[j] == old(form.requirements)[j]
      ensures form == old(form).(requirements := form.requirements)
      ensures categories == old(categories) && draft == old(draft) && showCategoryModal == old(showCategoryModal)
      ensures imagePreview == old(imagePreview) && closeCalls == old(closeCalls)
    {
      form := form.(requirements := form.requirements[i := text]);
    }

    /** Removing requirement `i`: the others keep their order. */
    method RemoveRequirement(i: nat)
      requires Valid() && i < |form.requirements|
      modifies this
      ensures Valid()
      ensures form == old(form).(requirements := RemoveAt(old(form.requirements), i))
      ensures categories == old(categories) && draft == old(draft) && showCategoryModal == old(showCategoryModal)
      ensures imagePreview == old(imagePreview) && closeCalls == old(closeCalls)
    {
      form := form.(requirements := RemoveAt(form.requirements, i));
    }

    /** "Add required item": an empty item at the end. */
    method AddRequirement()
      requires Valid()
      modifies this
      ensures Valid()
      ensures form == old(form).(requirements := old(form.requirements) + [""])
      ensures categories == old(categories) && draft == old(draft) && showCategoryModal == old(showCategoryModal)
      ensures imagePreview == old(imagePreview) && closeCalls == old(closeCalls)
    {
      form := form.(requirements := form.requirements + [""]);
    }

    /** The category `<select>`: `'create_new'` opens the category dialog and
        keeps the form's category; any other value becomes the category. */
    method ChooseCategory(value: string)
      requires Valid()
      modifies this
      ensures Valid()
      ensures value == "create_new" ==> showCategoryModal && form == old(form)
      ensures value != "create_new" ==>
        form == old(form).(category := value) && showCategoryModal == old(showCategoryModal)
      ensures categories == old(categories) && draft == old(draft)
      ensures imagePreview == old(imagePreview) && closeCalls == old(closeCalls)
    {
      var (selected, open) := SelectCategory(form.category, value);
      form := form.(category := selected);
      if open {
        showCategoryModal := true;
      }
    }

    /** `handleCreateCategory`: the draft is appended with the next numbered id,
        chosen for the form by name, then cleared, and the dialog closes. The
        dialog the modal renders is an empty placeholder, so no control calls
        this handler. */
    method CreateCategory()
      requires Valid()
      modifies this
      ensures Valid()
      ensures categories == old(categories) + [Category(NatToString(|old(categories)| + 1), old(draft).name, old(draft).description)]
      ensures form == old(form).(category := old(draft).name)
      ensures draft == EmptyDraft && !showCategoryModal
      ensures imagePreview == old(imagePreview) && closeCalls == old(closeCalls)
    {
      categories := AppendCategory(categories, draft);
      form := form.(category := draft.name);
      draft := EmptyDraft;
      showCategoryModal := false;
    }

    /** `handleSubmit`: the form goes to the events service (`sent`); on
        success the form is blanked, the preview cleared and the dialog asks to
        close, on failure nothing changes. The `onSubmit` property is never
        called. */
    method Submit(succeeded: bool) returns (sent: EventForm)
      requires Valid()
      modifies this
      ensures Valid()
      ensures sent == old(form)
      ensures succeeded ==> form == BlankForm && imagePreview == "" && closeCalls == old(closeCalls) + 1
      ensures !succeeded ==> form == old(form) && imagePreview == old(imagePreview) && closeCalls == old(closeCalls)
      ensures categories == old(categories) && draft == old(draft) && showCategoryModal == old(showCategoryModal)
    {
      sent := form;
      if succeeded {
        form := BlankForm;
        imagePreview := "";
        closeCalls := closeCalls + 1;
      }
    }
  }
}

=== FILE: date_utils.dfy ===
/** Relative and ranged date labels. Instants are milliseconds since the
    epoch; the locale-dependent renderings of a date and a time are inputs. */
module DateUtils {
  import opened Text
  import opened Decimal

  /** `Math.floor((now - past) / 1000)`: whole seconds elapsed, rounded down
      (so a date in the future gives a negative count). */
  function ElapsedSeconds(nowMs: int, pastMs: int): (r: int)
    ensures r * 1000 <= nowMs - pastMs < r * 1000 + 1000
  {
    (nowMs - pastMs) / 1000
  }

  /** Which label `formatTimeAgo` picks, with its number. */
  datatype Ago = JustNow | Minutes(n: nat) | Hours(n: nat) | Days(n: nat) | OnDate

  /** Two floor divisions in a row, by `a` and then by `b`, are one floor
      division by `a * b` (for the unit sizes used here). */
  lemma NestedDivision(s: int, a: int, b: int)
    requires s >= 0
    requires (a == 60 && b == 60) || (a == 3600 && b == 24)
    ensures (s / a) / b == s / (a * b)
  {
    var q := s / a;
    var q2 := q / b;
    assert s == a * q + s % a;
    assert q == b * q2 + q % b;
    assert a * q == a * b * q2 + a * (q % b);
  }

  /** The label for `s` elapsed seconds, computed as the source does: minutes,
      hours and days by successive floor divisions, each tested against its
      own threshold. */
  function TimeAgoBucket(s: int): (r: Ago)
  {
    if s < 60 then JustNow
    else
      var minutes := s / 60;
      if minutes < 60 then Minutes(minutes)
      else
        var hours := minutes / 60;
        if hours < 24 then Hours(hours)
        else
          var days := hours / 24;
          if days < 7 then Days(days) else OnDate
  }

  /** The buckets are fixed ranges of seconds: exactly one applies to every
      count, and its number is the count divided by the bucket's unit. */
  lemma {:induction false} TimeAgoRanges(s: int)
    ensures TimeAgoBucket(s) == JustNow <==> s < 60
    ensures TimeAgoBucket(s).Minutes? <==> 60 <= s < 3600
    ensures TimeAgoBucket(s).Hours? <==> 3600 <= s < 86400
    ensures TimeAgoBucket(s).Days? <==> 86400 <= s < 604800
    ensures TimeAgoBucket(s) == OnDate <==> 604800 <= s
    ensures TimeAgoBucket(s).Minutes? ==> TimeAgoBucket(s).n == s / 60 && 1 <= TimeAgoBucket(s).n <= 59
    ensures TimeAgoBucket(s).Hours? ==> TimeAgoBucket(s).n == s / 3600 && 1 <= TimeAgoBucket(s).n <= 23
    ensures TimeAgoBucket(s).Days? ==> TimeAgoBucket(s).n == s / 86400 && 1 <= TimeAgoBucket(s).n <= 6
  {
    if s >= 60 {
      NestedDivision(s, 60, 60);
      NestedDivision(s, 3600, 24);
      assert (s / 60) / 60 == s / 3600;
      assert (s / 3600) / 24 == s / 86400;
    }
  }

  /** `formatTimeAgo`, given the current instant and the locale rendering of
      the date for the oldest bucket. */
  function FormatTimeAgo(nowMs: int, pastMs: int, dateText: string): (r: string)
  {
    match TimeAgoBucket(ElapsedSeconds(nowMs, pastMs))
    case JustNow => "just now"
    case Minutes(n) => NatToString(n) + "m ago"
    case Hours(n) => NatToString(n) + "h ago"
    case Days(n) => NatToString(n) + "d ago"
    case OnDate => dateText
  }

  /** The label for every elapsed time: anything less than a minute old,
      including a date in the future, reads "just now"; then whole minutes,
      hours and days; from a week on the plain date. */
  lemma FormatTimeAgoLabels(nowMs: int, pastMs: int, dateText: string)
    ensures var s := ElapsedSeconds(nowMs, pastMs); var r := FormatTimeAgo(nowMs, pastMs, dateText);
      && (s < 60 ==> r == "just now")
      && (60 <= s < 3600 ==> r == NatToString(s / 60) + "m ago")
      && (3600 <= s < 86400 ==> r == NatToString(s / 3600) + "h ago")
      && (86400 <= s < 604800 ==> r == NatToString(s / 86400) + "d ago")
      && (604800 <= s ==> r == dateText)
  {
    TimeAgoRanges(ElapsedSeconds(nowMs, pastMs));
  }

  /** An instant as `formatDateRange` sees it: its calendar day (what
      `toDateString` identifies) and its locale date and time texts. */
  datatype Instant = Instant(day: int, dateText: string, timeText: string)

  /** `formatDateRange`: one date with two times when both instants fall on
      the same calendar day, two dates otherwise. */
  function FormatDateRange(start: Instant, end: Instant): (r: string)
    ensures StartsWith(r, start.dateText + " ")
    ensures start.day == end.day ==> r == start.dateText + " " + start.timeText + " - " + end.timeText
    ensures start.day != end.day ==> r == start.dateText + " - " + end.dateText
  {
    if start.day == end.day then start.dateText + " " + start.timeText + " - " + end.timeText
    else start.dateText + " - " + end.dateText
  }
}

=== FILE: edit_profile_modal.dfy ===
/** The profile editing dialog: its form is seeded from the profile, the
    interests are edited as one comma-separated line, and a submit sends the
    parsed list and closes the dialog only when the update succeeds. */
module EditProfileModal {
  import opened Common
  import opened Text

  /** The profile handed to the dialog; any field may be missing. */
  datatype ProfileInput = ProfileInput(
    id: string, firstName: Option<string>, lastName: Option<string>,
    bio: Option<string>, location: Option<string>, interests: Option<seq<string>>)

  datatype Form = Form(firstName: string, lastName: string, bio: string, location: string, interests: string)

  /** The update sent to the store: the form with the interests parsed. */
  datatype UpdateRequest = UpdateRequest(
    userId: string, firstName: string, lastName: string, bio: string, location: string, interests: seq<string>)

  /** `interests.join(', ')`. */
  function FormatInterests(interests: seq<string>): string
  {
    Join(interests, ", ")
  }

  /** `pieces.map(i => i.trim())`. */
  function TrimAll(pieces: seq<string>): seq<string>
  {
    if pieces == [] then [] else [Trim(pieces[0])] + TrimAll(pieces[1..])
  }

  /** Trimming every piece keeps the count and trims each in place. */
  lemma {:induction false} TrimAllPointwise(pieces: seq<string>)
    ensures |TrimAll(pieces)| == |pieces|
    ensures forall i :: 0 <= i < |pieces| ==> TrimAll(pieces)[i] == Trim(pieces[i])
  {
    if pieces != [] {
      TrimAllPointwise(pieces[1..]);
    }
  }

  /** An entry that may appear in a parsed list. */
  predicate IsInterest(s: string)
  {
    s != "" && IsTrimmed(s) && ',' !in s
  }

  /** `pieces.filter(Boolean)`: the non-empty pieces, in order. */
  function DropEmpty(pieces: seq<string>): seq<string>
  {
    if pieces == [] then []
    else (if pieces[0] == "" then [] else [pieces[0]]) + DropEmpty(pieces[1..])
  }

  /** `text.split(',').map(i => i.trim()).filter(Boolean)`. */
  function ParseInterests(text: string): seq<string>
  {
    DropEmpty(TrimAll(Split(text, ',')))
  }

  /** Trimming and dropping empty pieces of comma-free pieces leaves only
      entries a parsed list can hold. */
  lemma {:induction false} CleanPieces(pieces: seq<string>)
    requires forall i :: 0 <= i < |pieces| ==> ',' !in pieces[i]
    ensures forall i :: 0 <= i < |DropEmpty(TrimAll(pieces))| ==> IsInterest(DropEmpty(TrimAll(pieces))[i])
  {
    if pieces != [] {
      CleanPieces(pieces[1..]);
      TrimmedWithin(pieces[0], ',');
    }
  }

  /** Parsed entries are never empty, never start or end with white space
      and never hold a comma. */
  lemma ParsedInterestsClean(text: string)
    ensures forall i :: 0 <= i < |ParseInterests(text)| ==> IsInterest(ParseInterests(text)[i])
  {
    CleanPieces(Split(text, ','));
  }

  /** The entries as they follow a `", "` separator: each behind a space. */
  function Spaced(xs: seq<string>): seq<string>
  {
    if xs == [] then [] else [" " + xs[0]] + Spaced(xs[1..])
  }

  /** The pieces of a `", "`-joined list: the first entry, then every other
      entry behind the space that followed its comma. */
  lemma {:induction false} SplitJoined(xs: seq<string>)
    requires xs != []
    requires forall i :: 0 <= i < |xs| ==> ',' !in xs[i]
    ensures Split(Join(xs, ", "), ',') == [xs[0]] + Spaced(xs[1..])
  {
    if |xs| == 1 {
      SplitWithoutSeparator(xs[0], ',');
    } else {
      var rest := xs[1..];
      var j := Join(rest, ", ");
      SplitJoined(rest);
      assert Join(xs, ", ") == xs[0] + [','] + (" " + j);
      SplitAtSeparator(xs[0], " " + j, ',');
      SplitWithoutSeparator(xs[0], ',');
      var sj := Split(j, ',');
      assert (" " + j)[1..] == j;
      assert Split(" " + j, ',') == [" " + sj[0]] + sj[1..];
      assert sj[1..] == Spaced(rest[1..]);
    }
  }

  /** Trimming the spaced entries recovers them. */
  lemma {:induction false} TrimSpaced(xs: seq<string>)
    requires forall i :: 0 <= i < |xs| ==> IsInterest(xs[i])
    ensures TrimAll(Spaced(xs)) == xs
  {
    if xs != [] {
      TrimSpaced(xs[1..]);
      TrimAfterSpace(xs[0]);
      assert ([" " + xs[0]] + Spaced(xs[1..]))[1..] == Spaced(xs[1..]);
      assert [xs[0]] + xs[1..] == xs;
    }
  }

  /** Parsing a formatted list gives the list back, for entries a parsed list
      can hold. */
  lemma {:induction false} ParseFormatRoundTrip(xs: seq<string>)
    requires forall i :: 0 <= i < |xs| ==> IsInterest(xs[i])
    ensures ParseInterests(FormatInterests(xs)) == xs
  {
    if xs == [] {
      assert TrimAll([""]) == [""];
    } else {
      SplitJoined(xs);
      TrimSpaced(xs[1..]);
      TrimOfTrimmed(xs[0]);
      var pieces := [xs[0]] + Spaced(xs[1..]);
      assert pieces[1..] == Spaced(xs[1..]);
      assert TrimAll(pieces) == [xs[0]] + xs[1..] == xs;
      DropEmptyKeepsAll(xs);
    }
  }

  /** Without empty pieces nothing is dropped. */
  lemma {:induction false} DropEmptyKeepsAll(pieces: seq<string>)
    requires forall i :: 0 <= i < |pieces| ==> pieces[i] != ""
    ensures DropEmpty(pieces) == pieces
  {
    if pieces != [] {
      DropEmptyKeepsAll(pieces[1..]);
      assert [pieces[0]] + pieces[1..] == pieces;
    }
  }

  /** The form's starting values: each text field falls back to `''`, the
      interests are shown formatted. */
  function InitialForm(profile: Option<ProfileInput>): (r: Form)
    ensures profile.None? ==> r == Form("", "", "", "", "")
    ensures profile.Some? && profile.value.interests.Some? ==>
      r.interests == FormatInterests(profile.value.interests.value)
    ensures profile.Some? ==>
      && r.firstName == OrElse(profile.value.firstName, "")
      && r.lastName == OrElse(profile.value.lastName, "")
      && r.bio == OrElse(profile.value.bio, "")
      && r.location == OrElse(profile.value.location, "")
  {
    match profile
    case None => Form("", "", "", "", "")
    case Some(p) =>
      Form(OrElse(p.firstName, ""), OrElse(p.lastName, ""), OrElse(p.bio, ""), OrElse(p.location, ""),
           if p.interests.Some? then FormatInterests(p.interests.value) else "")
  }

  class EditProfileDialog {
    const profile: Option<ProfileInput>
    var form: Form
    /** How many times the dialog asked to be closed. */
    var closeCalls: nat

    constructor (profile: Option<ProfileInput>)
      ensures this.profile == profile
      ensures form == InitialForm(profile) && closeCalls == 0
    {
      this.profile := profile;
      form := InitialForm(profile);
      closeCalls := 0;
    }

    /** `handleSubmit`: the update carries the form with the parsed interests
        (`sent`); `succeeded` is how the update settles. Without a profile,
        reading its id throws before anything is sent. Any failure is logged
        and the dialog stays open; only a success closes it. */
    method Submit(succeeded: bool) returns (sent: Option<UpdateRequest>, logged: bool)
      modifies this
      ensures profile.None? ==> sent.None?
      ensures profile.Some? ==> sent == Some(UpdateRequest(profile.value.id, form.firstName, form.lastName,
        form.bio, form.location, ParseInterests(form.interests)))
      ensures closeCalls == old(closeCalls) + (if sent.Some? && succeeded then 1 else 0)
      ensures logged <==> !(sent.Some? && succeeded)
      ensures form == old(form)
    {
      if profile.None? {
        return None, true;
      }
      sent := Some(UpdateRequest(profile.value.id, form.firstName, form.lastName, form.bio, form.location,
                                 ParseInterests(form.interests)));
      if succeeded {
        closeCalls := closeCalls + 1;
        logged := false;
      } else {
        logged := true;
      }
    }
  }
}

=== FILE: event_calendar.dfy ===
/** The month grid of the events calendar. The weekday of the month's first
    day and the month's length come from the date library and are inputs;
    a day of the month is represented by its number. */
module EventCalendar {
  import opened Common

  /** `getDaysInMonth`: one empty cell per weekday before the first, then the
      days 1..n in order. */
  method GetDaysInMonth(firstWeekday: nat, daysInMonth: nat) returns (days: seq<Option<nat>>)
    ensures |days| == firstWeekday + daysInMonth
    ensures forall i :: 0 <= i < firstWeekday ==> days[i] == None
    ensures forall d :: 1 <= d <= daysInMonth ==> days[firstWeekday + d - 1] == Some(d)
    ensures forall i :: firstWeekday <= i < |days| ==> days[i].Some?
  {
    days := [];
    var i := 0;
    while i < firstWeekday
      invariant 0 <= i <= firstWeekday
      invariant |days| == i
      invariant forall j :: 0 <= j < i ==> days[j] == None
    {
      days := days + [None];
      i := i + 1;
    }
    var d := 1;
    while d <= daysInMonth
      invariant 1 <= d <= daysInMonth + 1
      invariant |days| == firstWeekday + d - 1
      invariant forall j :: 0 <= j < firstWeekday ==> days[j] == None
      invariant forall e :: 1 <= e < d ==> days[firstWeekday + e - 1] == Some(e)
    {
      days := days + [Some(d)];
      d := d + 1;
    }
    forall i | firstWeekday <= i < |days|
      ensures days[i].Some?
    {
      var e := i - firstWeekday + 1;
      assert days[firstWeekday + e - 1] == Some(e);
    }
  }

  /** An event as the calendar reads it: its start's calendar day (what
      `toDateString` identifies). */
  datatype CalendarEvent = CalendarEvent(id: string, title: string, startDay: int)

  /** `getEventsForDate`: the events starting on the given day, in their
      original order, and all of them. */
  function GetEventsForDate(events: seq<CalendarEvent>, day: int): (r: seq<CalendarEvent>)
    ensures IsSubsequence(r, events)
    ensures forall i :: 0 <= i < |r| ==> r[i].startDay == day
    ensures forall e :: e in events && e.startDay == day ==> e in r
    ensures forall e :: multiset(r)[e] == if e.startDay == day then multiset(events)[e] else 0
  {
    var p := (e: CalendarEvent) => e.startDay == day;
    FilterIsSubsequence(events, p);
    forall e ensures multiset(Filter(events, p))[e] == if e.startDay == day then multiset(events)[e] else 0 {
      FilterCount(events, p, e);
    }
    forall e | e in events && e.startDay == day
      ensures e in Filter(events, p)
    {
      FilterMembership(events, p, e);
    }
    Filter(events, p)
  }
}

=== FILE: event_slice.dfy ===
/** The client's event cache (the `events` slice of the store). */
module EventSlice {
  import opened Common

  /** An event as the server returns it; only the id takes part in the
      reducers' decisions, the rest is carried along unchanged. */
  datatype Event = Event(id: string, title: string, attendees: seq<string>)

  class EventState {
    var events: seq<Event>
    var currentEvent: Option<Event>
    var loading: bool
    var error: Option<string>

    /** The initial state of the slice. */
    constructor ()
      ensures events == [] && currentEvent == None && !loading && error == None
    {
      events := [];
      currentEvent := None;
      loading := false;
      error := None;
    }

    /** `fetchEvents.pending`. */
    method FetchEventsPending()
      modifies this
      ensures loading && error == None
      ensures events == old(events) && currentEvent == old(currentEvent)
    {
      loading := true;
      error := None;
    }

    /** `fetchEvents.fulfilled`. */
    method FetchEventsFulfilled(payload: seq<Event>)
      modifies this
      ensures !loading && events == payload
      ensures currentEvent == old(currentEvent) && error == old(error)
    {
      loading := false;
      events := payload;
    }

    /** `fetchEvents.rejected`: the cached list survives the failure. */
    method FetchEventsRejected(message: Option<string>)
      modifies this
      ensures !loading && error == Some(OrElse(message, "Failed to fetch events"))
      ensures events == old(events) && currentEvent == old(currentEvent)
    {
      loading := false;
      error := Some(OrElse(message, "Failed to fetch events"));
    }

    /** `fetchEventById.fulfilled`. */
    method FetchEventByIdFulfilled(payload: Event)
      modifies this
      ensures currentEvent == Some(payload)
      ensures events == old(events) && loading == old(loading) && error == old(error)
    {
      currentEvent := Some(payload);
    }

    /** `createEvent.fulfilled`: the new event goes first. */
    method CreateEventFulfilled(payload: Event)
      modifies this
      ensures events == [payload] + old(events)
      ensures currentEvent == old(currentEvent) && loading == old(loading) && error == old(error)
    {
      events := [payload] + events;
    }

    /** `attendEvent.fulfilled`: every cached copy of the event, in the list and
        as the current event, becomes the server's updated event; everything
        else stays. */
    method AttendEventFulfilled(payload: Event)
      modifies this
      ensures |events| == |old(events)|
      ensures forall i :: 0 <= i < |events| ==>
        events[i] == if old(events)[i].id == payload.id then payload else old(events)[i]
      ensures currentEvent ==
        if old(currentEvent).Some? && old(currentEvent).value.id == payload.id then Some(payload) else old(currentEvent)
      ensures loading == old(loading) && error == old(error)
    {
      if currentEvent.Some? && currentEvent.value.id == payload.id {
        currentEvent := Some(payload);
      }
      events := ReplaceWhere(events, (e: Event) => e.id == payload.id, payload);
    }
  }
}

=== FILE: events_page.dfy ===
/** The events listing page: the fetched events, a per-event record of
    whether the current user joined and how many attend, and the join button
    that flips that record once the server accepts. */
module EventsPage {
  import opened Common

  /** `attendees` arrives either as a list of attendee ids or as a number. */
  datatype Attendees = AttendeeList(ids: seq<string>) | AttendeeCount(count: int)

  datatype PageEvent = PageEvent(id: string, title: string, attendees: Attendees)

  /** The per-event record the page keeps. */
  datatype EventEntry = EventEntry(id: string, isJoined: bool, attendees: int)

  /** The id the page treats as the current user. */
  const CurrentUserId := "current-user-id"

  /** The starting record of one event: joined when the attendee list holds
      the current user, counted by the list's length; a bare number gives
      not joined and 0. */
  function EntryFor(e: PageEvent): (r: EventEntry)
    ensures r.id == e.id
    ensures r.isJoined <==> e.attendees.AttendeeList? && CurrentUserId in e.attendees.ids
    ensures r.attendees == if e.attendees.AttendeeList? then |e.attendees.ids| else 0
  {
    match e.attendees
    case AttendeeList(ids) => EventEntry(e.id, CurrentUserId in ids, |ids|)
    case AttendeeCount(_) => EventEntry(e.id, false, 0)
  }

  /** The records `data.reduce((acc, e) => { acc[e.id] = ...; return acc }, {})`
      builds: a later event overwrites an earlier one with the same id. */
  function StatesOf(data: seq<PageEvent>): map<string, EventEntry>
  {
    if data == [] then map[]
    else StatesOf(data[..|data| - 1])[data[|data| - 1].id := EntryFor(data[|data| - 1])]
  }

  /** Every event has a record and nothing else has one. */
  lemma {:induction false} StatesOfKeys(data: seq<PageEvent>, k: string)
    ensures k in StatesOf(data) <==> exists i :: 0 <= i < |data| && data[i].id == k
  {
    if data != [] {
      var init := data[..|data| - 1];
      StatesOfKeys(init, k);
      if k in StatesOf(init) {
        var i :| 0 <= i < |init| && init[i].id == k;
        assert data[i].id == k;
      }
      if exists i :: 0 <= i < |data| && data[i].id == k {
        var i :| 0 <= i < |data| && data[i].id == k;
        if i < |init| {
          assert init[i].id == k;
        }
      }
    }
  }

  /** Each record is that of the last event carrying its id. */
  lemma {:induction false} StatesOfLast(data: seq<PageEvent>, i: nat)
    requires i < |data|
    requires forall j :: i < j < |data| ==> data[j].id != data[i].id
    ensures data[i].id in StatesOf(data) && StatesOf(data)[data[i].id] == EntryFor(data[i])
  {
    var init := data[..|data| - 1];
    if i < |init| {
      assert init[i] == data[i];
      assert forall j :: i < j < |init| ==> init[j] == data[j];
      StatesOfLast(init, i);
    }
  }

  /** The reduce as the loop it is: one record written per event, in order. */
  method InitialEventStates(data: seq<PageEvent>) returns (acc: map<string, EventEntry>)
    ensures acc == StatesOf(data)
  {
    acc := map[];
    var k := 0;
    while k < |data|
      invariant 0 <= k <= |data|
      invariant acc == StatesOf(data[..k])
    {
      assert data[..k + 1][..k] == data[..k];
      acc := acc[data[k].id := EntryFor(data[k])];
      k := k + 1;
    }
    assert data[..k] == data;
  }

  /** The join toggle's state update: the event's record flips `isJoined` and
      moves its count by one; with no record for the id the update throws
      (`None`). */
  function Toggle(states: map<string, EventEntry>, id: string): (r: Option<map<string, EventEntry>>)
    ensures r.None? <==> id !in states
    ensures r.Some? ==> r.value.Keys == states.Keys
    ensures r.Some? ==> forall k :: k in states && k != id ==> r.value[k] == states[k]
    ensures r.Some? ==> r.value[id].isJoined == !states[id].isJoined && r.value[id].id == states[id].id
    ensures r.Some? ==> r.value[id].attendees == states[id].attendees + (if states[id].isJoined then -1 else 1)
  {
    if id !in states then None
    else
      var e := states[id];
      Some(states[id := e.(isJoined := !e.isJoined, attendees := if e.isJoined then e.attendees - 1 else e.attendees + 1)])
  }

  /** Toggling twice restores the original records. */
  lemma ToggleTwice(states: map<string, EventEntry>, id: string)
    requires id in states
    ensures Toggle(states, id).Some? && Toggle(Toggle(states, id).value, id) == Some(states)
  {
    var once := Toggle(states, id).value;
    var twice := Toggle(once, id).value;
    assert twice[id] == states[id];
    assert twice == states;
  }

  class EventsPageState {
    var events: seq<PageEvent>
    var eventStates: map<string, EventEntry>
    var loading: bool
    var error: Option<string>

    /** The page starts loading, with nothing fetched. */
    constructor ()
      ensures events == [] && eventStates == map[] && loading && error == None
    {
      events := [];
      eventStates := map[];
      loading := true;
      error := None;
    }

    /** `loadEvents`, given what the fetch returned (`None` when it failed):
        on success the events and their starting records are stored, on
        failure the error is set and the old events stay; loading ends
        either way. */
    method LoadEvents(response: Option<seq<PageEvent>>)
      modifies this
      ensures !loading
      ensures response.Some? ==> events == response.value && eventStates == StatesOf(response.value) && error == old(error)
      ensures response.None? ==>
        events == old(events) && eventStates == old(eventStates) && error == Some("Failed to load events")
    {
      loading := true;
      if response.Some? {
        events := response.value;
        eventStates := InitialEventStates(response.value);
      } else {
        error := Some("Failed to load events");
      }
      loading := false;
    }

    /** `handleJoinEvent`, given whether the server accepted: only then is the
        record toggled; a failure is logged and changes nothing. `threw` says
        that the toggle found no record for the id. */
    method JoinEvent(id: string, accepted: bool) returns (logged: bool, threw: bool)
      modifies this
      ensures logged <==> !accepted
      ensures threw <==> accepted && id !in old(eventStates)
      ensures accepted && id in old(eventStates) ==> eventStates == Toggle(old(eventStates), id).value
      ensures !(accepted && id in old(eventStates)) ==> eventStates == old(eventStates)
      ensures events == old(events) && loading == old(loading) && error == old(error)
    {
      logged := !accepted;
      threw := false;
      if accepted {
        var next := Toggle(eventStates, id);
        if next.Some? {
          eventStates := next.value;
        } else {
          threw := true;
        }
      }
    }
  }
}

=== FILE: group_slice.dfy ===
/** The client's group cache (the `groups` slice of the store). */
module GroupSlice {
  import opened Common

  /** A group as the server returns it; only the id takes part in the
      reducers' decisions. */
  datatype Group = Group(id: string, name: string, members: seq<string>)

  class GroupState {
    var groups: seq<Group>
    var currentGroup: Option<Group>
    var loading: bool
    var error: Option<string>

    /** The initial state of the slice. */
    constructor ()
      ensures groups == [] && currentGroup == None && !loading && error == None
    {
      groups := [];
      currentGroup := None;
      loading := false;
      error := None;
    }

    /** `fetchGroups.pending`. */
    method FetchGroupsPending()
      modifies this
      ensures loading && error == None
      ensures groups == old(groups) && currentGroup == old(currentGroup)
    {
      loading := true;
      error := None;
    }

    /** `fetchGroups.fulfilled`. */
    method FetchGroupsFulfilled(payload: seq<Group>)
      modifies this
      ensures !loading && groups == payload
      ensures currentGroup == old(currentGroup) && error == old(error)
    {
      loading := false;
      groups := payload;
    }

    /** `fetchGroups.rejected`: the cached list survives the failure. */
    method FetchGroupsRejected(message: Option<string>)
      modifies this
      ensures !loading && error == Some(OrElse(message, "Failed to fetch groups"))
      ensures groups == old(groups) && currentGroup == old(currentGroup)
    {
      loading := false;
      error := Some(OrElse(message, "Failed to fetch groups"));
    }

    /** `fetchGroupById.fulfilled`. */
    method FetchGroupByIdFulfilled(payload: Group)
      modifies this
      ensures currentGroup == Some(payload)
      ensures groups == old(groups) && loading == old(loading) && error == old(error)
    {
      currentGroup := Some(payload);
    }

    /** `createGroup.fulfilled`: the new group goes first. */
    method CreateGroupFulfilled(payload: Group)
      modifies this
      ensures groups == [payload] + old(groups)
      ensures currentGroup == old(currentGroup) && loading == old(loading) && error == old(error)
    {
      groups := [payload] + groups;
    }

    /** `joinGroup.fulfilled`: every cached copy of the group becomes the
        server's updated group; everything else stays. */
    method JoinGroupFulfilled(payload: Group)
      modifies this
      ensures |groups| == |old(groups)|
      ensures forall i :: 0 <= i < |groups| ==>
        groups[i] == if old(groups)[i].id == payload.id then payload else old(groups)[i]
      ensures currentGroup ==
        if old(currentGroup).Some? && old(currentGroup).value.id == payload.id then Some(payload) else old(currentGroup)
      ensures loading == old(loading) && error == old(error)
    {
      groups := ReplaceWhere(groups, (g: Group) => g.id == payload.id, payload);
      if currentGroup.Some? && currentGroup.value.id == payload.id {
        currentGroup := Some(payload);
      }
    }
  }
}

=== FILE: message_slice.dfy ===
/** The client's conversation cache (the `messages` slice of the store). */
module MessageSlice {
  import opened Common

  /** A message object. `conversationId` is the value of the object's
      `conversationId` property, `None` when it has none: the server serialises
      the field as `conversation_id`, so the messages it sends carry `None`. */
  datatype Message = Message(id: string, content: string, conversationId: Option<string>)

  /** A conversation object. `id` is `None` for an object without an id; each
      entry of `messages` is whatever was pushed, `None` standing for `undefined`. */
  datatype Conversation = Conversation(id: Option<string>, name: string, messages: seq<Option<Message>>)

  /** What `const { conversationId, message } = action.payload` reads out of an
      `addMessage` payload. */
  datatype AddMessagePayload = AddMessagePayload(conversationId: Option<string>, message: Option<Message>)

  /** `i` is the position `conversations.find(c => c.id === key)` lands on. */
  ghost predicate IsFirstMatch(convs: seq<Conversation>, key: Option<string>, i: int)
  {
    0 <= i < |convs| && convs[i].id == key && forall j :: 0 <= j < i ==> convs[j].id != key
  }

  /** The list after `conversations.find(c => c.id === key)?.messages.push(item)`:
      only the first conversation with that id grows, by `item` at its end. */
  function AppendToFirst(convs: seq<Conversation>, key: Option<string>, item: Option<Message>): (r: seq<Conversation>)
    ensures |r| == |convs|
    ensures forall i :: 0 <= i < |convs| ==>
      r[i].id == convs[i].id && r[i].name == convs[i].name &&
      r[i].messages == convs[i].messages + (if IsFirstMatch(convs, key, i) then [item] else [])
    ensures (forall i :: 0 <= i < |convs| ==> convs[i].id != key) ==> r == convs
  {
    match FindFirst(convs, (c: Conversation) => c.id == key)
    case None => convs
    case Some(k) => convs[k := convs[k].(messages := convs[k].messages + [item])]
  }

  /** The existing messages of every conversation survive an append, in order,
      as a prefix of the new list. */
  lemma AppendKeepsHistory(convs: seq<Conversation>, key: Option<string>, item: Option<Message>, i: nat)
    requires i < |convs|
    ensures var r := AppendToFirst(convs, key, item);
      |convs[i].messages| <= |r[i].messages| && r[i].messages[..|convs[i].messages|] == convs[i].messages
  {
  }

  /** The selected conversation after `if (selectedConversation?.id === key)
      selectedConversation.messages.push(item)` when something is selected. */
  function AppendIfSelected(sel: Option<Conversation>, key: Option<string>, item: Option<Message>): (r: Option<Conversation>)
    ensures r.Some? <==> sel.Some?
    ensures r.Some? ==> r.value.id == sel.value.id && r.value.name == sel.value.name
    ensures r.Some? && sel.value.id == key ==> r.value.messages == sel.value.messages + [item]
    ensures r.Some? && sel.value.id != key ==> r == sel
  {
    if sel.Some? && sel.value.id == key then Some(sel.value.(messages := sel.value.messages + [item])) else sel
  }

  class MessageState {
    var conversations: seq<Conversation>
    var selectedConversation: Option<Conversation>
    var loading: bool
    var error: Option<string>

    /** The initial state of the slice. */
    constructor ()
      ensures conversations == [] && selectedConversation == None && !loading && error == None
    {
      conversations := [];
      selectedConversation := None;
      loading := false;
      error := None;
    }

    /** `selectConversation`. */
    method SelectConversation(c: Option<Conversation>)
      modifies this
      ensures selectedConversation == c
      ensures conversations == old(conversations) && loading == old(loading) && error == old(error)
    {
      selectedConversation := c;
    }

    /** The append both `addMessage` and `sendMessage.fulfilled` perform. When no
        conversation is selected, `selectedConversation?.id` is `undefined`, so a
        missing key "matches" it and the reducer then reads `messages` of null:
        it throws and the store keeps its state. */
    method Append(key: Option<string>, item: Option<Message>) returns (threw: bool)
      modifies this
      ensures threw <==> old(selectedConversation).None? && key.None?
      ensures threw ==> conversations == old(conversations) && selectedConversation == old(selectedConversation)
      ensures !threw ==> conversations == AppendToFirst(old(conversations), key, item)
      ensures !threw ==> selectedConversation == AppendIfSelected(old(selectedConversation), key, item)
      ensures loading == old(loading) && error == old(error)
    {
      if selectedConversation.None? && key.None? {
        return true;
      }
      conversations := AppendToFirst(conversations, key, item);
      selectedConversation := AppendIfSelected(selectedConversation, key, item);
      threw := false;
    }

    /** `addMessage`: appends `payload.message` to the conversation keyed by
        `payload.conversationId`. */
    method AddMessage(payload: AddMessagePayload) returns (threw: bool)
      modifies this
      ensures threw <==> old(selectedConversation).None? && payload.conversationId.None?
      ensures threw ==> conversations == old(conversations) && selectedConversation == old(selectedConversation)
      ensures !threw ==> conversations == AppendToFirst(old(conversations), payload.conversationId, payload.message)
      ensures !threw ==> selectedConversation == AppendIfSelected(old(selectedConversation), payload.conversationId, payload.message)
      ensures loading == old(loading) && error == old(error)
    {
      threw := Append(payload.conversationId, payload.message);
    }

    /** `fetchConversations.pending`: a previous error is not cleared. */
    method FetchConversationsPending()
      modifies this
      ensures loading
      ensures conversations == old(conversations) && selectedConversation == old(selectedConversation)
      ensures error == old(error)
    {
      loading := true;
    }

    /** `fetchConversations.fulfilled`. */
    method FetchConversationsFulfilled(payload: seq<Conversation>)
      modifies this
      ensures !loading && conversations == payload
      ensures selectedConversation == old(selectedConversation) && error == old(error)
    {
      loading := false;
      conversations := payload;
    }

    /** `fetchConversations.rejected`: the cached list survives. */
    method FetchConversationsRejected(message: Option<string>)
      modifies this
      ensures !loading && error == Some(OrElse(message, "Failed to fetch conversations"))
      ensures conversations == old(conversations) && selectedConversation == old(selectedConversation)
    {
      loading := false;
      error := Some(OrElse(message, "Failed to fetch conversations"));
    }

    /** `sendMessage.fulfilled`: the confirmed message is appended to the
        conversation named by its own `conversationId`. */
    method SendMessageFulfilled(payload: Message) returns (threw: bool)
      modifies this
      ensures threw <==> old(selectedConversation).None? && payload.conversationId.None?
      ensures threw ==> conversations == old(conversations) && selectedConversation == old(selectedConversation)
      ensures !threw ==> conversations == AppendToFirst(old(conversations), payload.conversationId, Some(payload))
      ensures !threw ==> selectedConversation == AppendIfSelected(old(selectedConversation), payload.conversationId, Some(payload))
      ensures loading == old(loading) && error == old(error)
    {
      threw := Append(payload.conversationId, Some(payload));
    }

    /** `startConversation.fulfilled`: the new conversation goes first and is selected. */
    method StartConversationFulfilled(c: Conversation)
      modifies this
      ensures conversations == [c] + old(conversations)
      ensures selectedConversation == Some(c)
      ensures loading == old(loading) && error == old(error)
    {
      conversations := [c] + conversations;
      selectedConversation := Some(c);
    }
  }
}

=== FILE: notification_service.dfy ===
/** The server's notification service: each notification is stored, then
    pushed as a `new_notification` event to its recipient's room. The
    database and the socket server are the two logs of an outbox. */
module NotificationService {
  import opened Common
  import opened Decimal

  type UserId = nat

  datatype Note = Note(userId: UserId, kind: string, content: string,
                       referenceId: Option<nat>, referenceType: Option<string>)

  /** One `socketio.emit(event, payload, room=...)`. */
  datatype Push = Push(event: string, payload: Note, room: string)

  datatype Participant = Participant(id: UserId, name: string)

  datatype ChatMessage = ChatMessage(id: nat, senderId: UserId)

  /** The room a user's client joins: `user_<id>`. */
  function Room(u: UserId): (r: string)
    ensures |r| > 5 && r[..5] == "user_"
  {
    "user_" + NatToString(u)
  }

  /** Distinct users have distinct rooms, so a push reaches one user only. */
  lemma RoomInjective(u: UserId, v: UserId)
    requires u != v
    ensures Room(u) != Room(v)
  {
    NatToStringInjective(u, v);
    assert Room(u)[5..] == NatToString(u);
    assert Room(v)[5..] == NatToString(v);
  }

  /** The notifications `notify_new_message` creates, in participant order:
      one per participant other than the sender. */
  function MessageNotes(participants: seq<Participant>, message: ChatMessage, senderName: string): (r: seq<Note>)
    ensures |r| <= |participants|
    ensures forall k :: 0 <= k < |r| ==>
      && r[k].userId != message.senderId
      && r[k].kind == "new_message" && r[k].content == "New message from " + senderName
      && r[k].referenceId == Some(message.id) && r[k].referenceType == Some("message")
  {
    if participants == [] then []
    else
      var rest := MessageNotes(participants[1..], message, senderName);
      if participants[0].id != message.senderId then
        [Note(participants[0].id, "new_message", "New message from " + senderName, Some(message.id), Some("message"))] + rest
      else rest
  }

  /** One step of the participant loop. */
  lemma MessageNotesStep(participants: seq<Participant>, i: nat, message: ChatMessage, senderName: string)
    requires i < |participants|
    ensures MessageNotes(participants[i..], message, senderName)
            == (if participants[i].id != message.senderId
                then [Note(participants[i].id, "new_message", "New message from " + senderName, Some(message.id), Some("message"))]
                else [])
               + MessageNotes(participants[i + 1..], message, senderName)
  {
    assert participants[i..][1..] == participants[i + 1..];
  }

  /** Every participant other than the sender is notified, once per time
      they appear in the list; the sender never is. */
  lemma {:induction false} EveryOtherParticipantNotified(participants: seq<Participant>, message: ChatMessage, senderName: string, u: UserId)
    ensures var notified := |Filter(MessageNotes(participants, message, senderName), (n: Note) => n.userId == u)|;
      && (u == message.senderId ==> notified == 0)
      && (u != message.senderId ==> notified == |Filter(participants, (p: Participant) => p.id == u)|)
  {
    if participants != [] {
      EveryOtherParticipantNotified(participants[1..], message, senderName, u);
    }
  }

  class Outbox {
    /** Notifications committed to the database, oldest first. */
    var stored: seq<Note>
    /** Events emitted by the socket server, oldest first. */
    var pushed: seq<Push>

    /** Every stored notification was pushed right after it was stored. */
    ghost predicate Valid()
      reads this
    {
      |pushed| == |stored|
      && forall k :: 0 <= k < |stored| ==> pushed[k] == Push("new_notification", stored[k], Room(stored[k].userId))
    }

    constructor ()
      ensures Valid() && stored == [] && pushed == []
    {
      stored := [];
      pushed := [];
    }

    /** `create_notification`: store it, then push it to the recipient's
        room. */
    method CreateNotification(userId: UserId, kind: string, content: string,
                              referenceId: Option<nat>, referenceType: Option<string>) returns (n: Note)
      requires Valid()
      modifies this
      ensures Valid()
      ensures n == Note(userId, kind, content, referenceId, referenceType)
      ensures stored == old(stored) + [n]
      ensures pushed == old(pushed) + [Push("new_notification", n, Room(userId))]
    {
      n := Note(userId, kind, content, referenceId, referenceType);
      stored := stored + [n];
      pushed := pushed + [Push("new_notification", n, Room(userId))];
    }

    /** `notify_new_message`: the loop over the conversation's participants
        skips the sender and creates one notification for everyone else. */
    method NotifyNewMessage(participants: seq<Participant>, message: ChatMessage, senderName: string)
      requires Valid()
      modifies this
      ensures Valid()
      ensures stored == old(stored) + MessageNotes(participants, message, senderName)
    {
      for i := 0 to |participants|
        invariant Valid()
        invariant stored + MessageNotes(participants[i..], message, senderName)
                  == old(stored) + MessageNotes(participants, message, senderName)
      {
        MessageNotesStep(participants, i, message, senderName);
        var p := participants[i];
        var rest := MessageNotes(participants[i + 1..], message, senderName);
        if p.id != message.senderId {
          var before := stored;
          var n := CreateNotification(p.id, "new_message", "New message from " + senderName,
                                      Some(message.id), Some("message"));
          assert stored + rest == before + ([n] + rest);
        }
      }
    }

    /** `notify_event_invitation`: one invitation for the invitee, pointing
        at the event. */
    method NotifyEventInvitation(eventId: nat, eventTitle: string, invitee: UserId)
      requires Valid()
      modifies this
      ensures Valid()
      ensures stored == old(stored) + [Note(invitee, "event_invitation", "You have been invited to " + eventTitle,
                                            Some(eventId), Some("event"))]
      ensures pushed[|pushed| - 1].room == Room(invitee)
    {
      var _ := CreateNotification(invitee, "event_invitation", "You have been invited to " + eventTitle,
                                  Some(eventId), Some("event"));
    }
  }
}

=== FILE: notification_slice.dfy ===
/** The client's notification cache (the `notifications` slice of the store):
    a list newest-first, an unread counter, and list-level loading/error flags. */
module NotificationSlice {
  import opened Common

  datatype Notification = Notification(id: string, kind: string, content: string, read: bool)

  /** What the `fetchUnreadCount` thunk resolves to: how many of the fetched
      notifications are unread. */
  function UnreadCount(fetched: seq<Notification>): (r: nat)
    ensures r <= |fetched|
    ensures r == 0 <==> forall i :: 0 <= i < |fetched| ==> fetched[i].read
    ensures r == |fetched| <==> forall i :: 0 <= i < |fetched| ==> !fetched[i].read
  {
    var unread := Filter(fetched, (n: Notification) => !n.read);
    FilterLengthBounds(fetched);
    |unread|
  }

  lemma {:induction false} FilterLengthBounds(xs: seq<Notification>)
    ensures var r := Filter(xs, (n: Notification) => !n.read);
      && (|r| == 0 <==> forall i :: 0 <= i < |xs| ==> xs[i].read)
      && (|r| == |xs| <==> forall i :: 0 <= i < |xs| ==> !xs[i].read)
  {
    if xs != [] {
      FilterLengthBounds(xs[1..]);
      assert forall i :: 1 <= i < |xs| ==> xs[i] == xs[1..][i - 1];
    }
  }

  class NotificationState {
    var notifications: seq<Notification>
    var unreadCount: int
    var loading: bool
    var error: Option<string>

    /** The counter never goes negative. */
    ghost predicate Valid()
      reads this
    {
      unreadCount >= 0
    }

    /** The initial state of the slice. */
    constructor ()
      ensures Valid()
      ensures notifications == [] && unreadCount == 0 && !loading && error == None
    {
      notifications := [];
      unreadCount := 0;
      loading := false;
      error := None;
    }

    /** `addNotification`: a pushed notification goes first and counts as unread. */
    method AddNotification(n: Notification)
      requires Valid()
      modifies this
      ensures Valid()
      ensures notifications == [n] + old(notifications)
      ensures unreadCount == old(unreadCount) + 1
      ensures loading == old(loading) && error == old(error)
    {
      notifications := [n] + notifications;
      unreadCount := unreadCount + 1;
    }

    /** `fetchNotifications.pending`. */
    method FetchNotificationsPending()
      requires Valid()
      modifies this
      ensures Valid()
      ensures loading && error == None
      ensures notifications == old(notifications) && unreadCount == old(unreadCount)
    {
      loading := true;
      error := None;
    }

    /** `fetchNotifications.fulfilled`: the list is replaced, the counter is not touched. */
    method FetchNotificationsFulfilled(payload: seq<Notification>)
      requires Valid()
      modifies this
      ensures Valid()
      ensures !loading && notifications == payload
      ensures unreadCount == old(unreadCount) && error == old(error)
    {
      loading := false;
      notifications := payload;
    }

    /** `fetchNotifications.rejected`: the cached list survives the failure. */
    method FetchNotificationsRejected(message: Option<string>)
      requires Valid()
      modifies this
      ensures Valid()
      ensures !loading && error == Some(OrElse(message, "Failed to fetch notifications"))
      ensures notifications == old(notifications) && unreadCount == old(unreadCount)
    {
      loading := false;
      error := Some(OrElse(message, "Failed to fetch notifications"));
    }

    /** `fetchUnreadCount.fulfilled`, given the notifications the thunk fetched. */
    method FetchUnreadCountFulfilled(fetched: seq<Notification>)
      requires Valid()
      modifies this
      ensures Valid()
      ensures unreadCount == UnreadCount(fetched)
      ensures notifications == old(notifications) && loading == old(loading) && error == old(error)
    {
      unreadCount := UnreadCount(fetched);
    }

    /** `markAsRead.fulfilled`: every entry with the payload's id is replaced by
        the payload, and the counter drops by one (not below zero) whether or
        not anything was unread. */
    method MarkAsReadFulfilled(payload: Notification)
      requires Valid()
      modifies this
      ensures Valid()
      ensures |notifications| == |old(notifications)|
      ensures forall i :: 0 <= i < |notifications| ==>
        notifications[i] == if old(notifications)[i].id == payload.id then payload else old(notifications)[i]
      ensures unreadCount == if old(unreadCount) >= 1 then old(unreadCount) - 1 else 0
      ensures loading == old(loading) && error == old(error)
    {
      notifications := seq(|notifications|, i requires 0 <= i < |notifications| reads this =>
        if notifications[i].id == payload.id then payload else notifications[i]);
      unreadCount := if unreadCount - 1 > 0 then unreadCount - 1 else 0;
    }

    /** `markAllAsRead.fulfilled`: every entry becomes read, nothing else about it changes. */
    method MarkAllAsReadFulfilled()
      requires Valid()
      modifies this
      ensures Valid()
      ensures |notifications| == |old(notifications)|
      ensures forall i :: 0 <= i < |notifications| ==>
        notifications[i] == old(notifications)[i].(read := true)
      ensures unreadCount == 0
      ensures loading == old(loading) && error == old(error)
    {
      notifications := seq(|notifications|, i requires 0 <= i < |notifications| reads this =>
        notifications[i].(read := true));
      unreadCount := 0;
    }
  }
}

=== FILE: post_slice.dfy ===
/** The client's feed cache (the `posts` slice of the store). */
module PostSlice {
  import opened Common

  /** A post as the server returns it; only the id takes part in the
      reducers' decisions. */
  datatype Post = Post(id: string, content: string, likes: nat)

  class PostState {
    var posts: seq<Post>
    /** Declared by the slice but written by none of its reducers. */
    var currentPost: Option<Post>
    var loading: bool
    var error: Option<string>

    /** The initial state of the slice. */
    constructor ()
      ensures posts == [] && currentPost == None && !loading && error == None
    {
      posts := [];
      currentPost := None;
      loading := false;
      error := None;
    }

    /** `fetchPosts.pending`. */
    method FetchPostsPending()
      modifies this
      ensures loading && error == None
      ensures posts == old(posts) && currentPost == old(currentPost)
    {
      loading := true;
      error := None;
    }

    /** `fetchPosts.fulfilled`. */
    method FetchPostsFulfilled(payload: seq<Post>)
      modifies this
      ensures !loading && posts == payload
      ensures currentPost == old(currentPost) && error == old(error)
    {
      loading := false;
      posts := payload;
    }

    /** `fetchPosts.rejected`: the cached list survives the failure. */
    method FetchPostsRejected(message: Option<string>)
      modifies this
      ensures !loading && error == Some(OrElse(message, "Failed to fetch posts"))
      ensures posts == old(posts) && currentPost == old(currentPost)
    {
      loading := false;
      error := Some(OrElse(message, "Failed to fetch posts"));
    }

    /** `createPost.fulfilled`: the new post goes first. */
    method CreatePostFulfilled(payload: Post)
      modifies this
      ensures posts == [payload] + old(posts)
      ensures currentPost == old(currentPost) && loading == old(loading) && error == old(error)
    {
      posts := [payload] + posts;
    }

    /** `likePost.fulfilled`: every cached copy of the post becomes the server's
        updated post; nothing else changes. */
    method LikePostFulfilled(payload: Post)
      modifies this
      ensures |posts| == |old(posts)|
      ensures forall i :: 0 <= i < |posts| ==>
        posts[i] == if old(posts)[i].id == payload.id then payload else old(posts)[i]
      ensures currentPost == old(currentPost) && loading == old(loading) && error == old(error)
    {
      posts := ReplaceWhere(posts, (p: Post) => p.id == payload.id, payload);
    }
  }
}

=== FILE: profile_slice.dfy ===
/** The client's profile page cache (the `profile` slice of the store): one
    profile record, the user's events and groups, and one `loading`/`error`
    pair shared by all of its fetches. */
module ProfileSlice {
  import opened Common

  /** The value of one profile field. */
  datatype FieldValue =
    | Text(text: string)
    | Texts(items: seq<string>)
    | Stats(posts: int, events: int, groups: int, connections: int)

  /** A profile record: field name to value. */
  type Profile = map<string, FieldValue>

  datatype UserEvent = UserEvent(id: string, title: string)
  datatype UserGroup = UserGroup(id: string, name: string)

  /** `{ ...profile, ...payload }`: the payload's fields win, every other field
      of the profile is kept, and no field appears from nowhere. */
  function Overlay(profile: Profile, payload: Profile): (r: Profile)
    ensures r.Keys == profile.Keys + payload.Keys
    ensures forall k :: k in payload ==> r[k] == payload[k]
    ensures forall k :: k in profile && k !in payload ==> r[k] == profile[k]
  {
    profile + payload
  }

  /** Overlaying the same payload again changes nothing, and two overlays in a
      row are one overlay of the second payload spread over the first. */
  lemma OverlayComposes(profile: Profile, a: Profile, b: Profile)
    ensures Overlay(Overlay(profile, a), a) == Overlay(profile, a)
    ensures Overlay(Overlay(profile, a), b) == Overlay(profile, Overlay(a, b))
  {
  }

  /** What the `fetchProfile` thunk rejects with: the server's message, or its
      own fallback. */
  function FetchProfileRejection(serverMessage: Option<string>): (r: string)
    ensures r != ""
  {
    OrElse(serverMessage, "Failed to fetch profile")
  }

  /** Since the thunk always rejects with a non-empty message, the reducer's own
      fallback `'An error occurred'` never replaces it. */
  lemma RejectionMessageReachesState(serverMessage: Option<string>)
    ensures OrElse(Some(FetchProfileRejection(serverMessage)), "An error occurred")
         == OrElse(serverMessage, "Failed to fetch profile")
  {
  }

  class ProfileState {
    var profile: Option<Profile>
    /** Declared by the slice but written by none of its reducers. */
    var posts: seq<string>
    var events: seq<UserEvent>
    var groups: seq<UserGroup>
    var loading: bool
    var error: Option<string>

    /** The initial state of the slice. */
    constructor ()
      ensures profile == None && posts == [] && events == [] && groups == []
      ensures !loading && error == None
    {
      profile := None;
      posts := [];
      events := [];
      groups := [];
      loading := false;
      error := None;
    }

    /** The `pending` case shared by `fetchProfile`, `fetchUserEvents` and
        `fetchUserGroups`. */
    method FetchPending()
      modifies this
      ensures loading && error == None
      ensures profile == old(profile) && posts == old(posts) && events == old(events) && groups == old(groups)
    {
      loading := true;
      error := None;
    }

    /** The `rejected` case shared by the three fetches: the payload, or
        `'An error occurred'` when it is absent or empty. */
    method FetchRejected(payload: Option<string>)
      modifies this
      ensures !loading && error == Some(OrElse(payload, "An error occurred"))
      ensures profile == old(profile) && posts == old(posts) && events == old(events) && groups == old(groups)
    {
      loading := false;
      error := Some(OrElse(payload, "An error occurred"));
    }

    /** `fetchProfile.fulfilled`. */
    method FetchProfileFulfilled(payload: Profile)
      modifies this
      ensures !loading && profile == Some(payload)
      ensures error == old(error) && posts == old(posts) && events == old(events) && groups == old(groups)
    {
      loading := false;
      profile := Some(payload);
    }

    /** `updateProfile.fulfilled`: the returned fields are spread over a loaded
        profile; with no profile loaded nothing happens. `updateProfile` has no
        pending or rejected case, so `loading` and `error` never move. */
    method UpdateProfileFulfilled(payload: Profile)
      modifies this
      ensures profile == if old(profile).Some? then Some(Overlay(old(profile).value, payload)) else None
      ensures loading == old(loading) && error == old(error)
      ensures posts == old(posts) && events == old(events) && groups == old(groups)
    {
      if profile.Some? {
        profile := Some(Overlay(profile.value, payload));
      }
    }

    /** `fetchUserEvents.fulfilled`: only the events list is replaced. */
    method FetchUserEventsFulfilled(payload: seq<UserEvent>)
      modifies this
      ensures !loading && events == payload
      ensures error == old(error) && profile == old(profile) && posts == old(posts) && groups == old(groups)
    {
      loading := false;
      events := payload;
    }

    /** `fetchUserGroups.fulfilled`: only the groups list is replaced. */
    method FetchUserGroupsFulfilled(payload: seq<UserGroup>)
      modifies this
      ensures !loading && groups == payload
      ensures error == old(error) && profile == old(profile) && posts == old(posts) && events == old(events)
    {
      loading := false;
      groups := payload;
    }
  }
}

=== FILE: routes_auth.dfy ===
/** The `auth` blueprint: the e-mail format check and a registration that
    only tests which keys are present. Its login is the same as the `api`
    blueprint's, `ApiAuth.UserTable.Login`. */
module RoutesAuth {
  import opened Common
  import opened ApiAuth

  /** `\w` (ASCII letters, digits and underscore). */
  predicate WordChar(c: char)
  {
    'a' <= c <= 'z' || 'A' <= c <= 'Z' || '0' <= c <= '9' || c == '_'
  }

  /** `[\w\.-]`. */
  predicate PartChar(c: char)
  {
    WordChar(c) || c == '.' || c == '-'
  }

  predicate AllPart(s: string)
  {
    forall k :: 0 <= k < |s| ==> PartChar(s[k])
  }

  predicate AllWord(s: string)
  {
    forall k :: 0 <= k < |s| ==> WordChar(s[k])
  }

  /** The `@` at `i` and the dot at `j` split `t` into a non-empty local
      part, a non-empty domain and a non-empty run of word characters. */
  predicate ShapeAt(t: string, i: int, j: int)
  {
    0 < i && i + 1 < j < |t| - 1 && t[i] == '@' && t[j] == '.'
    && AllPart(t[..i]) && AllPart(t[i + 1..j]) && AllWord(t[j + 1..])
  }

  /** `t` is `[\w\.-]+@[\w\.-]+\.\w+` as a whole. */
  ghost predicate EmailShape(t: string)
  {
    exists i, j :: ShapeAt(t, i, j)
  }

  /** The position of the first `ch` in `t`. */
  function IndexOf(t: string, ch: char): (r: Option<nat>)
    ensures r.None? <==> ch !in t
    ensures r.Some? ==> r.value < |t| && t[r.value] == ch && ch !in t[..r.value]
  {
    if t == [] then None
    else if t[0] == ch then Some(0)
    else match IndexOf(t[1..], ch)
      case None => None
      case Some(k) =>
        assert t[..k + 1] == [t[0]] + t[1..][..k];
        Some(k + 1)
  }

  /** The position of the last `ch` in `t`. */
  function LastIndexOf(t: string, ch: char): (r: Option<nat>)
    ensures r.None? <==> ch !in t
    ensures r.Some? ==> r.value < |t| && t[r.value] == ch && ch !in t[r.value + 1..]
  {
    if t == [] then None
    else if t[|t| - 1] == ch then Some(|t| - 1)
    else
      assert t == t[..|t| - 1] + [t[|t| - 1]];
      match LastIndexOf(t[..|t| - 1], ch)
      case None => None
      case Some(k) =>
        assert t[k + 1..] == t[..|t| - 1][k + 1..] + [t[|t| - 1]];
        Some(k)
  }

  /** The shape test, deciding by the first `@` and the last dot. */
  function Shaped(t: string): bool
  {
    match IndexOf(t, '@')
    case None => false
    case Some(i) =>
      match LastIndexOf(t, '.')
      case None => false
      case Some(j) => ShapeAt(t, i, j)
  }

  /** A character at `i` that does not occur before `i` is the first one. */
  lemma FirstAt(t: string, ch: char, i: nat)
    requires i < |t| && t[i] == ch && ch !in t[..i]
    ensures IndexOf(t, ch) == Some(i)
  {
  }

  /** A character at `j` that does not occur after `j` is the last one. */
  lemma LastAt(t: string, ch: char, j: nat)
    requires j < |t| && t[j] == ch && ch !in t[j + 1..]
    ensures LastIndexOf(t, ch) == Some(j)
  {
  }

  /** Any split that fits the pattern uses the first `@`, since the local
      part holds none, and the last dot, since the final run holds none. */
  lemma SplitIsFirstAndLast(t: string, i: int, j: int)
    requires ShapeAt(t, i, j)
    ensures IndexOf(t, '@') == Some(i) && LastIndexOf(t, '.') == Some(j)
  {
    forall k | 0 <= k < i ensures t[..i][k] != '@' {
      assert PartChar(t[..i][k]);
    }
    FirstAt(t, '@', i);
    forall k | j + 1 <= k < |t| ensures t[k] != '.' {
      assert WordChar(t[j + 1..][k - j - 1]);
    }
    LastAt(t, '.', j);
  }

  /** Deciding by the first `@` and the last dot loses no match. */
  lemma ShapedIsEmailShape(t: string)
    ensures Shaped(t) <==> EmailShape(t)
  {
    if EmailShape(t) {
      var i, j :| ShapeAt(t, i, j);
      SplitIsFirstAndLast(t, i, j);
    }
    if Shaped(t) {
      assert ShapeAt(t, IndexOf(t, '@').value, LastIndexOf(t, '.').value);
    }
  }

  /** `validate_email`: `re.match` anchors at the start, and `$` matches at
      the end or just before a final newline. */
  function ValidateEmail(email: string): (r: bool)
    ensures r <==> EmailShape(email) || (|email| > 0 && email[|email| - 1] == '\n' && EmailShape(email[..|email| - 1]))
  {
    ShapedIsEmailShape(email);
    ShapedIsEmailShape(if |email| > 0 then email[..|email| - 1] else email);
    Shaped(email) || (|email| > 0 && email[|email| - 1] == '\n' && Shaped(email[..|email| - 1]))
  }

  /** `$` lets one trailing newline through, and an address without a dot
      after the `@` is refused. */
  lemma EmailExamples()
    ensures ValidateEmail("a@b.co") && ValidateEmail("a@b.co\n")
    ensures !ValidateEmail("a@b")
  {
    var t := "a@b.co";
    assert t[..1] == "a" && t[2..3] == "b" && t[4..] == "co";
    assert ShapeAt(t, 1, 3);
    assert "a@b.co\n"[..6] == t;
    ShapedIsEmailShape("a@b");
    assert '.' !in "a@b";
  }

  /** Field `i` is the first required key the body lacks. */
  ghost predicate FirstAbsent(data: Json, i: nat)
  {
    i < |RequiredFields| && RequiredFields[i] !in data
    && forall j :: 0 <= j < i ==> RequiredFields[j] in data
  }

  predicate AllPresent(data: Json)
  {
    "email" in data && "username" in data && "password" in data && "firstName" in data && "lastName" in data
  }

  /** The validation loop of this `register`: a key only has to be present;
      an empty value passes. */
  method AbsentField(data: Json) returns (missing: Option<nat>)
    ensures missing.None? <==> AllPresent(data)
    ensures missing.Some? ==> FirstAbsent(data, missing.value)
  {
    for i := 0 to |RequiredFields|
      invariant forall j :: 0 <= j < i ==> RequiredFields[j] in data
    {
      if RequiredFields[i] !in data {
        return Some(i);
      }
    }
    assert forall j :: 0 <= j < 5 ==> RequiredFields[j] in data;
    assert RequiredFields[0] == "email" && RequiredFields[1] == "username" && RequiredFields[2] == "password";
    assert RequiredFields[3] == "firstName" && RequiredFields[4] == "lastName";
    return None;
  }

  /** `register` of the `auth` blueprint: a missing key is named; a taken
      email or username gives one shared message; the e-mail format is never
      checked. Nothing here catches exceptions: no body, or a failing commit,
      is answered by the framework with 500. */
  method Register(table: UserTable, data: Option<Json>, commitError: Option<string>) returns (reply: AuthReply)
    requires table.Valid()
    modifies table
    ensures table.Valid()
    ensures data.None? ==> reply == Failed(500, "Internal Server Error")
    ensures data.Some? ==>
      forall i: nat :: FirstAbsent(data.value, i) ==> reply == Failed(400, RequiredFields[i] + " is required")
    ensures data.Some? && AllPresent(data.value)
            && (old(table.EmailTaken(data.value["email"])) || old(table.UsernameTaken(data.value["username"]))) ==>
      reply == Failed(400, "User already exists")
    ensures reply.Session? <==>
      data.Some? && AllPresent(data.value) && !old(table.EmailTaken(data.value["email"]))
      && !old(table.UsernameTaken(data.value["username"])) && commitError.None?
    ensures reply.Session? ==>
      var d := data.value;
      && reply.status == 201
      && reply.user == UserRow(old(table.nextId), d["email"], d["username"], d["password"], d["firstName"], d["lastName"])
      && table.users == old(table.users) + [reply.user] && table.nextId == old(table.nextId) + 1
    ensures !reply.Session? ==> table.users == old(table.users) && table.nextId == old(table.nextId)
  {
    if data.None? {
      return Failed(500, "Internal Server Error");
    }
    var d := data.value;
    var missing := AbsentField(d);
    if missing.Some? {
      forall i: nat | FirstAbsent(d, i) ensures i == missing.value {
      }
      return Failed(400, RequiredFields[missing.value] + " is required");
    }
    assert forall i: nat :: !FirstAbsent(d, i);
    if table.EmailTaken(d["email"]) || table.UsernameTaken(d["username"]) {
      return Failed(400, "User already exists");
    }
    if commitError.Some? {
      return Failed(500, "Internal Server Error");
    }
    var row := UserRow(table.nextId, d["email"], d["username"], d["password"], d["firstName"], d["lastName"]);
    table.users := table.users + [row];
    table.nextId := table.nextId + 1;
    reply := Session(201, row);
  }

  /** Registration accepts an address `validate_email` rejects, and a blank
      one too. */
  method FormatNeverChecked() returns (reply: AuthReply, wellFormed: bool)
    ensures reply.Session? && reply.user.email == "not-an-email"
    ensures !wellFormed
  {
    var table := new UserTable();
    var body := map["email" := "not-an-email", "username" := "u", "password" := "p",
                     "firstName" := "", "lastName" := ""];
    reply := Register(table, Some(body), None);
    assert '@' !in "not-an-email";
    assert '@' !in "not-an-email"[..|"not-an-email"| - 1];
    wellFormed := ValidateEmail("not-an-email");
  }
}

=== FILE: routes_events.dfy ===
/** The toggle-style join endpoint of the `events` blueprint. Each event's
    attendees are a set of user ids: the association table's key is the pair
    of user and event. */
module RoutesEvents {
  import opened Common

  type UserId = nat

  datatype JoinReply =
    | Joined(isJoined: bool, attendeeCount: nat)
    | Failed(status: nat, error: string)

  /** One join request's effect on an attendee set: the user is removed
      when present and added when absent; nobody else is touched. */
  function Toggle(attendees: set<UserId>, u: UserId): (r: set<UserId>)
    ensures u in r <==> u !in attendees
    ensures forall v :: v != u ==> (v in r <==> v in attendees)
    ensures |r| == if u in attendees then |attendees| - 1 else |attendees| + 1
  {
    if u in attendees then attendees - {u} else attendees + {u}
  }

  /** Two joins by the same user restore the original attendees. */
  lemma ToggleTwice(attendees: set<UserId>, u: UserId)
    ensures Toggle(Toggle(attendees, u), u) == attendees
  {
  }

  class EventAttendance {
    /** The attendees of every stored event, by event id. */
    var attendees: map<string, set<UserId>>

    constructor (initial: map<string, set<UserId>>)
      ensures attendees == initial
    {
      attendees := initial;
    }

    /** `join_event`: 404 for an unknown event; otherwise the caller's
        attendance flips, and the reply reports the new state and the new
        count. A failing commit is rolled back and answered with 500. */
    method JoinEvent(eventId: string, user: UserId, commitError: Option<string>) returns (reply: JoinReply)
      modifies this
      ensures eventId !in old(attendees) ==> reply == Failed(404, "Event not found") && attendees == old(attendees)
      ensures eventId in old(attendees) && commitError.Some? ==>
        reply == Failed(500, commitError.value) && attendees == old(attendees)
      ensures eventId in old(attendees) && commitError.None? ==>
        && attendees == old(attendees)[eventId := Toggle(old(attendees)[eventId], user)]
        && reply.Joined?
        && reply.isJoined == (user !in old(attendees)[eventId])
        && reply.attendeeCount == |attendees[eventId]|
        && (reply.attendeeCount == |old(attendees)[eventId]| + 1 || reply.attendeeCount + 1 == |old(attendees)[eventId]|)
    {
      if eventId !in attendees {
        return Failed(404, "Event not found");
      }
      var wasJoined := user in attendees[eventId];
      var updated := Toggle(attendees[eventId], user);
      if commitError.Some? {
        return Failed(500, commitError.value);
      }
      attendees := attendees[eventId := updated];
      reply := Joined(!wasJoined, |updated|);
    }
  }

  /** Joining twice in a row: the second reply undoes the first, and the
      attendees end where they started. */
  method JoinTwice(initial: set<UserId>, user: UserId) returns (first: JoinReply, second: JoinReply, restored: bool)
    ensures first.Joined? && second.Joined?
    ensures second.isJoined == !first.isJoined
    ensures restored
  {
    var table := new EventAttendance(map["e" := initial]);
    first := table.JoinEvent("e", user, None);
    second := table.JoinEvent("e", user, None);
    ToggleTwice(initial, user);
    restored := table.attendees["e"] == initial;
  }
}

=== FILE: routes_groups.dfy ===
/** The group endpoints of the `groups` blueprint. Each group keeps its
    members as a list of user ids; join and leave test membership first, so
    the list never holds a user twice and a repeated request changes
    nothing. */
module RoutesGroups {
  import opened Common

  type UserId = nat
  type GroupId = nat

  datatype Group = Group(name: string, description: string, image: Option<string>, isPrivate: bool,
                         creatorId: UserId, members: seq<UserId>)

  /** A create request body; every key may be absent. */
  datatype GroupBody = GroupBody(name: Option<string>, description: Option<string>, image: Option<string>,
                                 isPrivate: Option<bool>)

  datatype Reply =
    | Sent(status: nat, group: Group)
    | Failed(status: nat, error: string)

  /** The group `create_group` builds: `name` is required, `description`
      defaults to "", `isPrivate` to false, and the creator is its only
      member. */
  function NewGroup(creator: UserId, data: GroupBody): (r: Option<Group>)
    ensures r.Some? <==> data.name.Some?
    ensures r.Some? ==>
      && r.value.name == data.name.value && r.value.image == data.image
      && (data.description.None? ==> r.value.description == "")
      && (data.description.Some? ==> r.value.description == data.description.value)
      && r.value.isPrivate == (data.isPrivate.Some? && data.isPrivate.value)
      && r.value.creatorId == creator && r.value.members == [creator]
  {
    if data.name.None? then None
    else Some(Group(data.name.value, if data.description.Some? then data.description.value else "", data.image,
                    if data.isPrivate.Some? then data.isPrivate.value else false, creator, [creator]))
  }

  /** The members after a join: the user is appended only when absent. */
  function WithMember(members: seq<UserId>, u: UserId): (r: seq<UserId>)
    ensures u in r
    ensures forall v :: v in r <==> v in members || v == u
    ensures NoDuplicates(members) ==> NoDuplicates(r)
    ensures u in members ==> r == members
  {
    if u in members then members else members + [u]
  }

  /** The members after a leave: the user is removed only when present. */
  function WithoutMember(members: seq<UserId>, u: UserId): (r: seq<UserId>)
    requires NoDuplicates(members)
    ensures u !in r
    ensures forall v :: v in r <==> v in members && v != u
    ensures NoDuplicates(r)
    ensures u !in members ==> r == members
  {
    if u in members then
      RemoveFromDistinct(members, u);
      RemoveFirst(members, u)
    else members
  }

  /** Join and leave are idempotent, and leaving right after joining as a
      newcomer restores the members. */
  lemma MembershipIdempotent(members: seq<UserId>, u: UserId)
    requires NoDuplicates(members)
    ensures WithMember(WithMember(members, u), u) == WithMember(members, u)
    ensures WithoutMember(WithoutMember(members, u), u) == WithoutMember(members, u)
    ensures u !in members ==> WithoutMember(WithMember(members, u), u) == members
  {
    if u !in members {
      AppendThenRemove(members, u);
    }
  }

  class GroupTable {
    var groups: map<GroupId, Group>
    var nextId: GroupId

    /** Ids are handed out in increasing order and no member list holds a
        user twice. */
    ghost predicate Valid()
      reads this
    {
      (forall id :: id in groups ==> id < nextId)
      && forall id :: id in groups ==> NoDuplicates(groups[id].members)
    }

    constructor ()
      ensures Valid() && groups == map[]
    {
      groups := map[];
      nextId := 1;
    }

    /** `create_group`: 201 with the new group. No body, a body without
        `name`, or a failing commit raises, which the framework answers with
        500; nothing is stored then. */
    method CreateGroup(creator: UserId, data: Option<GroupBody>, commitError: Option<string>) returns (reply: Reply)
      requires Valid()
      modifies this
      ensures Valid()
      ensures data.None? || data.value.name.None? || commitError.Some? ==>
        reply == Failed(500, "Internal Server Error") && groups == old(groups) && nextId == old(nextId)
      ensures data.Some? && data.value.name.Some? && commitError.None? ==>
        && reply == Sent(201, NewGroup(creator, data.value).value)
        && old(nextId) !in old(groups)
        && groups == old(groups)[old(nextId) := reply.group] && nextId == old(nextId) + 1
    {
      if data.None? {
        return Failed(500, "Internal Server Error");
      }
      var g := NewGroup(creator, data.value);
      if g.None? || commitError.Some? {
        return Failed(500, "Internal Server Error");
      }
      groups := groups[nextId := g.value];
      nextId := nextId + 1;
      reply := Sent(201, g.value);
    }

    /** `join_group`: 404 for an unknown group; otherwise the caller is a
        member afterwards, and the current group is sent back even when
        nothing changed. Only an actual change is committed, so only then
        can a failing commit turn the answer into 500. */
    method JoinGroup(id: GroupId, user: UserId, commitError: Option<string>) returns (reply: Reply)
      requires Valid()
      modifies this
      ensures Valid() && nextId == old(nextId)
      ensures id !in old(groups) ==> reply == Failed(404, "Not Found") && groups == old(groups)
      ensures id in old(groups) && user in old(groups)[id].members ==>
        groups == old(groups) && reply == Sent(200, old(groups)[id])
      ensures id in old(groups) && user !in old(groups)[id].members && commitError.Some? ==>
        groups == old(groups) && reply == Failed(500, "Internal Server Error")
      ensures id in old(groups) && commitError.None? ==>
        && groups == old(groups)[id := old(groups)[id].(members := WithMember(old(groups)[id].members, user))]
        && reply == Sent(200, groups[id])
    {
      if id !in groups {
        return Failed(404, "Not Found");
      }
      var g := groups[id];
      if user in g.members {
        return Sent(200, g);
      }
      if commitError.Some? {
        return Failed(500, "Internal Server Error");
      }
      g := g.(members := WithMember(g.members, user));
      groups := groups[id := g];
      reply := Sent(200, g);
    }

    /** `leave_group`: 404 for an unknown group; otherwise the caller is not
        a member afterwards, and the current group is sent back. Only an
        actual change is committed, so only then can a failing commit turn
        the answer into 500. */
    method LeaveGroup(id: GroupId, user: UserId, commitError: Option<string>) returns (reply: Reply)
      requires Valid()
      modifies this
      ensures Valid() && nextId == old(nextId)
      ensures id !in old(groups) ==> reply == Failed(404, "Not Found") && groups == old(groups)
      ensures id in old(groups) && user !in old(groups)[id].members ==>
        groups == old(groups) && reply == Sent(200, old(groups)[id])
      ensures id in old(groups) && user in old(groups)[id].members && commitError.Some? ==>
        groups == old(groups) && reply == Failed(500, "Internal Server Error")
      ensures id in old(groups) && commitError.None? ==>
        && groups == old(groups)[id := old(groups)[id].(members := WithoutMember(old(groups)[id].members, user))]
        && reply == Sent(200, groups[id])
    {
      if id !in groups {
        return Failed(404, "Not Found");
      }
      var g := groups[id];
      if user !in g.members {
        return Sent(200, g);
      }
      if commitError.Some? {
        return Failed(500, "Internal Server Error");
      }
      g := g.(members := WithoutMember(g.members, user));
      groups := groups[id := g];
      reply := Sent(200, g);
    }
  }
}

=== FILE: routes_profiles.dfy ===
/** The profile endpoints of the `profiles` blueprint, over an in-memory
    users table keyed by id. The post, event and group counts of a profile
    come from the database and are taken as given. */
module RoutesProfiles {
  import opened Common
  import opened Decimal

  type UserId = nat

  datatype ProfileUser = ProfileUser(
    id: UserId, username: string, firstName: string, lastName: string,
    bio: Option<string>, location: Option<string>, interests: Option<seq<string>>)

  /** The counts the database reports for a user. */
  datatype Counts = Counts(posts: nat, events: nat, groups: nat)

  /** The profile object both endpoints answer with. */
  datatype ProfileView = ProfileView(
    id: string, firstName: string, lastName: string, username: string,
    bio: string, location: string, interests: seq<string>, stats: Counts, connections: nat)

  /** An update request body; every key may be absent. */
  datatype ProfileBody = ProfileBody(
    firstName: Option<string>, lastName: Option<string>, bio: Option<string>,
    location: Option<string>, interests: Option<seq<string>>)

  datatype ProfileReply =
    | Found(view: ProfileView)
    | Failed(status: nat, error: string)

  /** The response object: the id as text, "" for a missing bio or
      location, [] for missing interests, and no connections ever. */
  function ViewOf(u: ProfileUser, counts: Counts): (r: ProfileView)
    ensures StringToNat(r.id) == u.id
    ensures r.bio == OrElse(u.bio, "") && r.location == OrElse(u.location, "")
    ensures u.interests.None? ==> r.interests == []
    ensures u.interests.Some? ==> r.interests == u.interests.value
    ensures r.connections == 0 && r.stats == counts
    ensures r.username == u.username && r.firstName == u.firstName && r.lastName == u.lastName
  {
    StringToNatInverse(u.id);
    ProfileView(NatToString(u.id), u.firstName, u.lastName, u.username,
                OrElse(u.bio, ""), OrElse(u.location, ""),
                if u.interests.Some? then u.interests.value else [], counts, 0)
  }

  /** The fields `update_profile` assigns: only the keys the body holds. */
  function Apply(u: ProfileUser, data: ProfileBody): (r: ProfileUser)
    ensures r.id == u.id && r.username == u.username
    ensures data.firstName.None? ==> r.firstName == u.firstName
    ensures data.firstName.Some? ==> r.firstName == data.firstName.value
    ensures data.lastName.None? ==> r.lastName == u.lastName
    ensures data.lastName.Some? ==> r.lastName == data.lastName.value
    ensures data.bio.None? ==> r.bio == u.bio
    ensures data.bio.Some? ==> r.bio == data.bio
    ensures data.location.None? ==> r.location == u.location
    ensures data.location.Some? ==> r.location == data.location
    ensures data.interests.None? ==> r.interests == u.interests
    ensures data.interests.Some? ==> r.interests == data.interests
  {
    u.(firstName := if data.firstName.Some? then data.firstName.value else u.firstName,
       lastName := if data.lastName.Some? then data.lastName.value else u.lastName,
       bio := if data.bio.Some? then data.bio else u.bio,
       location := if data.location.Some? then data.location else u.location,
       interests := if data.interests.Some? then data.interests else u.interests)
  }

  /** An empty body changes nothing, and repeating an update is the same as
      doing it once. */
  lemma ApplyIdempotent(u: ProfileUser, data: ProfileBody)
    ensures Apply(Apply(u, data), data) == Apply(u, data)
    ensures data == ProfileBody(None, None, None, None, None) ==> Apply(u, data) == u
  {
  }

  /** The id a path segment names when the database coerces it to an
      integer: a non-empty run of decimal digits. */
  function PathId(segment: string): (r: Option<UserId>)
    ensures r.Some? <==> |segment| > 0 && forall k :: 0 <= k < |segment| ==> '0' <= segment[k] <= '9'
  {
    if |segment| > 0 && forall k :: 0 <= k < |segment| ==> '0' <= segment[k] <= '9'
    then Some(StringToNat(segment)) else None
  }

  /** The rendering of an id names that id again. */
  lemma PathIdOfRendered(n: UserId)
    ensures PathId(NatToString(n)) == Some(n)
  {
    StringToNatInverse(n);
  }

  class ProfileTable {
    var users: map<UserId, ProfileUser>

    /** Each entry is stored under its own id, and usernames are unique. */
    ghost predicate Valid()
      reads this
    {
      (forall id :: id in users ==> users[id].id == id)
      && forall a, b :: a in users && b in users && users[a].username == users[b].username ==> a == b
    }

    constructor (initial: map<UserId, ProfileUser>)
      requires forall id :: id in initial ==> initial[id].id == id
      requires forall a, b :: a in initial && b in initial && initial[a].username == initial[b].username ==> a == b
      ensures Valid() && users == initial
    {
      users := initial;
    }

    /** `get_profile`: 404 'User not found' for an unknown username,
        otherwise that user's profile object. */
    method GetProfile(username: string, counts: Counts) returns (reply: ProfileReply)
      requires Valid()
      ensures reply.Failed? <==> forall id :: id in users ==> users[id].username != username
      ensures reply.Failed? ==> reply == Failed(404, "User not found")
      ensures forall id :: id in users && users[id].username == username ==> reply == Found(ViewOf(users[id], counts))
    {
      if id :| id in users && users[id].username == username {
        reply := Found(ViewOf(users[id], counts));
      } else {
        reply := Failed(404, "User not found");
      }
    }

    /** `update_profile`. The lookup raises for an unknown id inside the
        `try`, so that case is answered 500 rather than 404; a caller whose
        identity, as text, differs from the path segment gets 403; otherwise
        only the keys in the body change. */
    method UpdateProfile(segment: string, current: UserId, data: Option<ProfileBody>, counts: Counts,
                         commitError: Option<string>) returns (reply: ProfileReply)
      requires Valid()
      modifies this
      ensures Valid()
      ensures PathId(segment).None? || PathId(segment).value !in old(users) ==>
        reply == Failed(500, "Failed to update profile")
      ensures PathId(segment).Some? && PathId(segment).value in old(users) && NatToString(current) != segment ==>
        reply == Failed(403, "Unauthorized")
      ensures reply.Found? <==>
        PathId(segment).Some? && PathId(segment).value in old(users) && NatToString(current) == segment
        && data.Some? && commitError.None?
      ensures reply.Found? ==> current in old(users) && segment == NatToString(current)
      ensures reply.Found? && current in old(users) ==>
        && users == old(users)[current := Apply(old(users)[current], data.value)]
        && reply.view == ViewOf(users[current], counts)
      ensures !reply.Found? ==> users == old(users)
    {
      var key := PathId(segment);
      if key.None? || key.value !in users {
        return Failed(500, "Failed to update profile");
      }
      if NatToString(current) != segment {
        return Failed(403, "Unauthorized");
      }
      PathIdOfRendered(current);
      assert key.value == current;
      if data.None? || commitError.Some? {
        return Failed(500, "Failed to update profile");
      }
      var updated := Apply(users[current], data.value);
      users := users[current := updated];
      reply := Found(ViewOf(updated, counts));
    }
  }

  /** A path with a leading zero names a stored user but never matches the
      caller's identity, so even the owner is refused. */
  method LeadingZeroRefused() returns (reply: ProfileReply)
    ensures reply == Failed(403, "Unauthorized")
  {
    var owner := ProfileUser(5, "amina", "Amina", "W", None, None, None);
    var table := new ProfileTable(map[5 := owner]);
    assert StringToNat("05") == 5;
    reply := table.UpdateProfile("05", 5, Some(ProfileBody(None, None, Some("hi"), None, None)), Counts(0, 0, 0), None);
  }
}

=== FILE: routes_search.dfy ===
/** The `search` endpoint: it branches on the `type` query parameter. The
    database queries behind it are represented by the lists they return. */
module RoutesSearch {
  import opened Common

  /** What the search service finds for a query, per kind of entity. */
  datatype Found = Found(events: seq<string>, groups: seq<string>, users: seq<string>)

  /** The JSON reply: an object with some of the three keys, or an error. */
  datatype SearchReply =
    | Lists(events: Option<seq<string>>, groups: Option<seq<string>>, users: Option<seq<string>>)
    | Failed(status: nat, error: string)

  /** `search`: `q` defaults to "" and `type` to "all". An empty query
      answers three empty lists whatever the type; "all" answers all three
      kinds, "events", "groups" and "users" an object with just that key,
      and any other type 400. */
  function Search(q: Option<string>, searchType: Option<string>, found: Found): (r: SearchReply)
    ensures (q.None? || q.value == "") ==> r == Lists(Some([]), Some([]), Some([]))
    ensures r.Failed? <==> Truthy(q) && searchType.Some? && searchType.value !in {"all", "events", "groups", "users"}
    ensures r.Failed? ==> r == Failed(400, "Invalid search type")
    ensures Truthy(q) && (searchType.None? || searchType.value == "all") ==>
      r == Lists(Some(found.events), Some(found.groups), Some(found.users))
    ensures Truthy(q) && searchType == Some("events") ==> r == Lists(Some(found.events), None, None)
    ensures Truthy(q) && searchType == Some("groups") ==> r == Lists(None, Some(found.groups), None)
    ensures Truthy(q) && searchType == Some("users") ==> r == Lists(None, None, Some(found.users))
  {
    var query := if q.Some? then q.value else "";
    var kind := if searchType.Some? then searchType.value else "all";
    if query == "" then Lists(Some([]), Some([]), Some([]))
    else if kind == "all" then Lists(Some(found.events), Some(found.groups), Some(found.users))
    else if kind == "events" then Lists(Some(found.events), None, None)
    else if kind == "groups" then Lists(None, Some(found.groups), None)
    else if kind == "users" then Lists(None, None, Some(found.users))
    else Failed(400, "Invalid search type")
  }

  /** A successful reply never names a kind the type did not ask for: each
      single-kind type answers exactly one key. */
  lemma SingleKindHasOneKey(q: string, t: string, found: Found)
    requires q != "" && t in {"events", "groups", "users"}
    ensures var r := Search(Some(q), Some(t), found);
      && r.Lists?
      && (if r.events.Some? then 1 else 0) + (if r.groups.Some? then 1 else 0) + (if r.users.Some? then 1 else 0) == 1
  {
  }

  /** Leaving out `type` is the same as asking for "all". */
  lemma TypeDefaultsToAll(q: Option<string>, found: Found)
    ensures Search(q, None, found) == Search(q, Some("all"), found)
  {
  }
}

=== FILE: search_slice.dfy ===
/** The client's search results (the `search` slice of the store). */
module SearchSlice {
  import opened Common

  datatype SearchType = All | Users | Events | Groups

  datatype Hit = Hit(id: string, title: string)

  /** The three result lists the server returns. */
  datatype Results = Results(users: seq<Hit>, events: seq<Hit>, groups: seq<Hit>)

  const NoResults := Results([], [], [])

  class SearchState {
    var searchType: SearchType
    var query: string
    var results: Results
    var loading: bool
    var error: Option<string>

    /** No action ever stores a query, so it stays empty. */
    ghost predicate Valid()
      reads this
    {
      query == ""
    }

    /** The initial state of the slice. */
    constructor ()
      ensures Valid()
      ensures searchType == All && results == NoResults && !loading && error == None
    {
      searchType := All;
      query := "";
      results := NoResults;
      loading := false;
      error := None;
    }

    /** `setSearchType`: only the type changes. */
    method SetSearchType(t: SearchType)
      requires Valid()
      modifies this
      ensures Valid()
      ensures searchType == t
      ensures results == old(results) && loading == old(loading) && error == old(error)
    {
      searchType := t;
    }

    /** `clearResults`: the three lists are emptied and the query reset. */
    method ClearResults()
      requires Valid()
      modifies this
      ensures Valid()
      ensures results == NoResults
      ensures searchType == old(searchType) && loading == old(loading) && error == old(error)
    {
      results := NoResults;
      query := "";
    }

    /** `search.pending`. */
    method SearchPending()
      requires Valid()
      modifies this
      ensures Valid()
      ensures loading && error == None
      ensures searchType == old(searchType) && results == old(results)
    {
      loading := true;
      error := None;
    }

    /** `search.fulfilled`: whatever arrives replaces the results, whichever
        request it answers. */
    method SearchFulfilled(payload: Results)
      requires Valid()
      modifies this
      ensures Valid()
      ensures !loading && results == payload
      ensures searchType == old(searchType) && error == old(error)
    {
      loading := false;
      results := payload;
    }

    /** `search.rejected`: the previous results stay. */
    method SearchRejected(message: Option<string>)
      requires Valid()
      modifies this
      ensures Valid()
      ensures !loading && error == Some(OrElse(message, "Search failed"))
      ensures searchType == old(searchType) && results == old(results)
    {
      loading := false;
      error := Some(OrElse(message, "Search failed"));
    }
  }

  /** Two searches are started, one after the other, and the first one's
      response arrives last: the store ends up showing the results of the
      older request, because nothing ties a response to the latest query. */
  method OutOfOrderResponses(older: Results, newer: Results) returns (shown: Results, loading: bool)
    ensures shown == older
    ensures !loading
  {
    var s := new SearchState();
    s.SearchPending();
    s.SearchPending();
    s.SearchFulfilled(newer);
    s.SearchFulfilled(older);
    shown := s.results;
    loading := s.loading;
  }
}

=== FILE: settings_slice.dfy ===
/** The client's copy of the account settings (the `settings` slice of the store). */
module SettingsSlice {
  import opened Common

  datatype SettingValue = Flag(on: bool) | Choice(choice: string)

  /** A settings object: setting name to value. */
  type Settings = map<string, SettingValue>

  class SettingsState {
    var settings: Option<Settings>
    var loading: bool
    var error: Option<string>

    /** The initial state of the slice. */
    constructor ()
      ensures settings == None && !loading && error == None
    {
      settings := None;
      loading := false;
      error := None;
    }

    /** `fetchSettings.pending`. */
    method FetchSettingsPending()
      modifies this
      ensures loading && error == None && settings == old(settings)
    {
      loading := true;
      error := None;
    }

    /** `fetchSettings.fulfilled`. */
    method FetchSettingsFulfilled(payload: Settings)
      modifies this
      ensures !loading && settings == Some(payload) && error == old(error)
    {
      loading := false;
      settings := Some(payload);
    }

    /** `fetchSettings.rejected`: the error is the rejection payload as it is
        (absent when the thunk failed without one); the old settings stay. */
    method FetchSettingsRejected(payload: Option<string>)
      modifies this
      ensures !loading && error == payload && settings == old(settings)
    {
      loading := false;
      error := payload;
    }

    /** `updateSettings.fulfilled`: the server's settings replace the whole
        object, with no merge; `loading` and `error` do not move. */
    method UpdateSettingsFulfilled(payload: Settings)
      modifies this
      ensures settings == Some(payload)
      ensures loading == old(loading) && error == old(error)
    {
      settings := Some(payload);
    }
  }
}

=== FILE: sidebar.dfy ===
/** The user block at the top of the side navigation. */
module Sidebar {
  import opened Common
  import opened Text

  /** The signed-in user as the sidebar reads it; any field may be missing. */
  datatype SidebarUser = SidebarUser(firstName: Option<string>, lastName: Option<string>, username: Option<string>)

  predicate HasFirstName(user: Option<SidebarUser>)
  {
    user.Some? && Truthy(user.value.firstName)
  }

  predicate HasLastName(user: Option<SidebarUser>)
  {
    user.Some? && Truthy(user.value.lastName)
  }

  predicate HasUsername(user: Option<SidebarUser>)
  {
    user.Some? && Truthy(user.value.username)
  }

  /** `getInitial`: the first letter of the first name, upper-cased, or `G`. */
  function GetInitial(user: Option<SidebarUser>): (r: string)
    ensures |r| == 1
    ensures HasFirstName(user) ==> r == [UpperChar(user.value.firstName.value[0])]
    ensures !HasFirstName(user) ==> r == "G"
  {
    if user.Some? && user.value.firstName.Some? && user.value.firstName.value != ""
    then [UpperChar(user.value.firstName.value[0])]
    else "G"
  }

  /** `getFullName`: both names separated by a space when both are present,
      `Guest User` otherwise. */
  function GetFullName(user: Option<SidebarUser>): (r: string)
    ensures HasFirstName(user) && HasLastName(user) ==>
      r == user.value.firstName.value + " " + user.value.lastName.value
    ensures !(HasFirstName(user) && HasLastName(user)) ==> r == "Guest User"
    ensures r != ""
  {
    if user.Some? && user.value.firstName.Some? && user.value.firstName.value != ""
       && user.value.lastName.Some? && user.value.lastName.value != ""
    then user.value.firstName.value + " " + user.value.lastName.value
    else "Guest User"
  }

  /** The displayed username, `guest` when there is none. */
  function DisplayUsername(user: Option<SidebarUser>): (r: string)
    ensures r != ""
    ensures HasUsername(user) ==> r == user.value.username.value
    ensures !HasUsername(user) ==> r == "guest"
  {
    OrElse(if user.Some? then user.value.username else None, "guest")
  }

  /** The avatar letter is the first letter of the displayed name, except for
      a user with a first name but no last name, who is shown as
      `Guest User` under their own initial. */
  lemma InitialMatchesFullName(user: Option<SidebarUser>)
    ensures !(HasFirstName(user) && !HasLastName(user)) ==>
      GetInitial(user) == [UpperChar(GetFullName(user)[0])]
    ensures HasFirstName(user) && !HasLastName(user) && user.value.firstName.value[0] != 'g' && user.value.firstName.value[0] != 'G' ==>
      GetInitial(user) != [UpperChar(GetFullName(user)[0])]
  {
  }
}

=== FILE: text.dfy ===
/** The string operations of JavaScript that the client code relies on:
    case mapping, `includes`, `split`, `join` and `trim`, plus the decimal
    rendering of `String(n)`. */
module Text {

  /** `toLowerCase` on one character (ASCII letters only). */
  function LowerChar(c: char): char
  {
    if 'A' <= c <= 'Z' then (c as int + 32) as char else c
  }

  /** `toUpperCase` on one character (ASCII letters only). */
  function UpperChar(c: char): char
  {
    if 'a' <= c <= 'z' then (c as int - 32) as char else c
  }

  function ToLower(s: string): string
  {
    seq(|s|, i requires 0 <= i < |s| => LowerChar(s[i]))
  }

  function ToUpper(s: string): string
  {
    seq(|s|, i requires 0 <= i < |s| => UpperChar(s[i]))
  }

  predicate StartsWith(s: string, prefix: string)
  {
    |prefix| <= |s| && s[..|prefix|] == prefix
  }

  /** `s.includes(sub)`: `sub` occurs in `s` at some position. */
  predicate Includes(s: string, sub: string)
    decreases |s|
  {
    StartsWith(s, sub) || (|s| > 0 && Includes(s[1..], sub))
  }

  /** Every string includes the empty string. */
  lemma IncludesEmpty(s: string)
    ensures Includes(s, "")
  {
    assert StartsWith(s, "");
  }

  /** Case-insensitive `includes`, as the search boxes apply it. */
  predicate MatchesIgnoringCase(s: string, term: string)
  {
    Includes(ToLower(s), ToLower(term))
  }

  /** `s.split(sep)` for a one-character separator: the pieces between
      separators, including empty ones; splitting "" gives [""]. */
  function Split(s: string, sep: char): (r: seq<string>)
    ensures |r| >= 1
    ensures forall i :: 0 <= i < |r| ==> sep !in r[i]
    decreases |s|
  {
    if s == [] then [""]
    else
      var rest := Split(s[1..], sep);
      if s[0] == sep then [""] + rest
      else [[s[0]] + rest[0]] + rest[1..]
  }

  /** `xs.join(sep)`. */
  function Join(xs: seq<string>, sep: string): string
  {
    if |xs| == 0 then ""
    else if |xs| == 1 then xs[0]
    else xs[0] + sep + Join(xs[1..], sep)
  }

  /** A string without the separator splits into itself. */
  lemma {:induction false} SplitWithoutSeparator(s: string, sep: char)
    requires sep !in s
    ensures Split(s, sep) == [s]
  {
    if s != [] {
      SplitWithoutSeparator(s[1..], sep);
      assert [s[0]] + s[1..] == s;
    }
  }

  /** Splitting at one separator splits the two sides independently. */
  lemma {:induction false} SplitAtSeparator(a: string, b: string, sep: char)
    requires sep !in a
    ensures Split(a + [sep] + b, sep) == Split(a, sep) + Split(b, sep)
  {
    if a == [] {
      assert a + [sep] + b == [sep] + b;
      assert ([sep] + b)[1..] == b;
    } else {
      var s := a + [sep] + b;
      assert s[0] == a[0] && s[1..] == a[1..] + [sep] + b;
      SplitAtSeparator(a[1..], b, sep);
    }
  }

  /** The characters `trim` removes: ECMAScript white space and line terminators. */
  predicate IsSpace(c: char)
  {
    c == ' ' || c == '\t' || c == '\n' || c == '\r' || c == '\U{000B}' || c == '\U{000C}'
    || c == '\U{00A0}' || c == '\U{1680}' || ('\U{2000}' <= c <= '\U{200A}')
    || c == '\U{2028}' || c == '\U{2029}' || c == '\U{202F}' || c == '\U{205F}'
    || c == '\U{3000}' || c == '\U{FEFF}'
  }

  /** Neither end of `s` is white space. */
  predicate IsTrimmed(s: string)
  {
    s == [] || (!IsSpace(s[0]) && !IsSpace(s[|s| - 1]))
  }

  /** `s.trimStart()`. */
  function TrimStart(s: string): string
  {
    if s != [] && IsSpace(s[0]) then TrimStart(s[1..]) else s
  }

  /** `s.trimEnd()`. */
  function TrimEnd(s: string): string
  {
    if s != [] && IsSpace(s[|s| - 1]) then TrimEnd(s[..|s| - 1]) else s
  }

  /** `trimStart` removes a prefix, and what remains does not start with white space. */
  lemma {:induction false} TrimStartSuffix(s: string)
    ensures |TrimStart(s)| <= |s|
    ensures TrimStart(s) == s[|s| - |TrimStart(s)|..]
    ensures TrimStart(s) == [] || !IsSpace(TrimStart(s)[0])
  {
    if s != [] && IsSpace(s[0]) {
      TrimStartSuffix(s[1..]);
    }
  }

  /** `trimEnd` removes a suffix, and what remains does not end with white space. */
  lemma {:induction false} TrimEndPrefix(s: string)
    ensures |TrimEnd(s)| <= |s|
    ensures TrimEnd(s) == s[..|TrimEnd(s)|]
    ensures TrimEnd(s) == [] || !IsSpace(TrimEnd(s)[|TrimEnd(s)| - 1])
  {
    if s != [] && IsSpace(s[|s| - 1]) {
      TrimEndPrefix(s[..|s| - 1]);
    }
  }

  /** `s.trim()`. */
  function Trim(s: string): string
  {
    TrimEnd(TrimStart(s))
  }

  /** Neither end of a trimmed string is white space, and trimming only
      removes characters: `c` occurs in the result only if it occurs in `s`. */
  lemma TrimmedWithin(s: string, c: char)
    ensures IsTrimmed(Trim(s))
    ensures c in Trim(s) ==> c in s
  {
    var t := TrimStart(s);
    var r := TrimEnd(t);
    TrimStartSuffix(s);
    TrimEndPrefix(t);
    assert r != [] ==> r[0] == t[0];
    if c in r {
      var k :| 0 <= k < |r| && r[k] == c;
      assert r[k] == t[k] == s[|s| - |t| + k];
    }
  }

  /** Trimming a string that is already trimmed changes nothing. */
  lemma TrimOfTrimmed(s: string)
    requires IsTrimmed(s)
    ensures Trim(s) == s
  {
  }

  /** Leading spaces disappear under `trim`. */
  lemma TrimAfterSpace(s: string)
    requires IsTrimmed(s)
    ensures Trim(" " + s) == s
  {
    assert (" " + s)[1..] == s;
    assert TrimStart(" " + s) == TrimStart(s) == s;
  }
}

/** `String(n)` for natural numbers and its inverse. */
module Decimal {

  function DigitChar(d: nat): (c: char)
    requires d < 10
    ensures '0' <= c <= '9'
  {
    ('0' as int + d) as char
  }

  function DigitValue(c: char): nat
  {
    if '0' <= c <= '9' then c as int - '0' as int else 0
  }

  /** The decimal rendering of `n`, without leading zeros. */
  function NatToString(n: nat): (r: string)
    ensures |r| >= 1
    ensures forall k :: 0 <= k < |r| ==> '0' <= r[k] <= '9'
    decreases n
  {
    if n < 10 then [DigitChar(n)] else NatToString(n / 10) + [DigitChar(n % 10)]
  }

  function StringToNat(s: string): nat
  {
    if s == [] then 0 else 10 * StringToNat(s[..|s| - 1]) + DigitValue(s[|s| - 1])
  }

  /** Reading back a rendered number gives the number. */
  lemma {:induction false} StringToNatInverse(n: nat)
    ensures StringToNat(NatToString(n)) == n
    decreases n
  {
    if n >= 10 {
      StringToNatInverse(n / 10);
      var s := NatToString(n);
      assert s[..|s| - 1] == NatToString(n / 10);
    }
  }

  /** Distinct numbers render to distinct strings. */
  lemma NatToStringInjective(a: nat, b: nat)
    requires a != b
    ensures NatToString(a) != NatToString(b)
  {
    StringToNatInverse(a);
    StringToNatInverse(b);
  }
}

=== FILE: use_search.dfy ===
/** The search hook: it holds the typed query, the chosen type and an
    `isSearching` flag, and after each render whose debounced query or type
    changed it either runs a search through the store or clears the results. */
module UseSearch {
  import opened Common
  import opened SearchSlice

  /** What the effect dispatches. A search carries the query and the type,
      with `'all'` sent as no type at all. */
  datatype Action = Search(query: string, searchType: Option<SearchType>) | Clear

  /** The values the effect depends on. */
  datatype Deps = Deps(debouncedQuery: string, searchType: SearchType)

  /** The effect's decision: search for a non-empty query, clear otherwise. */
  function EffectAction(debouncedQuery: string, t: SearchType): (r: Action)
    ensures r.Clear? <==> debouncedQuery == ""
    ensures r.Search? ==> r.query == debouncedQuery
    ensures r.Search? ==> (r.searchType.None? <==> t == All)
    ensures r.Search? && r.searchType.Some? ==> r.searchType.value == t
  {
    if debouncedQuery == "" then Clear
    else Search(debouncedQuery, if t == All then None else Some(t))
  }

  class SearchHook {
    var query: string
    var searchType: SearchType
    var isSearching: bool
    /** The dependencies of the last effect run (none before the first render). */
    var lastDeps: Option<Deps>
    /** Every action the hook has dispatched, in order. */
    var dispatched: seq<Action>

    /** `useSearch(initialType = 'all')`. */
    constructor (initialType: Option<SearchType>)
      ensures searchType == (if initialType.Some? then initialType.value else All)
      ensures query == "" && !isSearching && lastDeps == None && dispatched == []
    {
      query := "";
      searchType := if initialType.Some? then initialType.value else All;
      isSearching := false;
      lastDeps := None;
      dispatched := [];
    }

    /** `setSearchType`. */
    method SetSearchType(t: SearchType)
      modifies this
      ensures searchType == t
      ensures query == old(query) && isSearching == old(isSearching)
      ensures lastDeps == old(lastDeps) && dispatched == old(dispatched)
    {
      searchType := t;
    }

    /** After a render with the given debounced query: when the query or the
        type changed since the last run, the effect runs once. A search sets
        `isSearching`, awaits the store's search (`response` is `None` when it
        fails), logs a failure instead of rethrowing it, and clears
        `isSearching` either way. An empty query clears the results instead. */
    method AfterRender(debouncedQuery: string, store: SearchState, response: Option<Results>, failure: Option<string>)
      returns (ran: bool, logged: bool)
      requires store.Valid()
      modifies this, store
      ensures store.Valid()
      ensures ran <==> old(lastDeps) != Some(Deps(debouncedQuery, old(searchType)))
      ensures !ran ==> dispatched == old(dispatched) && isSearching == old(isSearching)
      ensures !ran ==> store.results == old(store.results) && store.loading == old(store.loading)
      ensures !ran ==> store.error == old(store.error) && lastDeps == old(lastDeps) && !logged
      ensures ran ==> dispatched == old(dispatched) + [EffectAction(debouncedQuery, old(searchType))]
      ensures ran ==> lastDeps == Some(Deps(debouncedQuery, old(searchType)))
      ensures ran && debouncedQuery != "" ==> !isSearching && !store.loading
      ensures ran && debouncedQuery != "" && response.Some? ==>
        store.results == response.value && store.error == None && !logged
      ensures ran && debouncedQuery != "" && response.None? ==>
        store.results == old(store.results) && store.error == Some(OrElse(failure, "Search failed")) && logged
      ensures ran && debouncedQuery == "" ==> store.results == NoResults && !logged
      ensures ran && debouncedQuery == "" ==>
        isSearching == old(isSearching) && store.loading == old(store.loading) && store.error == old(store.error)
      ensures searchType == old(searchType) && query == old(query)
      ensures store.searchType == old(store.searchType)
    {
      ran := lastDeps != Some(Deps(debouncedQuery, searchType));
      logged := false;
      if !ran {
        return;
      }
      lastDeps := Some(Deps(debouncedQuery, searchType));
      var action := EffectAction(debouncedQuery, searchType);
      dispatched := dispatched + [action];
      if debouncedQuery != "" {
        isSearching := true;
        store.SearchPending();
        if response.Some? {
          store.SearchFulfilled(response.value);
        } else {
          store.SearchRejected(failure);
          logged := true;
        }
        isSearching := false;
      } else {
        store.ClearResults();
      }
    }
  }

  /** Changing only the type re-runs the effect with the same query. */
  method TypeChangeReruns(q: string, t1: SearchType, t2: SearchType, response: Option<Results>)
    returns (actions: seq<Action>)
    requires q != "" && t1 != t2
    ensures actions == [EffectAction(q, t1), EffectAction(q, t2)]
    ensures actions[1].Search? && actions[1].query == q
  {
    var store := new SearchState();
    var hook := new SearchHook(Some(t1));
    var _, _ := hook.AfterRender(q, store, response, None);
    hook.SetSearchType(t2);
    var _, _ := hook.AfterRender(q, store, response, None);
    actions := hook.dispatched;
  }
}

=== FILE: user_avatar.dfy ===
/** The round avatar that shows a user's initials. */
module UserAvatar {
  import opened Common
  import opened Text

  datatype Size = Small | Medium | Large

  /** The size classes; an absent size is treated as medium, and only
      medium gets the medium classes. */
  function SizeClasses(size: Option<Size>): (r: string)
    ensures r == "w-10 h-10 text-base" <==> size.None? || size.value == Medium
  {
    match size
    case None => "w-10 h-10 text-base"
    case Some(Small) => "w-8 h-8 text-sm"
    case Some(Medium) => "w-10 h-10 text-base"
    case Some(Large) => "w-12 h-12 text-lg"
  }

  /** `pieces.map(n => n[0]).join('')`: the first character of every piece;
      an empty piece yields `undefined`, which `join` renders as nothing. */
  function FirstChars(pieces: seq<string>): string
  {
    if pieces == [] then ""
    else (if pieces[0] == "" then "" else [pieces[0][0]]) + FirstChars(pieces[1..])
  }

  /** The characters of `s` that begin a word: not a space, and either first
      or right after a space (`atStart` says whether the previous character
      was a space or there was none). */
  function WordStarts(s: string, atStart: bool): string
  {
    if s == [] then ""
    else if s[0] == ' ' then WordStarts(s[1..], true)
    else (if atStart then [s[0]] else "") + WordStarts(s[1..], false)
  }

  /** Splitting on spaces and taking first characters gives exactly the word
      starts: empty pieces from repeated, leading or trailing spaces add
      nothing. */
  lemma {:induction false} FirstCharsOfSplit(s: string)
    ensures FirstChars(Split(s, ' ')) == WordStarts(s, true)
    ensures FirstChars(Split(s, ' ')[1..]) == WordStarts(s, false)
  {
    if s != [] {
      var rest := Split(s[1..], ' ');
      FirstCharsOfSplit(s[1..]);
      if s[0] == ' ' {
        assert Split(s, ' ') == [""] + rest;
        assert Split(s, ' ')[1..] == rest;
      } else {
        assert Split(s, ' ') == [[s[0]] + rest[0]] + rest[1..];
        assert Split(s, ' ')[1..] == rest[1..];
      }
    }
  }

  function Min(a: int, b: int): int
  {
    if a < b then a else b
  }

  /** The initials: the first two word starts of the name, upper-cased. */
  function Initials(name: string): (r: string)
    ensures |r| <= 2
    ensures var starts := ToUpper(WordStarts(name, true)); r == starts[..Min(2, |starts|)]
  {
    var all := ToUpper(FirstChars(Split(name, ' ')));
    FirstCharsOfSplit(name);
    all[..Min(2, |all|)]
  }

  /** An empty name has no initials; one word has exactly one. */
  lemma InitialsOfOneWord(name: string)
    ensures name == "" ==> Initials(name) == ""
    ensures name != "" && ' ' !in name ==> Initials(name) == [UpperChar(name[0])]
  {
    if name != "" && ' ' !in name {
      SplitWithoutSeparator(name, ' ');
      FirstCharsOfSplit(name);
      assert FirstChars(Split(name, ' ')) == [name[0]];
    }
  }
}

=== FILE: websocket_context.dfy ===
/** The provider that binds the push channel to the session token and hands
    out send/typing functions that delegate to the one service object. */
module WebSocketContext {
  import opened Common
  import opened WebSocketService

  /** What the provider puts in the context: the service its functions call. */
  datatype ContextValue = ContextValue(service: Service)

  /** The effect run whenever the token changes: a truthy token connects, an
      absent or empty one disconnects. */
  method BindToken(service: Service, token: Option<string>)
    requires service.Valid()
    modifies service
    ensures service.Valid()
    ensures token.Some? && token.value != "" ==>
      service.token == token && service.socket == Some(old(service.created)) &&
      service.open == old(service.open) + {old(service.created)} && service.closed == old(service.closed) &&
      service.created == old(service.created) + 1
    ensures token.None? || token.value == "" ==>
      service.token == None && service.socket == None && service.created == old(service.created)
    ensures (token.None? || token.value == "") && old(service.socket).Some? ==>
      service.closed == old(service.closed) + [old(service.socket).value] &&
      service.open == old(service.open) - {old(service.socket).value}
    ensures (token.None? || token.value == "") && old(service.socket).None? ==>
      service.closed == old(service.closed) && service.open == old(service.open)
    ensures service.sent == old(service.sent)
  {
    if token.Some? && token.value != "" {
      service.Connect(token.value);
    } else {
      service.Disconnect();
    }
  }

  /** The token changes from one value to another: the provider connects
      again without disconnecting first, so both sockets stay open and
      nothing is ever closed. */
  method TokenSwitch(first: string, second: string) returns (openSockets: nat, disconnects: nat)
    requires first != "" && second != ""
    ensures openSockets == 2 && disconnects == 0
  {
    var service := new Service();
    BindToken(service, Some(first));
    BindToken(service, Some(second));
    openSockets := |service.open|;
    disconnects := |service.closed|;
  }

  /** The context's `sendMessage`: forwarded unchanged to the service. */
  method ContextSendMessage(ctx: ContextValue, conversationId: string, content: string)
    requires ctx.service.Valid()
    modifies ctx.service
    ensures ctx.service.Valid()
    ensures ctx.service.sent == if old(ctx.service.socket).Some?
      then old(ctx.service.sent) + [Emission(old(ctx.service.socket).value, SendMessage(conversationId, content))]
      else old(ctx.service.sent)
    ensures ctx.service.socket == old(ctx.service.socket) && ctx.service.open == old(ctx.service.open)
    ensures ctx.service.token == old(ctx.service.token) && ctx.service.created == old(ctx.service.created)
    ensures ctx.service.closed == old(ctx.service.closed)
  {
    ctx.service.SendMessageEvent(conversationId, content);
  }

  /** The context's `startTyping`: forwarded unchanged to the service. */
  method ContextStartTyping(ctx: ContextValue, conversationId: string)
    requires ctx.service.Valid()
    modifies ctx.service
    ensures ctx.service.Valid()
    ensures ctx.service.sent == if old(ctx.service.socket).Some?
      then old(ctx.service.sent) + [Emission(old(ctx.service.socket).value, TypingStart(conversationId))]
      else old(ctx.service.sent)
    ensures ctx.service.socket == old(ctx.service.socket) && ctx.service.open == old(ctx.service.open)
    ensures ctx.service.token == old(ctx.service.token) && ctx.service.created == old(ctx.service.created)
    ensures ctx.service.closed == old(ctx.service.closed)
  {
    ctx.service.StartTyping(conversationId);
  }

  /** The context's `stopTyping`: forwarded unchanged to the service. */
  method ContextStopTyping(ctx: ContextValue, conversationId: string)
    requires ctx.service.Valid()
    modifies ctx.service
    ensures ctx.service.Valid()
    ensures ctx.service.sent == if old(ctx.service.socket).Some?
      then old(ctx.service.sent) + [Emission(old(ctx.service.socket).value, TypingStop(conversationId))]
      else old(ctx.service.sent)
    ensures ctx.service.socket == old(ctx.service.socket) && ctx.service.open == old(ctx.service.open)
    ensures ctx.service.token == old(ctx.service.token) && ctx.service.created == old(ctx.service.created)
    ensures ctx.service.closed == old(ctx.service.closed)
  {
    ctx.service.StopTyping(conversationId);
  }

  /** `useWebSocket`: outside a provider the context is null and the hook throws. */
  function UseWebSocket(context: Option<ContextValue>): (r: Result<ContextValue>)
    ensures r.Err? <==> context.None?
    ensures r.Err? ==> r.message == "useWebSocket must be used within a WebSocketProvider"
    ensures r.Ok? ==> r.value == context.value
  {
    match context
    case None => Err("useWebSocket must be used within a WebSocketProvider")
    case Some(v) => Ok(v)
  }
}

=== FILE: websocket_service.dfy ===
/** The client's push channel: a service object holding at most one socket
    and the token it was opened with. Outbound events are emitted on the
    current socket; inbound events are routed into the store. */
module WebSocketService {
  import opened Common
  import MessageSlice
  import NotificationSlice

  /** Each call of the socket library's `connect` yields a new socket. */
  type SocketId = nat

  /** The outbound events and their payloads. */
  datatype OutEvent =
    | SendMessage(conversationId: string, content: string)
    | TypingStart(conversationId: string)
    | TypingStop(conversationId: string)

  /** One `emit` on a given socket. */
  datatype Emission = Emission(socket: SocketId, event: OutEvent)

  class Service {
    var socket: Option<SocketId>
    var token: Option<string>
    /** The number of sockets created so far, which also names the next one. */
    var created: nat
    /** Sockets created and not yet disconnected: the library keeps each of
        them connected, with its listeners attached, until `disconnect` is
        called on it. */
    var open: set<SocketId>
    /** Every `socket.disconnect()` call, in order. */
    var closed: seq<SocketId>
    /** Every `socket.emit`, in order. */
    var sent: seq<Emission>

    /** The current socket is open, a socket and a token are held together,
        and no socket is ever disconnected twice. */
    ghost predicate Valid()
      reads this
    {
      && (socket.Some? ==> socket.value in open)
      && (socket.None? <==> token.None?)
      && (forall s :: s in open ==> s < created)
      && (forall i :: 0 <= i < |closed| ==> closed[i] < created && closed[i] !in open)
      && (forall i, j :: 0 <= i < j < |closed| ==> closed[i] != closed[j])
    }

    /** A fresh service has neither socket nor token. */
    constructor ()
      ensures Valid()
      ensures socket == None && token == None
      ensures created == 0 && open == {} && closed == [] && sent == []
    {
      socket := None;
      token := None;
      created := 0;
      open := {};
      closed := [];
      sent := [];
    }

    /** `connect(token)`: a new socket replaces the current one, which is not
        disconnected and so stays open. */
    method Connect(t: string)
      requires Valid()
      modifies this
      ensures Valid()
      ensures token == Some(t) && socket == Some(old(created))
      ensures created == old(created) + 1
      ensures open == old(open) + {old(created)}
      ensures old(socket).Some? ==> old(socket).value in open && socket != old(socket)
      ensures closed == old(closed) && sent == old(sent)
    {
      token := Some(t);
      socket := Some(created);
      open := open + {created};
      created := created + 1;
    }

    /** `disconnect()`: the current socket, if any, is disconnected once and
        dropped; the token is cleared either way. */
    method Disconnect()
      requires Valid()
      modifies this
      ensures Valid()
      ensures socket == None && token == None
      ensures old(socket).Some? ==> closed == old(closed) + [old(socket).value] && open == old(open) - {old(socket).value}
      ensures old(socket).None? ==> closed == old(closed) && open == old(open)
      ensures created == old(created) && sent == old(sent)
    {
      if socket.Some? {
        closed := closed + [socket.value];
        open := open - {socket.value};
        socket := None;
      }
      token := None;
    }

    /** Emits `e` on the current socket; without a socket nothing happens and
        nothing is queued. */
    method Emit(e: OutEvent)
      requires Valid()
      modifies this
      ensures Valid()
      ensures sent == if old(socket).Some? then old(sent) + [Emission(old(socket).value, e)] else old(sent)
      ensures socket == old(socket) && token == old(token)
      ensures created == old(created) && open == old(open) && closed == old(closed)
    {
      if socket.Some? {
        sent := sent + [Emission(socket.value, e)];
      }
    }

    /** `sendMessage(conversationId, content)`. */
    method SendMessageEvent(conversationId: string, content: string)
      requires Valid()
      modifies this
      ensures Valid()
      ensures sent == if old(socket).Some?
        then old(sent) + [Emission(old(socket).value, SendMessage(conversationId, content))]
        else old(sent)
      ensures socket == old(socket) && token == old(token)
      ensures created == old(created) && open == old(open) && closed == old(closed)
    {
      Emit(SendMessage(conversationId, content));
    }

    /** `startTyping(conversationId)`. */
    method StartTyping(conversationId: string)
      requires Valid()
      modifies this
      ensures Valid()
      ensures sent == if old(socket).Some?
        then old(sent) + [Emission(old(socket).value, TypingStart(conversationId))]
        else old(sent)
      ensures socket == old(socket) && token == old(token)
      ensures created == old(created) && open == old(open) && closed == old(closed)
    {
      Emit(TypingStart(conversationId));
    }

    /** `stopTyping(conversationId)`. */
    method StopTyping(conversationId: string)
      requires Valid()
      modifies this
      ensures Valid()
      ensures sent == if old(socket).Some?
        then old(sent) + [Emission(old(socket).value, TypingStop(conversationId))]
        else old(sent)
      ensures socket == old(socket) && token == old(token)
      ensures created == old(created) && open == old(open) && closed == old(closed)
    {
      Emit(TypingStop(conversationId));
    }
  }

  /** The `new_message` listener: it dispatches `addMessage` with the bare
      message, so the reducer reads the message's own `conversationId`
      property as the key and its (absent) `message` property as the item to
      append. */
  method OnNewMessage(messages: MessageSlice.MessageState, m: MessageSlice.Message) returns (threw: bool)
    modifies messages
    ensures threw <==> old(messages.selectedConversation).None? && m.conversationId.None?
    ensures threw ==> messages.conversations == old(messages.conversations)
    ensures threw ==> messages.selectedConversation == old(messages.selectedConversation)
    ensures !threw ==> messages.conversations == MessageSlice.AppendToFirst(old(messages.conversations), m.conversationId, None)
    ensures !threw ==> messages.selectedConversation == MessageSlice.AppendIfSelected(old(messages.selectedConversation), m.conversationId, None)
    ensures messages.loading == old(messages.loading) && messages.error == old(messages.error)
  {
    threw := messages.AddMessage(MessageSlice.AddMessagePayload(m.conversationId, None));
  }

  /** What a pushed message does to a conversation list: the message itself is
      never stored anywhere, and when the message has no `conversationId`
      (the server names that field `conversation_id`) and every conversation
      has an id, the list does not change at all. */
  lemma PushedMessageIsLost(convs: seq<MessageSlice.Conversation>, m: MessageSlice.Message)
    ensures forall i :: 0 <= i < |convs| ==>
      Some(m) !in MessageSlice.AppendToFirst(convs, m.conversationId, None)[i].messages[|convs[i].messages|..]
    ensures m.conversationId.None? && (forall i :: 0 <= i < |convs| ==> convs[i].id.Some?) ==>
      MessageSlice.AppendToFirst(convs, m.conversationId, None) == convs
  {
  }

  /** The `new_notification` listener: `addNotification` with the
      notification as it arrived. */
  method OnNewNotification(notifications: NotificationSlice.NotificationState, n: NotificationSlice.Notification)
    requires notifications.Valid()
    modifies notifications
    ensures notifications.Valid()
    ensures notifications.notifications == [n] + old(notifications.notifications)
    ensures notifications.unreadCount == old(notifications.unreadCount) + 1
    ensures notifications.loading == old(notifications.loading) && notifications.error == old(notifications.error)
  {
    notifications.AddNotification(n);
  }
}
